=== FILE: README.md ===
# Lidl Plus receipt client, modelled in Dafny

This project models the core of `lidl-receipt-client`, a command-line
client for the Lidl Plus receipt service. The client does two things:

- **`fetch`** downloads the paginated receipt listing. Then, for each listed
  receipt in turn, it adds the total the listing announces to a running sum
  and downloads the receipt into a cache directory, so a total that is not a
  decimal stops the run after the earlier receipts were downloaded. The OAuth
  token pair is refreshed whenever the access token has expired.
- **`analyze`** reads the cached receipts and turns every line item into a
  `BoughtItem`. Amounts are written with a decimal comma and read as exact
  decimals. The items are grouped by article description, each article's
  spend is summed, and the sums are listed in ascending order together with
  their grand total.

The files, one module each:

| file | module | what it holds |
|---|---|---|
| `wrappers.dfy` | `Wrappers` | `Option`, `Result`, and `MapAll`, which applies a conversion to every element in order and stops at the first failure, as a Python loop does |
| `decimal.dfy` | `Decimal` | reading `Decimal(price.replace(",", "."))` as an exact rational, and writing amounts back out to state round trips |
| `model.dfy` | `Model` | the data classes, `eu_to_us_fp`, `BoughtItem.Deposit.from_deposit`, `BoughtItem.from_receipt` |
| `orders.dfy` | `Orders` | Python's `<=` on `str` and on decimals, and the total-order facts sorting needs |
| `sorting.dfy` | `Sorting` | `list.sort(key=...)` as a stable sort: sorted, a permutation, stable |
| `grouping.dfy` | `Grouping` | `itertools.groupby` and left-to-right sums |
| `analyze.dfy` | `Analyze` | `serialize` and `group_sum_by_article` |
| `fetch.dfy` | `Fetch` | `AuthContext`, `check_auth`, `request_ticket`, `request_tickets`, `get_receipts` |
| `commands.dfy` | `Commands` | the `fetch` command, `fetch_all_receipts` |

Decimals are Dafny `real`s: exact rationals, as Python's `Decimal` is exact
for these amounts. The receipt service, the token refresh endpoint, token
decoding and the clock form one value `Env` of answers. The cache directory
is a map from receipt id to receipt. Every observable action (a refresh, a
listing request, a receipt request, a cache read, a cache write) is appended
to a trace, and the contracts count and order calls by reading that trace.
`Thread` replays a trace to check that each call used the token pair the
previous call handed back. The replay also checks `check_auth`'s timing. A
request is accepted only if its access token is unexpired at that point in
the trace, or if it comes right after the refresh that produced it. A refresh
is accepted only when the current access token is missing or expired. A
refresh that no request follows is rejected as well.

## Model

| member | source | states |
|---|---|---|
| Wrappers.MapAll | src/lidl_receipt_client/analyze.py:22-35 | Converting a list in order succeeds exactly when every element converts. The values are then the conversions element by element. Otherwise the error is the one of the first element that fails. |
| Wrappers.MapAllConcat | src/lidl_receipt_client/analyze.py:18-35 | Converting a concatenation converts the first part, then the second; a failure in the first part ends the conversion there. |
| Wrappers.MapAllPair | src/lidl_receipt_client/analyze.py:22-35 | Two elements that both convert give their two conversions, in order. |
| Wrappers.FirstFailure | src/lidl_receipt_client/analyze.py:22-35 | The index of the first element whose conversion fails: all before it succeed, and it fails unless it is the end. |
| Decimal.CommaToDot | src/lidl_receipt_client/model.py:79 | `replace(",", ".")` keeps the length and swaps each comma for a point, leaving every other character alone. |
| Decimal.CommaRoundTrip | src/lidl_receipt_client/model.py:78-79 | Any amount m·10⁻ᵏ written the canonical way `Format` writes it (a '-' for negatives, no '+', no leading zeros, exactly k fraction digits after a comma) reads back as exactly that amount. |
| Decimal.FormatRoundTrip | src/lidl_receipt_client/model.py:78-79 | An amount m·10⁻ᵏ written with either separator reads as the exact quotient m / 10ᵏ. |
| Decimal.SignedRoundTrip | src/lidl_receipt_client/model.py:79 | `Decimal` on a point-separated signed amount is the exact amount written. |
| Decimal.SeparatorsAgree | src/lidl_receipt_client/model.py:78-79 | Two texts that differ only by using comma or point as separators read as the same amount, or both fail. |
| Decimal.CentsRead | src/lidl_receipt_client/model.py:78-79 | A digit, a comma and two digits read as the three digits' value in hundredths. |
| Decimal.CommaFormIsDotForm | src/lidl_receipt_client/model.py:79 | Replacing commas in a comma-written amount gives the point-written amount. |
| Decimal.NegativeParse | src/lidl_receipt_client/model.py:79 | A leading minus negates the amount read. |
| Decimal.ParseWhole | src/lidl_receipt_client/model.py:79 | A string of digits with no separator reads as that whole number. |
| Decimal.PriceExample | src/lidl_receipt_client/model.py:78-79 | "1,99" reads as exactly 1.99. |
| Decimal.SeparatorExample | src/lidl_receipt_client/model.py:78-79 | "4,50" and "4.50" both read as 4.50. |
| Decimal.TrailingZeroExamples | src/lidl_receipt_client/model.py:78-79 | "5,00" reads as 5 and "2,50" as 2.5: trailing zeros do not change the value. |
| Decimal.MalformedExample | src/lidl_receipt_client/model.py:78-79 | "1,2,3" becomes "1.2.3", which is not a decimal, so reading raises. |
| Model.EuToUs | src/lidl_receipt_client/model.py:78-79 | `eu_to_us_fp` succeeds exactly when the text is a written amount: an optional '+' or '-', digits, and optionally one ',' or '.' followed by digits, with at least one digit in all ("1,99", "+1,99", "01,99", ",5", "1,", "-0,00"). It then gives exactly the whole digits plus the fraction digits in units of 10⁻ᵏ, negated after '-'; k is the number of fraction digits. Every other text raises. The text carried by the error is a tag of this model; CPython's `InvalidOperation` does not carry it. |
| Decimal.WrittenAmounts | src/lidl_receipt_client/model.py:78-79 | `Decimal(price.replace(",", "."))` accepts exactly the written amounts, and each converts to exactly its written value, however it is split into sign, whole digits, separator and fraction digits. |
| Decimal.WrittenExact | src/lidl_receipt_client/model.py:78-79 | A written amount, with any sign, leading zeros, separator and number of fraction digits, converts to exactly its written value. |
| Decimal.WrittenShape | src/lidl_receipt_client/model.py:78-79 | Every text that converts is a written amount. |
| Model.CommaAmountsExact | src/lidl_receipt_client/model.py:78-79 | Every amount written with a comma the canonical way `Format` writes it (no '+', no leading zeros) reads, after the comma is replaced, as the exact rational it denotes. |
| Model.ConvertAll | src/lidl_receipt_client/model.py:122-133 | Converting a list of amount texts succeeds exactly when all are amounts, giving each one's value; otherwise it raises for the first text that is not. |
| Model.FromDeposit | src/lidl_receipt_client/model.py:91-98 | `from_deposit` succeeds exactly when unit price and amount are both amounts; quantity and description are copied, the prices converted; otherwise the first bad text, in evaluation order, is reported. |
| Model.FromReceipt | src/lidl_receipt_client/model.py:110-141 | `from_receipt` succeeds exactly when the extended amount, the original amount, the deposit's amounts if there is a deposit, the unit price and the quantity all read. Total is the extended amount. Discount is original minus extended, so discount plus total is the original amount, and the discount is non-negative exactly when the original amount is at least the extended one. The deposit is converted exactly when present, and the flag, description, store and date are copied. A failure names the first bad text in Python's evaluation order. |
| Model.ItemAmountsLayout | src/lidl_receipt_client/model.py:122-133 | The order in which `from_receipt` converts its amounts: extended, original, the deposit's two, unit price, quantity. |
| Model.UnitQuantity | src/lidl_receipt_client/model.py:78-79 | A quantity of "1" reads as exactly one. |
| Model.DiscountExample | src/lidl_receipt_client/model.py:122-136 | An item paid 4,50 instead of 5,00 has total 4.50 and discount exactly 0.50. |
| Orders.LexLeTotalOrder | src/lidl_receipt_client/analyze.py:42 | Python's string comparison is reflexive, total, transitive and antisymmetric, so sorting by description is well defined. |
| Orders.LexLeTransitive | src/lidl_receipt_client/analyze.py:42 | String comparison is transitive. |
| Orders.LexLeAntisymmetric | src/lidl_receipt_client/analyze.py:42 | Two strings each at most the other are equal. |
| Orders.RealLeTotalOrder | src/lidl_receipt_client/analyze.py:53 | Comparison of decimal sums is a total order. |
| Orders.CaseMatters | src/lidl_receipt_client/analyze.py:42-45 | "Milk" sorts strictly before "milk": descriptions are compared exactly, with no case folding. |
| Sorting.SortPermutes | src/lidl_receipt_client/analyze.py:42 | Sorting keeps exactly the same elements, each as often. |
| Sorting.SortSorted | src/lidl_receipt_client/analyze.py:42 | Sorting by a key under a total order gives ascending key order. |
| Sorting.SortStable | src/lidl_receipt_client/analyze.py:42 | For every key the sorted list holds the same elements with that key, in the same order, as the input. |
| Sorting.SortKeepsTies | src/lidl_receipt_client/analyze.py:53 | Elements with equal keys keep the relative order they had in the input. |
| Sorting.SortDistinct | src/lidl_receipt_client/analyze.py:53 | Sorting keeps any key that was distinct across elements distinct. |
| Sorting.InsertPos | src/lidl_receipt_client/analyze.py:42 | Every element before the insertion point has a key strictly below the inserted element's key, and the element at the insertion point has a key at or above it, so an element is placed ahead of any equal keys that follow it. |
| Sorting.KeyFilterConcat | src/lidl_receipt_client/analyze.py:42 | Filtering by key distributes over concatenation. |
| Grouping.GroupRuns | src/lidl_receipt_client/analyze.py:43-45 | `groupby` yields no runs exactly when there are no elements. |
| Grouping.GroupRunsShape | src/lidl_receipt_client/analyze.py:43-45 | The runs are nonempty and every element of a run carries the run's key. Neighbouring runs have different keys, and the first run has the first element's key. |
| Grouping.GroupRunsFlatten | src/lidl_receipt_client/analyze.py:43-45 | The runs read one after another are the input: nothing is lost or added. |
| Grouping.GroupRunsIncreasing | src/lidl_receipt_client/analyze.py:42-45 | On sorted input the run keys strictly ascend, so no key occurs in two runs. |
| Grouping.GroupRunsCollect | src/lidl_receipt_client/analyze.py:42-45 | On sorted input each run holds exactly the input's elements with its key, in input order. |
| Grouping.CollectPrefix | src/lidl_receipt_client/analyze.py:42-45 | When a prefix holds the key and nothing after it does, filtering on the key keeps exactly that prefix. |
| Grouping.GroupRunsKeys | src/lidl_receipt_client/analyze.py:43-45 | The set of run keys is the set of the input's keys. |
| Grouping.SortKeySet | src/lidl_receipt_client/analyze.py:42 | Sorting keeps the set of keys. |
| Grouping.DistinctKeysCount | src/lidl_receipt_client/analyze.py:47-52 | A list with pairwise distinct keys has as many keys as elements. |
| Grouping.SumByConcat | src/lidl_receipt_client/analyze.py:49-51 | A left-to-right sum over a concatenation is the sum of the parts. |
| Grouping.SortSum | src/lidl_receipt_client/analyze.py:53-56 | Sorting does not change a sum. |
| Analyze.Serialize | src/lidl_receipt_client/analyze.py:16-36 | `serialize`, computed receipt by receipt, equals converting the flat list of all line items in order. It succeeds exactly when every item converts, gives each item's conversion in order, and otherwise raises the first failure. |
| Analyze.LinesCount | src/lidl_receipt_client/analyze.py:18-35 | There is one line per line item over all receipts. |
| Analyze.LinesAt | src/lidl_receipt_client/analyze.py:18-35 | Item i of receipt r sits right after the items of all earlier receipts. |
| Analyze.SerializeCount | src/lidl_receipt_client/analyze.py:16-36 | A successful `serialize` yields exactly one bought item per line item. |
| Analyze.SerializeItem | src/lidl_receipt_client/analyze.py:22-33 | The bought item for item i of receipt r is that item converted. It carries its own receipt's store code and date, the item's description, and the item's paid amount as total. |
| Analyze.SumRuns | src/lidl_receipt_client/analyze.py:47-52 | One summed group per run, in run order, each the run's key with the sum of its items' totals. |
| Analyze.GroupSumByArticle | src/lidl_receipt_client/analyze.py:39-58 | The analysis succeeds exactly when `serialize` does, and a conversion error propagates unchanged. |
| Analyze.SumRunsTotal | src/lidl_receipt_client/analyze.py:47-52 | The group sums add up to the sum over all grouped items. |
| Analyze.SummedSums | src/lidl_receipt_client/analyze.py:42-52 | Each group's sum is the exact sum over all items with its description, and at least one such item exists. |
| Analyze.SummedOrder | src/lidl_receipt_client/analyze.py:42-52 | Before the sort by sum the groups come in strictly ascending description order. |
| Analyze.SummedKeys | src/lidl_receipt_client/analyze.py:42-52 | The groups' descriptions are exactly the items' descriptions. |
| Analyze.SummedTotal | src/lidl_receipt_client/analyze.py:42-52 | The group sums add up to the sum of every item's total. |
| Analyze.ReportSums | src/lidl_receipt_client/analyze.py:42-57 | Every logged article line is the exact sum over all items with that description. |
| Analyze.ReportDescriptions | src/lidl_receipt_client/analyze.py:42-57 | Every description among the items is logged exactly once, and no other. |
| Analyze.ReportOrder | src/lidl_receipt_client/analyze.py:53-57 | Lines are logged in ascending order of sum; lines with equal sums keep ascending description order, as the stable sort leaves them. |
| Analyze.ReportTotal | src/lidl_receipt_client/analyze.py:54-58 | The logged total is the exact sum of every bought item's total. |
| Analyze.EmptyReport | src/lidl_receipt_client/analyze.py:39-58 | With no receipts nothing is logged per article and the total is 0. |
| Analyze.ExampleItemConverts | src/lidl_receipt_client/model.py:110-141 | An item paid in full at a price converts to that price, with total equal to the price and discount 0. |
| Analyze.CaseSensitiveTotals | src/lidl_receipt_client/analyze.py:42-58 | "Milk" at 1.99 and "milk" at 2.50 are two articles, and their total is exactly 4.49. |
| Analyze.SerializeTwo | src/lidl_receipt_client/analyze.py:16-36 | A receipt with two convertible items serializes to their two bought items, in order. |
| Analyze.LinesOne | src/lidl_receipt_client/analyze.py:18-22 | The line items of a single receipt are that receipt's items, in order. |
| Analyze.MilkExample | src/lidl_receipt_client/analyze.py:39-58 | One receipt with "Milk" at "1,99" and "milk" at "2,50" gives two articles and a total of exactly 4.49. |
| Fetch.CheckAuth | src/lidl_receipt_client/receipts.py:42-49 | `check_auth` keeps the pair while the access token is present and unexpired. Otherwise it calls the refresh endpoint once with the refresh token and returns its answer. The cache is untouched. |
| Fetch.CheckAuthEffects | src/lidl_receipt_client/receipts.py:42-49 | `check_auth` refreshes exactly when the token has expired or is missing, and makes no request to the receipt service. Its replay ends in the pair it returns, marked as just refreshed exactly when it refreshed. |
| Fetch.ReplayChecks | src/lidl_receipt_client/receipts.py:42-49 | In any accepted replay, each request uses a token unexpired at its position or comes right after a refresh, and each refresh before the end is followed by a request. |
| Fetch.ThreadChecks | src/lidl_receipt_client/receipts.py:65-75 | In any threaded trace, every receipt or listing request uses an access token that is unexpired at that moment, or comes right after the refresh that produced it. Every refresh is followed by a request. |
| Fetch.UncheckedRejected | src/lidl_receipt_client/receipts.py:92-102 | A trace that starts with a request while the access token is expired or missing is not threaded. Neither is one that starts with a refresh while the token is still valid. |
| Fetch.ThreadConcat | src/lidl_receipt_client/receipts.py:121-137 | Threading consecutive traces continues from the pair the first one ends in. |
| Fetch.RequestTicket | src/lidl_receipt_client/receipts.py:52-83 | With the cache preferred and holding the id, the cached receipt and the unchanged pair are returned. Otherwise the tokens are checked and the receipt is requested with the checked access token. A non-200 answer gives nothing and leaves the cache alone; a 200 answer gives the receipt and writes it to the cache under its id. |
| Fetch.RequestTicketEffects | src/lidl_receipt_client/receipts.py:52-83 | A cache hit makes no service call and no refresh. A miss, including a cached id that is not preferred, requests exactly that id once and refreshes at most once. The returned pair is the one the calls were made with. |
| Fetch.HitEffects | src/lidl_receipt_client/receipts.py:60-64 | A cache hit records exactly one cache read for the id and makes no service call or refresh. |
| Fetch.FetchEffects | src/lidl_receipt_client/receipts.py:65-83 | A miss requests exactly the given id once, refreshes at most once, and reads nothing from the cache. |
| Fetch.RequestTicketThenCached | src/lidl_receipt_client/receipts.py:60-64 | A receipt once obtained is served again from the cache, unchanged, with no further request to the service. |
| Fetch.RequestTicketCache | src/lidl_receipt_client/receipts.py:60-83 | After `request_ticket` the cache is the cache before it with each receipt the service answered 200 for written under its id. A hit, a refresh or a non-200 answer writes nothing. |
| Fetch.CacheAfterKeys | src/lidl_receipt_client/receipts.py:78-82 | Replaying the service's deliveries only adds entries. An id is new in the cache only if it was requested, and an entry whose id was not requested keeps its receipt. |
| Fetch.CacheAfterConcat | src/lidl_receipt_client/receipts.py:78-82 | The cache after consecutive traces is the cache after the first, replayed through the second. |
| Fetch.CacheAfterUnrequested | src/lidl_receipt_client/receipts.py:78-82 | A trace with no receipt request leaves the cache as it was. |
| Fetch.RequestTickets | src/lidl_receipt_client/receipts.py:86-108 | `request_tickets` checks the tokens and requests the given page with the checked access token. It returns the page and pair on 200 and raises "failed to retrieve receipts" for that page otherwise. The cache is untouched. |
| Fetch.RequestTicketsEffects | src/lidl_receipt_client/receipts.py:86-108 | One listing request, for exactly the given page, with the threaded pair; at most one refresh; no receipt requests or cache reads. |
| Fetch.TruncDiv | src/lidl_receipt_client/receipts.py:130 | `int(a / b)` has the magnitude of the magnitudes' quotient and the sign of the quotient, rounding toward zero. |
| Fetch.PageTotalCovers | src/lidl_receipt_client/receipts.py:129-134 | With a positive page size, the pages requested cover every announced record, and only the last page can lie wholly past the end. It does whenever the count is a multiple of the page size. |
| Fetch.PageTotalExample | src/lidl_receipt_client/receipts.py:129-134 | 50 records in pages of 25 lead to 3 pages being requested; 0 records to 1. |
| Fetch.GetReceipts | src/lidl_receipt_client/receipts.py:111-145 | On success pages 1 to N were requested, in order and each once. N is 1 unless page 1 announces a positive count; then it is `int(totalCount / size) + 1`, but at least 1. Every page was answered 200. Each request used the pair the previous call returned, with a token unexpired at that moment or just refreshed, and refreshes happened only for an expired token. The result is page 1's header with the page number advanced N-1 times and all pages' records in order. A non-200 page raises at that page after pages 1 to it were requested, and a zero page size with a positive count raises. The cache is untouched and no receipt is requested. |
| Fetch.ListedNext | src/lidl_receipt_client/receipts.py:134-139 | One more loop turn requests the next page, appends its records and advances the page number, or raises for that page. |
| Fetch.ListRest | src/lidl_receipt_client/receipts.py:134-143 | The page loop, from page 2 on, ends with every page up to the computed last one requested in order, or raises for the first page that is not answered 200. It leaves the cache alone. |
| Fetch.Compose | src/lidl_receipt_client/receipts.py:111-145 | Call counts, requested pages, receipts and listed records of consecutive traces add up. |
| Commands.FetchAllReceipts | src/lidl_receipt_client/main.py:39-64 | On success the listing is complete: pages 1 to the count page 1 announced were requested in order and all answered 200. The result is the exact sum of the listed totals. Every listed receipt was handled once, in listing order. Without the cache preferred all came from the service. With it preferred, exactly the receipts missing from the starting cache were requested, so none at all when all were cached. The pair was threaded through every call, so every request used an unexpired or just-refreshed token. The final cache is the starting cache with every receipt the service delivered written under its id, in request order: an entry is new or changed only for a requested id, and every other entry is kept. A total that is not a decimal raises after the complete listing and after exactly the earlier receipts were handled: all from the service without the cache preferred, and with it preferred every one of them missing from the starting cache. A listing failure raises for the page that failed, after pages 1 to it were requested. A zero page size with a positive count raises after page 1 alone. Neither listing error handles a receipt or touches the cache. |
| Commands.FetchAll | src/lidl_receipt_client/main.py:47-63 | The same loop, and the same guarantees on listing, handling, requests, threading and the final cache, for any reader of totals that fails only on invalid amounts. |
| Commands.FetchedNext | src/lidl_receipt_client/main.py:56-63 | One loop turn adds the record's total and handles its receipt once, keeping the pair threaded and the cache equal to the replay of the service's deliveries. |
| Commands.FetchListed | src/lidl_receipt_client/main.py:53-63 | After a complete listing, the receipt loop ends with the sum of all totals and every receipt handled, or raises for the first total that does not read after exactly the earlier receipts were handled. The cache guarantees are those of `FetchAllReceipts`. |
| Commands.HandleRecords | src/lidl_receipt_client/main.py:54-63 | The receipt loop stops at the first total that does not read, or handles every record. What it handled is exactly the records before that point, each once and in order, and the total is their sum. The caller's cache preference reaches every `request_ticket`. Without it every receipt came from the service. With it, every handled receipt missing from the starting cache was requested and no cached one was. The cache is the starting cache with each delivered receipt written under its id. |
| Commands.TotalOfReads | src/lidl_receipt_client/main.py:53-55 | The sum of the listed totals succeeds exactly when every total is an amount. Otherwise it raises for the first total that is not; the error's text tag is that total. |
| Commands.SumAll | src/lidl_receipt_client/main.py:53-55 | Summing what a reader reads succeeds exactly when every element reads, and otherwise raises the first failure. |
| Commands.SumAllConcat | src/lidl_receipt_client/main.py:53-55 | Sums over consecutive lists add up; a failure in the first list ends the sum. |
| Commands.SumAllTwo | src/lidl_receipt_client/main.py:53-55 | Two totals read in order: the first failure raises, otherwise they are added. |
| Commands.SumAllSnoc | src/lidl_receipt_client/main.py:53-55 | Adding the next record's total extends the running sum by exactly that total. |
| Commands.SumAllStop | src/lidl_receipt_client/main.py:53-55 | The first total that does not read ends the whole sum with its error. |
| Commands.TicketStep | src/lidl_receipt_client/main.py:56-63 | One `request_ticket` call in the loop handles exactly its id, from the cache on a hit and from the service otherwise, and only adds to the cache. |
| Commands.HandledTickets | src/lidl_receipt_client/main.py:56-63 | Without cache reads, the receipts handled are exactly those requested from the service. |
| Commands.TotalExample | src/lidl_receipt_client/main.py:53-55 | Listed totals "1,99" and "2,50" add up to exactly 4.49. |
| Commands.BadTotalExample | src/lidl_receipt_client/main.py:53-55 | A total "1,2,3" after "1,99" raises, and the error's text tag is "1,2,3". |

## Left out

- HTTP, JSON decoding and the token endpoint are not modelled. The service's answers and the refreshed token pair are functions in `Env`, so `refresh_auth` (receipts.py:23-39) is an oracle. A refresh response without tokens, which raises `KeyError` in the client, is not modelled.
- JWT decoding and the clock: the "exp" claim and `datetime.now()` are functions in `Env`. The clock is indexed by the number of events so far. A token that does not decode, or has no "exp" claim, raises in the client; here every token has an expiry.
- The cache directory is a map from id to receipt. Writing a receipt as JSON and reading it back is taken to give the same receipt, and file system errors are not modelled.
- `glob` order in `serialize`: the receipts are a sequence in whatever order the directory listing yields.
- Logging, the click command line and the `analyze` command's wiring are left out; `group_sum_by_article` returns what it logs.
- Analyze.ReportSums: the logged lines print each `Decimal` with its own exponent, so a sum of "4,50" shows as "4.50". A `real` has no exponent, so this model keeps the value of each logged amount but not its printed form.
- Model.EuToUs: CPython's `Decimal` raises `InvalidOperation([<class 'decimal.ConversionSyntax'>])`, which does not name the text. The text carried by `InvalidDecimal` is a tag of this model, used to state which total or item failed.
- Model.FromReceipt: `bought_time` keeps the date text instead of `dateutil.parser.parse(date)`, so a malformed date that would raise is accepted.
- Model.EuToUs: `Decimal` also accepts exponents, "NaN", "sNaN", "Inf" and "Infinity" in any letter case, non-ASCII Unicode decimal digits, surrounding whitespace and `_` digit separators. This model accepts only an optional sign, ASCII digits and at most one separator with digits on at least one side, and treats everything else as invalid.
- Analyze.SumRuns: `Decimal` addition rounds to 28 significant digits; the group sums here are exact rationals.
- Analyze.ReportTotal: the logged total is a `Decimal` sum rounded to 28 significant digits; here it is exact.
- Commands.FetchAllReceipts: `total_amount +=` (main.py:55) rounds to 28 significant digits; here the total is exact.
- Model.EuToUs: `Decimal` keeps a negative zero ("-0,00" gives `Decimal('-0.00')`); a `real` has no signed zero, so here it is 0, which compares and adds the same.
- Fetch.TruncDiv: `totalCount / size` is float division; rounding of counts beyond 2^53 is not modelled.
- Country and language codes and the fixed request headers are folded into the `Env` answers.
- The listing's `ReceiptSummary` fields other than id and total are carried but not used, as in the source.

=== FILE: analyze.dfy ===
/**
  The receipt analyzer (analyze.py). `serialize` turns stored receipts into
  one `BoughtItem` per line item. `group_sum_by_article` sorts those items by
  description and groups them, sums each group's totals exactly, orders the
  groups by sum and adds up a grand total.

  Which receipt files exist and in what order `glob` lists them is outside
  the model: the receipts arrive as a sequence, already decoded.
*/
module Analyze {
  import opened Wrappers
  import opened Decimal
  import opened Model
  import opened Orders
  import opened Sorting
  import opened Grouping

  /** A line item together with the receipt it belongs to. */
  datatype Line = Line(receipt: Receipt, item: ReceiptItem)

  /** The line items of one receipt, in receipt order. */
  function LinesOf(receipt: Receipt): (ls: seq<Line>)
    ensures |ls| == |receipt.itemsLine|
    ensures forall i :: 0 <= i < |ls| ==> ls[i] == Line(receipt, receipt.itemsLine[i])
  {
    seq(|receipt.itemsLine|, i requires 0 <= i < |receipt.itemsLine| => Line(receipt, receipt.itemsLine[i]))
  }

  /** The line items of all receipts: receipt by receipt, each in receipt order. */
  function Lines(receipts: seq<Receipt>): seq<Line> {
    if |receipts| == 0 then [] else LinesOf(receipts[0]) + Lines(receipts[1..])
  }

  /** The number of line items over all receipts. */
  function ItemCount(receipts: seq<Receipt>): nat {
    if |receipts| == 0 then 0 else |receipts[0].itemsLine| + ItemCount(receipts[1..])
  }

  /** `from_receipt` on one line, with the receipt's store code and date. */
  function FromLine(l: Line): Result<BoughtItem, ParseError> {
    FromItem(l.receipt, l.item)
  }

  /**
    `serialize`: for each receipt, `from_receipt` on each of its line items,
    appended to the result. The first line item whose amounts are not
    decimals raises, and nothing is returned.
  */
  function Serialize(receipts: seq<Receipt>): (r: Result<seq<BoughtItem>, ParseError>)
    ensures r == MapAll(Lines(receipts), FromLine)
    ensures r.Success? <==> forall j :: 0 <= j < |Lines(receipts)| ==> FromLine(Lines(receipts)[j]).Success?
    ensures r.Success? ==>
      && |r.value| == |Lines(receipts)|
      && forall j :: 0 <= j < |Lines(receipts)| ==> FromLine(Lines(receipts)[j]) == Success(r.value[j])
    ensures r.Failure? ==>
      var j := FirstFailure(Lines(receipts), FromLine);
      j < |Lines(receipts)| && FromLine(Lines(receipts)[j]) == Failure(r.error)
  {
    if |receipts| == 0 then Success([])
    else
      MapAllConcat(LinesOf(receipts[0]), Lines(receipts[1..]), FromLine);
      var items :- MapAll(LinesOf(receipts[0]), FromLine);
      var rest :- Serialize(receipts[1..]);
      Success(items + rest)
  }

  /** There is one line per line item. */
  lemma {:induction false} LinesCount(receipts: seq<Receipt>)
    ensures |Lines(receipts)| == ItemCount(receipts)
  {
    if |receipts| > 0 {
      LinesCount(receipts[1..]);
    }
  }

  /**
    The lines of all receipts are laid out receipt by receipt: the `i`-th item
    of receipt `r` comes right after the items of the receipts before it.
  */
  lemma {:induction false} LinesAt(receipts: seq<Receipt>, r: nat, i: nat)
    requires r < |receipts| && i < |receipts[r].itemsLine|
    ensures ItemCount(receipts[..r]) + i < |Lines(receipts)|
    ensures Lines(receipts)[ItemCount(receipts[..r]) + i] == Line(receipts[r], receipts[r].itemsLine[i])
  {
    var first, rest := LinesOf(receipts[0]), receipts[1..];
    assert Lines(receipts) == first + Lines(rest);
    if r == 0 {
      assert ItemCount(receipts[..0]) == 0;
      assert Lines(receipts)[i] == first[i];
    } else {
      LinesAt(rest, r - 1, i);
      assert receipts[..r][1..] == rest[..r - 1];
      assert ItemCount(receipts[..r]) == |first| + ItemCount(rest[..r - 1]);
      var k := ItemCount(rest[..r - 1]) + i;
      assert Lines(receipts)[|first| + k] == Lines(rest)[k];
    }
  }

  /** `serialize` yields exactly one item per line item. */
  lemma SerializeCount(receipts: seq<Receipt>)
    requires Serialize(receipts).Success?
    ensures |Serialize(receipts).value| == ItemCount(receipts)
  {
    LinesCount(receipts);
  }

  /**
    The item `serialize` yields for the `i`-th line item of receipt `r` comes
    right after the items of the receipts before it. It is that line item
    converted, so it carries its own receipt's store code and date, the line's
    description, and the line's paid amount as its total.
  */
  lemma SerializeItem(receipts: seq<Receipt>, r: nat, i: nat)
    requires Serialize(receipts).Success?
    requires r < |receipts| && i < |receipts[r].itemsLine|
    ensures ItemCount(receipts[..r]) + i < |Serialize(receipts).value|
    ensures var b := Serialize(receipts).value[ItemCount(receipts[..r]) + i];
      var item := receipts[r].itemsLine[i];
      && FromItem(receipts[r], item) == Success(b)
      && b.store == receipts[r].storeCode
      && b.boughtTime == receipts[r].date
      && b.description == item.description
      && b.total == AmountOf(item.extendedAmount)
  {
    LinesAt(receipts, r, i);
  }

  // ---------------------------------------------------------------------
  // group_sum_by_article
  // ---------------------------------------------------------------------

  /** One logged line: an article's description and what was paid for it in all. */
  datatype ArticleTotal = ArticleTotal(description: string, sum: real)

  /** What `group_sum_by_article` logs: the per-article sums in order, then their total. */
  datatype Report = Report(articles: seq<ArticleTotal>, total: real)

  /** `attrgetter("description")`. */
  function Description(b: BoughtItem): string {
    b.description
  }

  /** The amount an item adds to its group's sum. */
  function Total(b: BoughtItem): real {
    b.total
  }

  /** `itemgetter(1)`: the sum of a summed group. */
  function SumOf(a: ArticleTotal): real {
    a.sum
  }

  function ArticleDescription(a: ArticleTotal): string {
    a.description
  }

  /** The inner loop: `summ` starts at 0 and adds every item's total. */
  function RunTotal(run: Run<string, BoughtItem>): ArticleTotal {
    ArticleTotal(run.key, SumBy(run.items, Total))
  }

  /** The outer loop over `groupby`: one summed group per run. */
  function SumRuns(runs: seq<Run<string, BoughtItem>>): (r: seq<ArticleTotal>)
    ensures |r| == |runs|
    ensures forall i :: 0 <= i < |runs| ==> r[i] == RunTotal(runs[i])
  {
    if |runs| == 0 then [] else [RunTotal(runs[0])] + SumRuns(runs[1..])
  }

  /** `a` is listed before `b` when its description is smaller. */
  predicate DescriptionBefore(a: ArticleTotal, b: ArticleTotal) {
    LexLt(a.description, b.description)
  }

  /**
    The analysis of a list of bought items: sort by description, group equal
    descriptions, sum each group, sort the sums, total them.
  */
  function SumByArticle(items: seq<BoughtItem>): Report {
    var ordered := Sort(Summed(items), SumOf, RealLe);
    Report(ordered, SumBy(ordered, SumOf))
  }

  /** `summed_items` before its sort: one summed group per run of the description-sorted items. */
  function Summed(items: seq<BoughtItem>): seq<ArticleTotal> {
    SumRuns(GroupRuns(Sort(items, Description, LexLe), Description))
  }

  /** `group_sum_by_article`: `serialize`, then the analysis; a conversion error propagates. */
  function GroupSumByArticle(receipts: seq<Receipt>): (r: Result<Report, ParseError>)
    ensures r.Success? <==> Serialize(receipts).Success?
    ensures r.Failure? ==> r.error == Serialize(receipts).error
  {
    var items :- Serialize(receipts);
    Success(SumByArticle(items))
  }

  /** The sums of all groups add up to the sum over all grouped items. */
  lemma {:induction false} SumRunsTotal(runs: seq<Run<string, BoughtItem>>)
    ensures SumBy(SumRuns(runs), SumOf) == SumBy(Flatten(runs), Total)
  {
    if |runs| > 0 {
      SumRunsTotal(runs[1..]);
      assert SumRuns(runs) == [RunTotal(runs[0])] + SumRuns(runs[1..]);
      SumByConcat([RunTotal(runs[0])], SumRuns(runs[1..]), SumOf);
      SumByConcat(runs[0].items, Flatten(runs[1..]), Total);
      assert SumBy([RunTotal(runs[0])], SumOf) == SumBy([], SumOf) + RunTotal(runs[0]).sum;
    }
  }

  /** Each summed group holds the exact sum over all items with its description, of which there is at least one. */
  lemma SummedSums(items: seq<BoughtItem>)
    ensures forall i :: 0 <= i < |Summed(items)| ==>
      Summed(items)[i].sum == SumBy(KeyFilter(items, Description, Summed(items)[i].description), Total)
      && |KeyFilter(items, Description, Summed(items)[i].description)| > 0
  {
    var sorted := Sort(items, Description, LexLe);
    var runs := GroupRuns(sorted, Description);
    LexLeTotalOrder();
    SortSorted(items, Description, LexLe);
    GroupRunsCollect(sorted, Description, LexLe);
    GroupRunsShape(sorted, Description);
    forall i | 0 <= i < |runs|
      ensures runs[i].items == KeyFilter(items, Description, runs[i].key)
    {
      SortStable(items, Description, LexLe, runs[i].key);
    }
  }

  /** The summed groups come in strictly ascending description order. */
  lemma SummedOrder(items: seq<BoughtItem>)
    ensures Chain(Summed(items), DescriptionBefore)
    ensures DistinctKeys(Summed(items), ArticleDescription)
  {
    var sorted := Sort(items, Description, LexLe);
    var runs := GroupRuns(sorted, Description);
    var summed := Summed(items);
    LexLeTotalOrder();
    SortSorted(items, Description, LexLe);
    GroupRunsIncreasing(sorted, Description, LexLe);
    forall i, j | 0 <= i < j < |summed| ensures DescriptionBefore(summed[i], summed[j]) {
      assert LexLe(runs[i].key, runs[j].key) && runs[i].key != runs[j].key;
    }
  }

  /** The summed groups' descriptions are exactly the items' descriptions. */
  lemma SummedKeys(items: seq<BoughtItem>)
    ensures KeySet(Summed(items), ArticleDescription) == KeySet(items, Description)
  {
    var sorted := Sort(items, Description, LexLe);
    var runs := GroupRuns(sorted, Description);
    var summed := Summed(items);
    GroupRunsKeys(sorted, Description);
    SortKeySet(items, Description, LexLe, Description);
    forall d ensures d in KeySet(summed, ArticleDescription) <==> d in (set i | 0 <= i < |runs| :: runs[i].key) {
      if d in KeySet(summed, ArticleDescription) {
        var a :| a in summed && a.description == d;
        var i :| 0 <= i < |summed| && summed[i] == a;
        assert runs[i].key == d;
      }
      if d in (set i | 0 <= i < |runs| :: runs[i].key) {
        var i :| 0 <= i < |runs| && runs[i].key == d;
        assert summed[i] in summed;
      }
    }
  }

  /** The group sums add up to the sum over all items. */
  lemma SummedTotal(items: seq<BoughtItem>)
    ensures SumBy(Summed(items), SumOf) == SumBy(items, Total)
  {
    var sorted := Sort(items, Description, LexLe);
    var runs := GroupRuns(sorted, Description);
    SumRunsTotal(runs);
    GroupRunsFlatten(sorted, Description);
    SortSum(items, Description, LexLe, Total);
  }

  /** Each reported line is the exact sum over all items with its description, of which there is at least one. */
  lemma ReportSums(items: seq<BoughtItem>)
    ensures var rep := SumByArticle(items).articles;
      forall i :: 0 <= i < |rep| ==>
        rep[i].sum == SumBy(KeyFilter(items, Description, rep[i].description), Total)
        && |KeyFilter(items, Description, rep[i].description)| > 0
  {
    var summed := Summed(items);
    var ordered := Sort(summed, SumOf, RealLe);
    SummedSums(items);
    SortPermutes(summed, SumOf, RealLe);
    forall i | 0 <= i < |ordered|
      ensures ordered[i].sum == SumBy(KeyFilter(items, Description, ordered[i].description), Total)
      ensures |KeyFilter(items, Description, ordered[i].description)| > 0
    {
      assert ordered[i] in multiset(summed);
      var j :| 0 <= j < |summed| && summed[j] == ordered[i];
    }
  }

  /** Exactly the items' descriptions are reported, each on one line. */
  lemma ReportDescriptions(items: seq<BoughtItem>)
    ensures DistinctKeys(SumByArticle(items).articles, ArticleDescription)
    ensures KeySet(SumByArticle(items).articles, ArticleDescription) == KeySet(items, Description)
  {
    SummedOrder(items);
    SummedKeys(items);
    SortDistinct(Summed(items), SumOf, RealLe, ArticleDescription);
    SortKeySet(Summed(items), SumOf, RealLe, ArticleDescription);
  }

  /** The lines are in ascending order of sum; lines with equal sums are in ascending description order. */
  lemma ReportOrder(items: seq<BoughtItem>)
    ensures Sorted(SumByArticle(items).articles, SumOf, RealLe)
    ensures TiesOrdered(SumByArticle(items).articles, SumOf, DescriptionBefore)
  {
    SummedOrder(items);
    RealLeTotalOrder();
    SortSorted(Summed(items), SumOf, RealLe);
    SortKeepsTies(Summed(items), SumOf, RealLe, DescriptionBefore);
  }

  /** The logged total is the exact sum of every item's total. */
  lemma ReportTotal(items: seq<BoughtItem>)
    ensures SumByArticle(items).total == SumBy(items, Total)
  {
    SummedTotal(items);
    SortSum(Summed(items), SumOf, RealLe, SumOf);
  }

  /** No receipts: nothing to group, and the total is 0. */
  lemma EmptyReport()
    ensures GroupSumByArticle([]) == Success(Report([], 0.0))
  {
  }

  /** A line item as the examples need it: an article at a price, no deposit. */
  function ExampleItem(description: string, price: string): ReceiptItem {
    ReceiptItem(price, "1", false, price, price, description, "A", "19%", "", [], None, None)
  }

  /** The example item converts to a bought item paid `v` in full. */
  lemma ExampleItemConverts(receipt: Receipt, description: string, price: string, v: real)
    requires ParseCommaDecimal(price) == Some(v)
    ensures FromItem(receipt, ExampleItem(description, price))
         == Success(BoughtItem(v, 1.0, false, 0.0, v, description, None, receipt.storeCode, receipt.date))
  {
    UnitQuantity();
  }

  /** Two items that differ only in letter case are two articles; their total is exact. */
  lemma CaseSensitiveTotals(a: BoughtItem, b: BoughtItem)
    requires a.description == "Milk" && b.description == "milk"
    requires a.total == 1.99 && b.total == 2.50
    ensures |SumByArticle([a, b]).articles| == 2
    ensures SumByArticle([a, b]).total == 4.49
  {
    var items := [a, b];
    ReportDescriptions(items);
    ReportTotal(items);
    SumByPair(a, b, Total);
    KeySetPair(a, b, Description);
    DistinctKeysCount(SumByArticle(items).articles, ArticleDescription);
  }

  /** One receipt's line items are its own. */
  lemma LinesOne(receipt: Receipt)
    ensures Lines([receipt]) == LinesOf(receipt)
  {
    assert [receipt][1..] == [];
    assert LinesOf(receipt) + [] == LinesOf(receipt);
  }

  /** A receipt with two convertible line items serializes to their two bought items, in order. */
  lemma SerializeTwo(receipt: Receipt, a: BoughtItem, b: BoughtItem)
    requires |receipt.itemsLine| == 2
    requires FromItem(receipt, receipt.itemsLine[0]) == Success(a)
    requires FromItem(receipt, receipt.itemsLine[1]) == Success(b)
    ensures Serialize([receipt]) == Success([a, b])
  {
    LinesOne(receipt);
    var ls := LinesOf(receipt);
    assert ls == [ls[0], ls[1]];
    MapAllPair(ls[0], ls[1], FromLine, a, b);
  }

  /**
    Exact grouping: "Milk" at "1,99" and "milk" at "2,50" on one receipt are
    two articles, and the logged total is exactly 4.49.
  */
  lemma MilkExample()
    ensures var receipt := Receipt([ExampleItem("Milk", "1,99"), ExampleItem("milk", "2,50")], "2024-01-01", "4,49", "S1");
      var r := GroupSumByArticle([receipt]);
      r.Success? && |r.value.articles| == 2 && r.value.total == 4.49
  {
    var receipt := Receipt([ExampleItem("Milk", "1,99"), ExampleItem("milk", "2,50")], "2024-01-01", "4,49", "S1");
    var a := BoughtItem(1.99, 1.0, false, 0.0, 1.99, "Milk", None, "S1", "2024-01-01");
    var b := BoughtItem(2.50, 1.0, false, 0.0, 2.50, "milk", None, "S1", "2024-01-01");
    PriceExample();
    TrailingZeroExamples();
    ExampleItemConverts(receipt, "Milk", "1,99", 1.99);
    ExampleItemConverts(receipt, "milk", "2,50", 2.50);
    SerializeTwo(receipt, a, b);
    CaseSensitiveTotals(a, b);
  }
}

=== FILE: commands.dfy ===
/**
  The `fetch` command (main.py): list every receipt, add up the totals the
  listing announces, and download each receipt in turn, through the cache
  unless told otherwise. The logging of the total is left out; the total is
  the command's result here.
*/
module Commands {
  import opened Wrappers
  import opened Decimal
  import opened Model
  import opened Fetch

  /** The ids of `records`, in order. */
  function Ids(records: seq<ReceiptSummary>): (r: seq<string>)
    ensures |r| == |records| && forall j :: 0 <= j < |records| ==> r[j] == records[j].id
  {
    seq(|records|, j requires 0 <= j < |records| => records[j].id)
  }

  /** Every receipt of `records` is already in the cache of `w`. */
  predicate Warm(w: World, records: seq<ReceiptSummary>) {
    forall j :: 0 <= j < |records| ==> records[j].id in w.cache
  }

  /** A summary's total read as `Decimal` after the decimal comma becomes a point. */
  function SummaryAmount(s: ReceiptSummary): Result<real, FetchError> {
    match EuToUs(s.totalAmount)
    case Success(v) => Success(v)
    case Failure(_) => Failure(InvalidAmount(s.totalAmount))
  }

  /** A summary's total reads exactly when it is a decimal amount, and a failure names the text. */
  lemma SummaryAmountReads(s: ReceiptSummary)
    ensures SummaryAmount(s).Success? <==> IsAmount(s.totalAmount)
    ensures SummaryAmount(s).Success? ==> SummaryAmount(s).value == AmountOf(s.totalAmount)
    ensures SummaryAmount(s).Failure? ==> SummaryAmount(s).error == InvalidAmount(s.totalAmount)
  {
  }

  /** The exact sum of `xs`, added up from the front. */
  function Sum(xs: seq<real>): real {
    if |xs| == 0 then 0.0 else Sum(xs[..|xs| - 1]) + xs[|xs| - 1]
  }

  /** Where the first total that does not read lies in `records`, or `|records|`. */
  function FirstBad(records: seq<ReceiptSummary>): nat {
    FirstFailure(records, SummaryAmount)
  }

  /** The exact sum of what `f` reads from each of `xs`, in order; the first failure ends it. */
  function SumAll<A, E>(xs: seq<A>, f: A -> Result<real, E>): (r: Result<real, E>)
    ensures r.Success? <==> forall j :: 0 <= j < |xs| ==> f(xs[j]).Success?
    ensures r.Failure? ==> FirstFailure(xs, f) < |xs| && f(xs[FirstFailure(xs, f)]) == Failure(r.error)
  {
    match MapAll(xs, f)
    case Failure(e) => Failure(e)
    case Success(vs) => Success(Sum(vs))
  }

  lemma {:induction false} SumConcat(a: seq<real>, b: seq<real>)
    ensures Sum(a + b) == Sum(a) + Sum(b)
    decreases |b|
  {
    if |b| == 0 {
      assert a + b == a;
    } else {
      SumConcat(a, b[..|b| - 1]);
      assert (a + b)[..|a + b| - 1] == a + b[..|b| - 1];
    }
  }

  /** Summing the values of a conversion of two parts, given the conversion of their concatenation. */
  lemma SumJoined<E>(ma: Result<seq<real>, E>, mb: Result<seq<real>, E>, mab: Result<seq<real>, E>)
    requires mab == match ma
      case Failure(e) => Failure(e)
      case Success(u) => (match mb case Failure(e) => Failure(e) case Success(v) => Success(u + v))
    ensures (match mab case Failure(e) => Failure(e) case Success(vs) => Success(Sum(vs)))
         == match ma
      case Failure(e) => Failure(e)
      case Success(u) =>
        (match mb case Failure(e) => Failure(e) case Success(v) => Success(Sum(u) + Sum(v)))
  {
    if ma.Success? && mb.Success? {
      SumConcat(ma.value, mb.value);
    }
  }

  /** Sums add up over consecutive lists, and a failure in the first list ends the sum there. */
  lemma SumAllConcat<A, E>(a: seq<A>, b: seq<A>, f: A -> Result<real, E>)
    ensures SumAll(a + b, f) ==
      match SumAll(a, f)
      case Failure(e) => Failure(e)
      case Success(t) =>
        match SumAll(b, f)
        case Failure(e) => Failure(e)
        case Success(u) => Success(t + u)
  {
    MapAllConcat(a, b, f);
    SumJoined(MapAll(a, f), MapAll(b, f), MapAll(a + b, f));
  }

  /** The sum over one element is what `f` reads from it. */
  lemma SumAllOne<A, E>(x: A, f: A -> Result<real, E>)
    ensures SumAll([x], f) == match f(x) case Failure(e) => Failure(e) case Success(v) => Success(v)
  {
    assert [x][1..] == [];
    if f(x).Success? {
      assert MapAll([x], f).value == [f(x).value];
      assert [f(x).value][..0] == [];
      assert Sum([f(x).value]) == f(x).value;
    }
  }

  /** The sum over two elements reads the first, then the second, and adds them. */
  lemma SumAllTwo<A, E>(x: A, y: A, f: A -> Result<real, E>)
    ensures SumAll([x, y], f) ==
      match f(x)
      case Failure(e) => Failure(e)
      case Success(u) =>
        match f(y)
        case Failure(e) => Failure(e)
        case Success(v) => Success(u + v)
  {
    SumAllOne(x, f);
    SumAllOne(y, f);
    SumAllConcat([x], [y], f);
    assert [x] + [y] == [x, y];
  }

  /** One more element that reads, on top of a sum that succeeded so far. */
  lemma SumAllSnoc<A, E>(xs: seq<A>, i: nat, total: real, f: A -> Result<real, E>)
    requires i < |xs| && SumAll(xs[..i], f) == Success(total) && f(xs[i]).Success?
    ensures SumAll(xs[..i + 1], f) == Success(total + f(xs[i]).value)
  {
    assert xs[..i + 1] == xs[..i] + [xs[i]];
    SumAllConcat(xs[..i], [xs[i]], f);
    SumAllOne(xs[i], f);
  }

  /** An element that does not read, after elements that all did, ends the sum with its failure. */
  lemma SumAllStop<A, E>(xs: seq<A>, i: nat, f: A -> Result<real, E>)
    requires i < |xs| && SumAll(xs[..i], f).Success? && f(xs[i]).Failure?
    ensures SumAll(xs, f) == Failure(f(xs[i]).error) && FirstFailure(xs, f) == i
  {
    forall j | 0 <= j < i ensures f(xs[j]).Success? {
      assert xs[..i][j] == xs[j];
    }
  }

  /**
    The sum of the totals of `records`, added up in order. The first total
    that does not read raises.
  */
  function TotalOf(records: seq<ReceiptSummary>): Result<real, FetchError> {
    SumAll(records, SummaryAmount)
  }

  /**
    The sum succeeds exactly when every total is a decimal amount. Otherwise
    it raises for the first total that is not, naming its text.
  */
  lemma TotalOfReads(records: seq<ReceiptSummary>)
    ensures TotalOf(records).Success? <==> forall j :: 0 <= j < |records| ==> IsAmount(records[j].totalAmount)
    ensures TotalOf(records).Failure? ==>
      && FirstBad(records) < |records|
      && !IsAmount(records[FirstBad(records)].totalAmount)
      && (forall j :: 0 <= j < FirstBad(records) ==> IsAmount(records[j].totalAmount))
      && TotalOf(records).error == InvalidAmount(records[FirstBad(records)].totalAmount)
  {
    forall j | 0 <= j < |records| ensures SummaryAmount(records[j]).Success? <==> IsAmount(records[j].totalAmount) {
      SummaryAmountReads(records[j]);
    }
    if TotalOf(records).Failure? {
      SummaryAmountReads(records[FirstBad(records)]);
    }
  }

  /** A listing record with the given id and total; the other fields do not matter here. */
  function Summary(id: string, totalAmount: string): ReceiptSummary {
    ReceiptSummary(id, "2024-01-01", totalAmount, "S1", 1, 0, false, 0, 0, None, None, None, false, false)
  }

  /** Two receipts of 1,99 and 2,50 add up to exactly 4.49. */
  lemma TotalExample()
    ensures TotalOf([Summary("a", "1,99"), Summary("b", "2,50")]) == Success(4.49)
  {
    var a, b := Summary("a", "1,99"), Summary("b", "2,50");
    PriceExample();
    TrailingZeroExamples();
    SummaryAmountReads(a);
    SummaryAmountReads(b);
    SumAllTwo(a, b, SummaryAmount);
  }

  /** A malformed total raises, naming its text, even after totals that read. */
  lemma BadTotalExample()
    ensures TotalOf([Summary("a", "1,99"), Summary("b", "1,2,3")]) == Failure(InvalidAmount("1,2,3"))
  {
    var a, b := Summary("a", "1,99"), Summary("b", "1,2,3");
    PriceExample();
    MalformedExample();
    SummaryAmountReads(a);
    SummaryAmountReads(b);
    SumAllTwo(a, b, SummaryAmount);
  }

  function HandledOf(e: Event): seq<string> {
    if e.TicketGet? || e.CacheRead? then [e.id] else []
  }

  /** The receipt ids handled, from the service or the cache, in order. */
  function Handled(evs: seq<Event>): seq<string> {
    Collect(evs, HandledOf)
  }

  /** Without cache reads every receipt handled was requested from the service. */
  lemma {:induction false} HandledTickets(evs: seq<Event>)
    requires CacheReads(evs) == []
    ensures Handled(evs) == Tickets(evs)
  {
    if |evs| > 0 {
      var init, last := evs[..|evs| - 1], evs[|evs| - 1];
      assert init + [last] == evs;
      CollectConcat(init, [last], CacheReadOf);
      CollectOne(last, CacheReadOf);
      CollectOne(last, HandledOf);
      CollectOne(last, TicketOf);
      HandledTickets(init);
    }
  }

  /** Without service requests every receipt handled was read from the cache. */
  lemma {:induction false} HandledReads(evs: seq<Event>)
    requires Tickets(evs) == []
    ensures Handled(evs) == CacheReads(evs)
  {
    if |evs| > 0 {
      var init, last := evs[..|evs| - 1], evs[|evs| - 1];
      assert init + [last] == evs;
      CollectConcat(init, [last], TicketOf);
      CollectOne(last, TicketOf);
      CollectOne(last, HandledOf);
      CollectOne(last, CacheReadOf);
      HandledReads(init);
    }
  }

  /** The trace since `lw` after one more `request_ticket` call. */
  lemma TicketStep(env: Env, lw: World, world: World, a0: AuthContext, auth: AuthContext, id: string, useCache: bool)
    requires lw.trace <= world.trace
    requires Thread(env, a0, |lw.trace|, Added(lw, world)) == Some(auth)
    ensures var r := RequestTicket(env, world, auth, id, useCache);
      && lw.trace <= r.2.trace
      && world.cache.Keys <= r.2.cache.Keys
      && Thread(env, a0, |lw.trace|, Added(lw, r.2)) == Some(r.1)
      && Pages(Added(lw, r.2)) == Pages(Added(lw, world))
      && Handled(Added(lw, r.2)) == Handled(Added(lw, world)) + [id]
      && Tickets(Added(lw, r.2)) == Tickets(Added(lw, world)) + (if CacheHit(world, id, useCache) then [] else [id])
      && CacheReads(Added(lw, r.2)) == CacheReads(Added(lw, world)) + (if CacheHit(world, id, useCache) then [id] else [])
  {
    var r := RequestTicket(env, world, auth, id, useCache);
    RequestTicketEffects(env, world, auth, id, useCache);
    AddedConcat(lw, world, r.2);
    assert |lw.trace| + |Added(lw, world)| == |world.trace|;
    HandledStep(env, a0, auth, r.1, |lw.trace|, Added(lw, world), Added(world, r.2), id, CacheHit(world, id, useCache));
  }

  /** `TicketStep` for a trace `before` followed by the events `step` of one `request_ticket` call. */
  lemma HandledStep(env: Env, a0: AuthContext, auth: AuthContext, a: AuthContext, n: nat,
                    before: seq<Event>, step: seq<Event>, id: string, hit: bool)
    requires Thread(env, a0, n, before) == Some(auth)
    requires Thread(env, auth, n + |before|, step) == Some(a)
    requires Pages(step) == []
    requires Tickets(step) == (if hit then [] else [id])
    requires CacheReads(step) == (if hit then [id] else [])
    ensures Thread(env, a0, n, before + step) == Some(a)
    ensures Pages(before + step) == Pages(before)
    ensures Handled(before + step) == Handled(before) + [id]
    ensures Tickets(before + step) == Tickets(before) + (if hit then [] else [id])
    ensures CacheReads(before + step) == CacheReads(before) + (if hit then [id] else [])
  {
    Compose(env, before, step);
    ThreadConcat(env, a0, n, before, step);
    CollectConcat(before, step, HandledOf);
    if hit {
      HandledReads(step);
    } else {
      HandledTickets(step);
    }
  }

  /** A reader of summary totals that fails only with `InvalidAmount`. */
  ghost predicate ReadsAmounts(read: ReceiptSummary -> Result<real, FetchError>) {
    forall s :: read(s).Failure? ==> read(s).error.InvalidAmount?
  }

  /**
    `fetch_all_receipts`: list the receipts, then for each record in turn add
    its total to the sum and call `request_ticket` for its id with the
    caller's cache preference, handing each call the context the previous one
    returned. A total that is not a decimal raises before its receipt is
    requested. A receipt the service does not deliver is skipped silently.
  */
  method FetchAllReceipts(env: Env, w: World, accessToken: string, refreshToken: string, useCache: bool)
    returns (out: Outcome<real>)
    ensures w.trace <= out.world.trace && w.cache.Keys <= out.world.cache.Keys
    ensures out.world.cache == CacheAfter(env, w.cache, Added(w, out.world))
    ensures forall id :: id in out.world.cache ==> id in w.cache || id in Tickets(Added(w, out.world))
    ensures forall id :: id in w.cache && id !in Tickets(Added(w, out.world)) ==>
      id in out.world.cache && out.world.cache[id] == w.cache[id]
    ensures Thread(env, AuthContext(accessToken, refreshToken), |w.trace|, Added(w, out.world)).Some?
    ensures out.Done? ==>
      var ev := Added(w, out.world);
      var records := ListedRecords(env, ev);
      && ListedAll(env, ev)
      && TotalOf(records) == Success(out.value)
      && Handled(ev) == Ids(records)
      && (!useCache ==> Tickets(ev) == Ids(records) && CacheReads(ev) == [])
      && (useCache && Warm(w, records) ==> Tickets(ev) == [])
      && (useCache ==> forall id :: id in Tickets(ev) ==> id !in w.cache)
      && (useCache ==> forall id :: id in Ids(records) && id !in w.cache ==> id in Tickets(ev))
      && Thread(env, AuthContext(accessToken, refreshToken), |w.trace|, ev) == Some(out.auth)
    ensures out.Raised? && out.error.InvalidAmount? ==>
      var ev := Added(w, out.world);
      var records := ListedRecords(env, ev);
      && ListedAll(env, ev)
      && TotalOf(records) == Failure(out.error)
      && Handled(ev) == Ids(records[..FirstBad(records)])
      && (!useCache ==> Tickets(ev) == Ids(records[..FirstBad(records)]) && CacheReads(ev) == [])
      && (useCache ==> forall id :: id in Tickets(ev) ==> id !in w.cache)
      && (useCache ==> forall id :: id in Ids(records[..FirstBad(records)]) && id !in w.cache ==> id in Tickets(ev))
    ensures out.Raised? && !out.error.InvalidAmount? ==>
      var ev := Added(w, out.world);
      && Handled(ev) == [] && out.world.cache == w.cache
      && (out.error.ListFailed? ==> ListFailedAt(env, ev, out.error.page))
      && (out.error.ZeroPageSize? ==> ZeroSizeAfterFirst(env, ev))
  {
    forall s ensures SummaryAmount(s).Failure? ==> SummaryAmount(s).error.InvalidAmount? {
      SummaryAmountReads(s);
    }
    out := FetchAll(env, w, accessToken, refreshToken, useCache, SummaryAmount);
    CacheAfterKeys(env, w.cache, Added(w, out.world));
  }

  /** `fetch_all_receipts` for any way `read` of reading a summary's total. */
  method FetchAll(env: Env, w: World, accessToken: string, refreshToken: string, useCache: bool,
                  read: ReceiptSummary -> Result<real, FetchError>)
    returns (out: Outcome<real>)
    requires ReadsAmounts(read)
    ensures w.trace <= out.world.trace && w.cache.Keys <= out.world.cache.Keys
    ensures out.world.cache == CacheAfter(env, w.cache, Added(w, out.world))
    ensures Thread(env, AuthContext(accessToken, refreshToken), |w.trace|, Added(w, out.world)).Some?
    ensures out.Done? ==>
      var ev := Added(w, out.world);
      var records := ListedRecords(env, ev);
      && ListedAll(env, ev)
      && SumAll(records, read) == Success(out.value)
      && Handled(ev) == Ids(records)
      && (!useCache ==> Tickets(ev) == Ids(records) && CacheReads(ev) == [])
      && (useCache && Warm(w, records) ==> Tickets(ev) == [])
      && (useCache ==> forall id :: id in Tickets(ev) ==> id !in w.cache)
      && (useCache ==> forall id :: id in Ids(records) && id !in w.cache ==> id in Tickets(ev))
      && Thread(env, AuthContext(accessToken, refreshToken), |w.trace|, ev) == Some(out.auth)
    ensures out.Raised? && out.error.InvalidAmount? ==>
      var ev := Added(w, out.world);
      var records := ListedRecords(env, ev);
      && ListedAll(env, ev)
      && SumAll(records, read) == Failure(out.error)
      && Handled(ev) == Ids(records[..FirstFailure(records, read)])
      && (!useCache ==> Tickets(ev) == Ids(records[..FirstFailure(records, read)]) && CacheReads(ev) == [])
      && (useCache ==> forall id :: id in Tickets(ev) ==> id !in w.cache)
      && (useCache ==> forall id :: id in Ids(records[..FirstFailure(records, read)]) && id !in w.cache ==> id in Tickets(ev))
    ensures out.Raised? && !out.error.InvalidAmount? ==>
      var ev := Added(w, out.world);
      && Handled(ev) == [] && out.world.cache == w.cache
      && (out.error.ListFailed? ==> ListFailedAt(env, ev, out.error.page))
      && (out.error.ZeroPageSize? ==> ZeroSizeAfterFirst(env, ev))
  {
    var auth0 := AuthContext(accessToken, refreshToken);
    var listed := GetReceipts(env, w, accessToken, refreshToken);
    HandledReads(Added(w, listed.world));
    if listed.Raised? {
      assert Added(listed.world, listed.world) == [];
      FetchCache(env, w, listed.world, listed.world);
      return Raised(listed.error, listed.world);
    }
    out := FetchListed(env, w, auth0, listed, useCache, read);
  }

  /** `fetch_all_receipts` once the listing `listed` is complete: the receipt loop and its result. */
  method FetchListed(env: Env, w: World, auth0: AuthContext, listed: Outcome<Receipts>, useCache: bool,
                     read: ReceiptSummary -> Result<real, FetchError>)
    returns (out: Outcome<real>)
    requires ReadsAmounts(read)
    requires listed.Done? && w.trace <= listed.world.trace && listed.world.cache == w.cache
    requires ListedAll(env, Added(w, listed.world))
    requires ListedRecords(env, Added(w, listed.world)) == listed.value.records
    requires Thread(env, auth0, |w.trace|, Added(w, listed.world)) == Some(listed.auth)
    requires Tickets(Added(w, listed.world)) == [] && CacheReads(Added(w, listed.world)) == []
    ensures w.trace <= out.world.trace && w.cache.Keys <= out.world.cache.Keys
    ensures out.world.cache == CacheAfter(env, w.cache, Added(w, out.world))
    ensures Thread(env, auth0, |w.trace|, Added(w, out.world)).Some?
    ensures out.Done? || out.error.InvalidAmount?
    ensures out.Done? ==>
      var ev := Added(w, out.world);
      var records := ListedRecords(env, ev);
      && ListedAll(env, ev)
      && SumAll(records, read) == Success(out.value)
      && Handled(ev) == Ids(records)
      && (!useCache ==> Tickets(ev) == Ids(records) && CacheReads(ev) == [])
      && (useCache && Warm(w, records) ==> Tickets(ev) == [])
      && (useCache ==> forall id :: id in Tickets(ev) ==> id !in w.cache)
      && (useCache ==> forall id :: id in Ids(records) && id !in w.cache ==> id in Tickets(ev))
      && Thread(env, auth0, |w.trace|, ev) == Some(out.auth)
    ensures out.Raised? ==>
      var ev := Added(w, out.world);
      var records := ListedRecords(env, ev);
      && ListedAll(env, ev)
      && SumAll(records, read) == Failure(out.error)
      && Handled(ev) == Ids(records[..FirstFailure(records, read)])
      && (!useCache ==> Tickets(ev) == Ids(records[..FirstFailure(records, read)]) && CacheReads(ev) == [])
      && (useCache ==> forall id :: id in Tickets(ev) ==> id !in w.cache)
      && (useCache ==> forall id :: id in Ids(records[..FirstFailure(records, read)]) && id !in w.cache ==> id in Tickets(ev))
  {
    HandledReads(Added(w, listed.world));
    var records := listed.value.records;
    assert Added(listed.world, listed.world) == [];
    assert records[..0] == [];
    var i, total, auth, world := HandleRecords(env, w, listed.world, listed.auth, records, useCache, read);
    if i < |records| {
      StoppedFacts(env, w, auth0, listed, useCache, read, i, total, auth, world);
      out := Raised(read(records[i]).error, world);
    } else {
      DoneFacts(env, w, auth0, listed, useCache, read, i, total, auth, world);
      out := Done(total, auth, world);
    }
  }

  /** What `fetch_all_receipts` promises when every record was handled. */
  lemma DoneFacts(env: Env, w: World, auth0: AuthContext, listed: Outcome<Receipts>, useCache: bool,
                  read: ReceiptSummary -> Result<real, FetchError>,
                  i: nat, total: real, auth: AuthContext, world: World)
    requires listed.Done? && w.trace <= listed.world.trace && listed.world.cache == w.cache
    requires ListedAll(env, Added(w, listed.world))
    requires ListedRecords(env, Added(w, listed.world)) == listed.value.records
    requires Thread(env, auth0, |w.trace|, Added(w, listed.world)) == Some(listed.auth)
    requires Tickets(Added(w, listed.world)) == [] && CacheReads(Added(w, listed.world)) == []
    requires Handled(Added(w, listed.world)) == []
    requires Fetched(env, w, listed.world, listed.auth, listed.value.records, useCache, read, i, total, auth, world)
    requires i == |listed.value.records|
    ensures w.trace <= world.trace && w.cache.Keys <= world.cache.Keys
    ensures world.cache == CacheAfter(env, w.cache, Added(w, world))
    ensures var ev := Added(w, world);
      var records := ListedRecords(env, ev);
      && ListedAll(env, ev)
      && SumAll(records, read) == Success(total)
      && Handled(ev) == Ids(records)
      && (!useCache ==> Tickets(ev) == Ids(records) && CacheReads(ev) == [])
      && (useCache && Warm(w, records) ==> Tickets(ev) == [])
      && (useCache ==> forall id :: id in Tickets(ev) ==> id !in w.cache)
      && (useCache ==> forall id :: id in Ids(records) && id !in w.cache ==> id in Tickets(ev))
      && Thread(env, auth0, |w.trace|, ev) == Some(auth)
  {
    assert listed.value.records[..i] == listed.value.records;
    Conclude(env, w, auth0, listed, world);
    FetchCache(env, w, listed.world, world);
  }

  /** What `fetch_all_receipts` promises when it stops at record `i`, whose total does not read. */
  lemma StoppedFacts(env: Env, w: World, auth0: AuthContext, listed: Outcome<Receipts>, useCache: bool,
                     read: ReceiptSummary -> Result<real, FetchError>,
                     i: nat, total: real, auth: AuthContext, world: World)
    requires ReadsAmounts(read)
    requires listed.Done? && w.trace <= listed.world.trace && listed.world.cache == w.cache
    requires ListedAll(env, Added(w, listed.world))
    requires ListedRecords(env, Added(w, listed.world)) == listed.value.records
    requires Thread(env, auth0, |w.trace|, Added(w, listed.world)) == Some(listed.auth)
    requires Tickets(Added(w, listed.world)) == [] && CacheReads(Added(w, listed.world)) == []
    requires Handled(Added(w, listed.world)) == []
    requires Fetched(env, w, listed.world, listed.auth, listed.value.records, useCache, read, i, total, auth, world)
    requires i < |listed.value.records| && read(listed.value.records[i]).Failure?
    ensures w.trace <= world.trace && w.cache.Keys <= world.cache.Keys
    ensures world.cache == CacheAfter(env, w.cache, Added(w, world))
    ensures Thread(env, auth0, |w.trace|, Added(w, world)).Some?
    ensures read(listed.value.records[i]).error.InvalidAmount?
    ensures var ev := Added(w, world);
      var records := ListedRecords(env, ev);
      var e := read(listed.value.records[i]).error;
      && ListedAll(env, ev)
      && SumAll(records, read) == Failure(e)
      && Handled(ev) == Ids(records[..FirstFailure(records, read)])
      && (!useCache ==> Tickets(ev) == Ids(records[..FirstFailure(records, read)]) && CacheReads(ev) == [])
      && (useCache ==> forall id :: id in Tickets(ev) ==> id !in w.cache)
      && (useCache ==> forall id :: id in Ids(records[..FirstFailure(records, read)]) && id !in w.cache ==> id in Tickets(ev))
  {
    SumAllStop(listed.value.records, i, read);
    Conclude(env, w, auth0, listed, world);
    FetchCache(env, w, listed.world, world);
  }

  /**
    The cache at the end of `fetch`: the listing `lw` left it alone, so it is
    the starting cache with every delivered receipt written in order, and
    only requested ids are new or changed.
  */
  lemma FetchCache(env: Env, w: World, lw: World, world: World)
    requires w.trace <= lw.trace <= world.trace
    requires lw.cache == w.cache && Tickets(Added(w, lw)) == []
    requires world.cache == CacheAfter(env, w.cache, Added(lw, world))
    ensures world.cache == CacheAfter(env, w.cache, Added(w, world))
    ensures forall id :: id in world.cache ==> id in w.cache || id in Tickets(Added(w, world))
    ensures forall id :: id in w.cache && id !in Tickets(Added(w, world)) ==>
      id in world.cache && world.cache[id] == w.cache[id]
  {
    CacheAfterUnrequested(env, w.cache, Added(w, lw));
    CacheOn(env, w.cache, w, lw, world);
    CacheAfterKeys(env, w.cache, Added(w, world));
  }

  /**
    The loop of `fetch_all_receipts` over the listed `records`: it stops at
    the first record whose total does not read, or after the last record.
  */
  method HandleRecords(env: Env, w: World, lw: World, a1: AuthContext, records: seq<ReceiptSummary>, useCache: bool,
                       read: ReceiptSummary -> Result<real, FetchError>)
    returns (i: nat, total: real, auth: AuthContext, world: World)
    requires Fetched(env, w, lw, a1, records, useCache, read, 0, 0.0, a1, lw)
    ensures Fetched(env, w, lw, a1, records, useCache, read, i, total, auth, world)
    ensures i < |records| ==> read(records[i]).Failure?
  {
    i, total, auth, world := 0, 0.0, a1, lw;
    while i < |records|
      invariant Fetched(env, w, lw, a1, records, useCache, read, i, total, auth, world)
    {
      var amount := read(records[i]);
      if amount.Failure? {
        return;
      }
      var r := RequestTicket(env, world, auth, records[i].id, useCache);
      FetchedNext(env, w, lw, a1, records, useCache, read, i, total, auth, world);
      i, total, auth, world := i + 1, total + amount.value, r.1, r.2;
    }
  }

  /**
    The state of the `fetch` loop after its first `i` records, counted from
    the end of the listing `lw` reached with context `a1`: their totals add up
    to `total`, each of their receipts was handled once and in order, from the
    service whenever the cache is not preferred and from the cache whenever
    all receipts were cached beforehand, and `auth` is where the contexts
    handed from call to call lead.
  */
  ghost predicate Fetched(env: Env, w: World, lw: World, a1: AuthContext, records: seq<ReceiptSummary>, useCache: bool,
                          read: ReceiptSummary -> Result<real, FetchError>,
                          i: nat, total: real, auth: AuthContext, world: World) {
    && i <= |records|
    && lw.trace <= world.trace && w.cache.Keys <= world.cache.Keys
    && SumAll(records[..i], read) == Success(total)
    && Pages(Added(lw, world)) == []
    && Handled(Added(lw, world)) == Ids(records[..i])
    && (!useCache ==> Tickets(Added(lw, world)) == Ids(records[..i]) && CacheReads(Added(lw, world)) == [])
    && (useCache && Warm(w, records) ==> Tickets(Added(lw, world)) == [])
    && (useCache ==> forall id :: id in Tickets(Added(lw, world)) ==> id !in w.cache)
    && (useCache ==> forall id :: id in Ids(records[..i]) && id !in w.cache ==> id in Tickets(Added(lw, world)))
    && world.cache == CacheAfter(env, w.cache, Added(lw, world))
    && Thread(env, a1, |lw.trace|, Added(lw, world)) == Some(auth)
  }

  /** Handling record `i` of the listing, whose total reads, keeps the loop state. */
  lemma FetchedNext(env: Env, w: World, lw: World, a1: AuthContext, records: seq<ReceiptSummary>, useCache: bool,
                    read: ReceiptSummary -> Result<real, FetchError>,
                    i: nat, total: real, auth: AuthContext, world: World)
    requires Fetched(env, w, lw, a1, records, useCache, read, i, total, auth, world)
    requires i < |records| && read(records[i]).Success?
    ensures var r := RequestTicket(env, world, auth, records[i].id, useCache);
      Fetched(env, w, lw, a1, records, useCache, read, i + 1, total + read(records[i]).value, r.1, r.2)
  {
    var id := records[i].id;
    var r := RequestTicket(env, world, auth, id, useCache);
    TicketStep(env, lw, world, a1, auth, id, useCache);
    CachedNext(env, w, lw, world, auth, records, i, useCache);
    FetchedStep(env, w, lw, a1, records, useCache, read, i, total, auth, world, CacheHit(world, id, useCache), r.1, r.2);
  }

  /**
    `FetchedNext` for any world `world2` and context `a2` that one call for
    record `i` can leave, `hit` telling whether it was served from the cache.
  */
  lemma FetchedStep(env: Env, w: World, lw: World, a1: AuthContext, records: seq<ReceiptSummary>, useCache: bool,
                    read: ReceiptSummary -> Result<real, FetchError>,
                    i: nat, total: real, auth: AuthContext, world: World, hit: bool, a2: AuthContext, world2: World)
    requires Fetched(env, w, lw, a1, records, useCache, read, i, total, auth, world)
    requires i < |records| && read(records[i]).Success?
    requires hit <==> useCache && records[i].id in world.cache
    requires lw.trace <= world2.trace && world.cache.Keys <= world2.cache.Keys
    requires Thread(env, a1, |lw.trace|, Added(lw, world2)) == Some(a2)
    requires Pages(Added(lw, world2)) == Pages(Added(lw, world))
    requires Handled(Added(lw, world2)) == Handled(Added(lw, world)) + [records[i].id]
    requires Tickets(Added(lw, world2)) == Tickets(Added(lw, world)) + (if hit then [] else [records[i].id])
    requires CacheReads(Added(lw, world2)) == CacheReads(Added(lw, world)) + (if hit then [records[i].id] else [])
    requires world2.cache == CacheAfter(env, w.cache, Added(lw, world2))
    requires useCache ==> forall id :: id in Ids(records[..i + 1]) && id !in w.cache ==> id in Tickets(Added(lw, world2))
    ensures Fetched(env, w, lw, a1, records, useCache, read, i + 1, total + read(records[i]).value, a2, world2)
  {
    SumAllSnoc(records, i, total, read);
    IdsSnoc(records, i);
  }

  /** The cache part of `FetchedNext`: the cache replay and the requested misses carry over one call. */
  lemma CachedNext(env: Env, w: World, lw: World, world: World, auth: AuthContext,
                   records: seq<ReceiptSummary>, i: nat, useCache: bool)
    requires i < |records| && lw.trace <= world.trace
    requires var r := RequestTicket(env, world, auth, records[i].id, useCache);
      && lw.trace <= r.2.trace
      && Tickets(Added(lw, r.2)) == Tickets(Added(lw, world)) + (if CacheHit(world, records[i].id, useCache) then [] else [records[i].id])
    requires world.cache == CacheAfter(env, w.cache, Added(lw, world))
    requires useCache ==> forall id :: id in Ids(records[..i]) && id !in w.cache ==> id in Tickets(Added(lw, world))
    ensures var r := RequestTicket(env, world, auth, records[i].id, useCache);
      && lw.trace <= r.2.trace
      && r.2.cache == CacheAfter(env, w.cache, Added(lw, r.2))
      && (useCache ==> forall id :: id in Ids(records[..i + 1]) && id !in w.cache ==> id in Tickets(Added(lw, r.2)))
  {
    var r := RequestTicket(env, world, auth, records[i].id, useCache);
    IdsSnoc(records, i);
    RequestTicketCache(env, world, auth, records[i].id, useCache);
    CacheOn(env, w.cache, lw, world, r.2);
    if useCache {
      CacheAfterKeys(env, w.cache, Added(lw, world));
      MissesNext(w.cache, world.cache, Ids(records[..i]), records[i].id,
                 Tickets(Added(lw, world)), Tickets(Added(lw, r.2)));
    }
  }

  /**
    With the cache preferred, one more id handled keeps every id not cached
    at the start among the requested ones: an id the cache still lacks is a
    miss, and a miss is requested.
  */
  lemma MissesNext(c: map<string, Receipt>, now: map<string, Receipt>, done: seq<string>, id: string,
                   before: seq<string>, after: seq<string>)
    requires forall x :: x in done && x !in c ==> x in before
    requires forall x :: x in now ==> x in c || x in before
    requires after == before + (if id in now then [] else [id])
    ensures forall x :: x in done + [id] && x !in c ==> x in after
  {
  }

  lemma IdsSnoc(records: seq<ReceiptSummary>, i: nat)
    requires i < |records|
    ensures Ids(records[..i + 1]) == Ids(records[..i]) + [records[i].id]
  {
    assert records[..i + 1] == records[..i] + [records[i]];
  }

  /** The whole trace is the listing followed by the receipt requests. */
  lemma Conclude(env: Env, w: World, auth0: AuthContext, listed: Outcome<Receipts>, world: World)
    requires listed.Done? && w.trace <= listed.world.trace <= world.trace
    requires Thread(env, auth0, |w.trace|, Added(w, listed.world)) == Some(listed.auth)
    requires ListingOk(env, Added(w, listed.world))
    requires ListedRecords(env, Added(w, listed.world)) == listed.value.records
    requires Handled(Added(w, listed.world)) == [] && Tickets(Added(w, listed.world)) == []
    requires CacheReads(Added(w, listed.world)) == []
    requires Pages(Added(listed.world, world)) == []
    ensures ListedRecords(env, Added(w, world)) == listed.value.records
    ensures ListingOk(env, Added(w, world))
    ensures Pages(Added(w, world)) == Pages(Added(w, listed.world))
    ensures Listing(env, Added(w, world)) == Listing(env, Added(w, listed.world))
    ensures Handled(Added(w, world)) == Handled(Added(listed.world, world))
    ensures Tickets(Added(w, world)) == Tickets(Added(listed.world, world))
    ensures CacheReads(Added(w, world)) == CacheReads(Added(listed.world, world))
    ensures Thread(env, auth0, |w.trace|, Added(w, world)) == Thread(env, listed.auth, |listed.world.trace|, Added(listed.world, world))
  {
    AddedConcat(w, listed.world, world);
    Compose(env, Added(w, listed.world), Added(listed.world, world));
    CollectConcat(Added(w, listed.world), Added(listed.world, world), HandledOf);
    NoPages(env, Added(listed.world, world));
    ThreadOn(env, auth0, w, listed.world, world);
  }

  /** The context threaded through a trace in two parts goes on from where the first part ends. */
  lemma ThreadOn(env: Env, auth0: AuthContext, w: World, w1: World, w2: World)
    requires w.trace <= w1.trace <= w2.trace
    requires Thread(env, auth0, |w.trace|, Added(w, w1)).Some?
    ensures Thread(env, auth0, |w.trace|, Added(w, w2))
         == Thread(env, Thread(env, auth0, |w.trace|, Added(w, w1)).value, |w1.trace|, Added(w1, w2))
  {
    AddedConcat(w, w1, w2);
    ThreadConcat(env, auth0, |w.trace|, Added(w, w1), Added(w1, w2));
  }
}

=== FILE: decimal.dfy ===
/**
  Exact decimal amounts as the client reads them from the receipt service.

  Money fields arrive as strings with a comma as the decimal separator
  ("1,99"). `eu_to_us_fp` turns every comma into a dot and hands the result to
  Python's `Decimal`, so the value is exact and no binary floating point is
  involved. Here an exact decimal is a Dafny `real`, which is an exact rational.
*/
module Decimal {
  import opened Wrappers

  predicate IsDigit(c: char) {
    '0' <= c <= '9'
  }

  predicate AllDigits(s: string) {
    forall i :: 0 <= i < |s| ==> IsDigit(s[i])
  }

  function DigitValue(c: char): nat
    requires IsDigit(c)
  {
    c as int - '0' as int
  }

  function DigitChar(d: nat): (c: char)
    requires d < 10
    ensures IsDigit(c) && DigitValue(c) == d
  {
    ('0' as int + d) as char
  }

  /** The number a string of decimal digits denotes, most significant digit first; "" denotes 0. */
  function DigitsValue(s: string): nat
    requires AllDigits(s)
  {
    if |s| == 0 then 0 else DigitsValue(s[..|s| - 1]) * 10 + DigitValue(s[|s| - 1])
  }

  function Pow10(k: nat): (p: nat)
    ensures p >= 1
  {
    if k == 0 then 1 else 10 * Pow10(k - 1)
  }

  /** `n / 10^k`, computed one decimal place at a time. */
  function Shift(n: int, k: nat): real
  {
    if k == 0 then n as real else Shift(n, k - 1) / 10.0
  }

  /** The first position of `c` in `s`, or `|s|` when `c` does not occur. */
  function IndexOf(s: string, c: char): (k: nat)
    ensures k <= |s|
    ensures k < |s| ==> s[k] == c
    ensures forall i :: 0 <= i < k ==> s[i] != c
  {
    if |s| == 0 then 0
    else if s[0] == c then 0
    else 1 + IndexOf(s[1..], c)
  }

  /** `str.replace(",", ".")`: every comma becomes a dot, every other character stays. */
  function CommaToDot(s: string): (r: string)
    ensures |r| == |s|
    ensures forall i :: 0 <= i < |s| ==> r[i] == (if s[i] == ',' then '.' else s[i])
  {
    if |s| == 0 then ""
    else [if s[0] == ',' then '.' else s[0]] + CommaToDot(s[1..])
  }

  /**
    An unsigned decimal in plain notation: digits, optionally a '.' and more
    digits, with at least one digit in all ("12", "1.5", "1.", ".5"). Like
    Python's `Decimal`, the digits form one integer coefficient and the number
    of digits after the '.' is the (negated) exponent: "12.34" is 1234 / 10^2.
  */
  function ParseUnsigned(s: string): Option<real>
  {
    var k := IndexOf(s, '.');
    var whole := s[..k];
    var frac := if k < |s| then s[k + 1..] else "";
    if AllDigits(whole) && AllDigits(frac) && |whole| + |frac| > 0 then
      Some(Shift(DigitsValue(whole + frac), |frac|))
    else
      None
  }

  /**
    Python's `Decimal(s)` on plain notation: an optional sign followed by an
    unsigned decimal. `None` stands for the `InvalidOperation` Python raises on
    any other string.
  */
  function ParseDecimal(s: string): Option<real>
  {
    if |s| > 0 && s[0] == '-' then
      match ParseUnsigned(s[1..])
      case Some(v) => Some(-v)
      case None => None
    else if |s| > 0 && s[0] == '+' then
      ParseUnsigned(s[1..])
    else
      ParseUnsigned(s)
  }

  /** `eu_to_us_fp`: the exact value of a comma-decimal string such as "1,99". */
  function ParseCommaDecimal(s: string): Option<real>
  {
    ParseDecimal(CommaToDot(s))
  }

  // ---------------------------------------------------------------------
  // Writing amounts out: the inverse direction, used to state exactness.
  // ---------------------------------------------------------------------

  /** The decimal digits of `n` without leading zeros ("0" for zero). */
  function Digits(n: nat): (s: string)
    ensures |s| > 0 && AllDigits(s)
    ensures DigitsValue(s) == n
  {
    if n < 10 then [DigitChar(n)]
    else
      var s := Digits(n / 10) + [DigitChar(n % 10)];
      assert s[..|s| - 1] == Digits(n / 10);
      s
  }

  /** `j` zero digits. */
  function Zeros(j: nat): (s: string)
    ensures |s| == j && AllDigits(s)
  {
    if j == 0 then "" else Zeros(j - 1) + "0"
  }

  /** The digits of `a`, with leading zeros added until there are more than `k`. */
  function PaddedDigits(a: nat, k: nat): (s: string)
    ensures |s| > k
  {
    var digits := Digits(a);
    if |digits| > k then digits else Zeros(k + 1 - |digits|) + digits
  }

  /** The digits of `a / 10^k` before the separator: at least one. */
  function WholeDigits(a: nat, k: nat): string
  {
    var padded := PaddedDigits(a, k);
    padded[..|padded| - k]
  }

  /** The last `k` digits of `a`: the fraction of `a / 10^k`. */
  function FractionDigits(a: nat, k: nat): string
  {
    var padded := PaddedDigits(a, k);
    padded[|padded| - k..]
  }

  /** The non-negative amount `a / 10^k` with exactly `k` fractional digits. */
  function FormatUnsigned(a: nat, k: nat, sep: char): string
  {
    if k == 0 then WholeDigits(a, k)
    else WholeDigits(a, k) + [sep] + FractionDigits(a, k)
  }

  /**
    The amount `m / 10^k` written in plain notation with exactly `k`
    fractional digits and `sep` as decimal separator: `Format(199, 2, ',')`
    is "1,99", `Format(-5, 1, '.')` is "-0.5".
  */
  function Format(m: int, k: nat, sep: char): string
  {
    if m < 0 then "-" + FormatUnsigned(-m, k, sep) else FormatUnsigned(m, k, sep)
  }

  /** A string of zeros denotes 0. */
  lemma {:induction false} ZerosValue(j: nat)
    ensures DigitsValue(Zeros(j)) == 0
  {
    if j > 0 {
      assert Zeros(j)[..j - 1] == Zeros(j - 1);
      ZerosValue(j - 1);
    }
  }

  /** Leading zeros keep the value of a digit string. */
  lemma {:induction false} LeadingZeros(j: nat, s: string)
    requires AllDigits(s)
    ensures AllDigits(Zeros(j) + s) && DigitsValue(Zeros(j) + s) == DigitsValue(s)
    decreases |s|
  {
    var z := Zeros(j);
    if |s| == 0 {
      assert z + s == z;
      ZerosValue(j);
    } else {
      var s' := s[..|s| - 1];
      assert (z + s)[..|z + s| - 1] == z + s';
      assert (z + s)[|z + s| - 1] == s[|s| - 1];
      LeadingZeros(j, s');
    }
  }

  /** The two halves of a written amount are digit strings that together denote `a`. */
  lemma SplitDigits(a: nat, k: nat)
    ensures var whole, frac := WholeDigits(a, k), FractionDigits(a, k);
      && |whole| > 0 && |frac| == k
      && AllDigits(whole) && AllDigits(frac)
      && AllDigits(whole + frac) && DigitsValue(whole + frac) == a
  {
    var digits := Digits(a);
    if |digits| <= k {
      LeadingZeros(k + 1 - |digits|, digits);
    }
    var padded := PaddedDigits(a, k);
    assert padded == WholeDigits(a, k) + FractionDigits(a, k);
  }

  /** `Shift` is division by a power of ten. */
  lemma {:induction false} ShiftIsDivision(n: int, k: nat)
    ensures Shift(n, k) == n as real / Pow10(k) as real
  {
    if k > 0 {
      ShiftIsDivision(n, k - 1);
      var p := Pow10(k - 1) as real;
      assert Pow10(k) as real == 10.0 * p;
      assert (n as real / p) / 10.0 == n as real / (10.0 * p);
    }
  }

  /** Shifting commutes with negation. */
  lemma {:induction false} ShiftNegate(n: int, k: nat)
    ensures Shift(-n, k) == -Shift(n, k)
  {
    if k > 0 {
      ShiftNegate(n, k - 1);
    }
  }

  /** Reading a digit string after a prefix that holds no '.'. */
  lemma IndexAfterDigits(whole: string, rest: string)
    requires AllDigits(whole)
    ensures IndexOf(whole + rest, '.') == |whole| + IndexOf(rest, '.')
    decreases |whole|
  {
    if |whole| > 0 {
      assert IsDigit(whole[0]) && (whole + rest)[0] == whole[0];
      assert (whole + rest)[1..] == whole[1..] + rest;
      IndexAfterDigits(whole[1..], rest);
    } else {
      assert whole + rest == rest;
    }
  }

  /** A whole part and a fraction joined by '.' read as one coefficient scaled by the fraction's length. */
  lemma ParseWholeAndFraction(whole: string, frac: string)
    requires AllDigits(whole) && AllDigits(frac) && |whole| > 0
    ensures ParseUnsigned(whole + ['.'] + frac) == Some(Shift(DigitsValue(whole + frac), |frac|))
  {
    var body := whole + ['.'] + frac;
    IndexAfterDigits(whole, ['.'] + frac);
    assert body == whole + (['.'] + frac);
    assert body[..|whole|] == whole;
    assert body[|whole| + 1..] == frac;
  }

  /** A digit string alone reads as its value. */
  lemma ParseWhole(whole: string)
    requires AllDigits(whole) && |whole| > 0
    ensures ParseUnsigned(whole) == Some(DigitsValue(whole) as real)
  {
    IndexAfterDigits(whole, "");
    assert whole + "" == whole;
    assert whole[..|whole|] == whole;
  }

  /** An unsigned amount written with '.' reads back as exactly `a / 10^k`. */
  lemma UnsignedRoundTrip(a: nat, k: nat)
    ensures ParseUnsigned(FormatUnsigned(a, k, '.')) == Some(Shift(a, k))
  {
    var whole, frac := WholeDigits(a, k), FractionDigits(a, k);
    SplitDigits(a, k);
    if k == 0 {
      assert whole + frac == whole;
      ParseWhole(whole);
    } else {
      ParseWholeAndFraction(whole, frac);
    }
  }

  /** `CommaToDot` works character by character. */
  lemma CommaToDotConcat(x: string, y: string)
    ensures CommaToDot(x + y) == CommaToDot(x) + CommaToDot(y)
  {
    var l, r := CommaToDot(x + y), CommaToDot(x) + CommaToDot(y);
    assert |l| == |r|;
    forall i | 0 <= i < |l|
      ensures l[i] == r[i]
    {
      if i < |x| {
        assert (x + y)[i] == x[i];
      } else {
        assert (x + y)[i] == y[i - |x|];
      }
    }
  }

  /** Digit strings hold no comma. */
  lemma DigitsCommaFree(s: string)
    requires AllDigits(s)
    ensures CommaToDot(s) == s
  {
  }

  /** Writing an unsigned amount with ',' gives the '.' form after `CommaToDot`. */
  lemma UnsignedCommaForm(a: nat, k: nat)
    ensures CommaToDot(FormatUnsigned(a, k, ',')) == FormatUnsigned(a, k, '.')
  {
    var whole, frac := WholeDigits(a, k), FractionDigits(a, k);
    SplitDigits(a, k);
    DigitsCommaFree(whole);
    if k > 0 {
      DigitsCommaFree(frac);
      CommaToDotConcat(whole + [','], frac);
      CommaToDotConcat(whole, [',']);
      assert CommaToDot([',']) == ['.'];
      assert CommaToDot(whole + [',']) == whole + ['.'];
      assert FormatUnsigned(a, k, ',') == (whole + [',']) + frac;
      assert FormatUnsigned(a, k, '.') == (whole + ['.']) + frac;
    }
  }

  /** Writing an amount with the comma separator gives the dot form after `CommaToDot`. */
  lemma CommaFormIsDotForm(m: int, k: nat)
    ensures CommaToDot(Format(m, k, ',')) == Format(m, k, '.')
  {
    var a: nat := if m < 0 then -m else m;
    UnsignedCommaForm(a, k);
    if m < 0 {
      CommaToDotConcat("-", FormatUnsigned(a, k, ','));
    }
  }

  /** A signed amount written with '.' reads back as exactly `m / 10^k`. */
  lemma SignedRoundTrip(m: int, k: nat)
    ensures ParseDecimal(Format(m, k, '.')) == Some(Shift(m, k))
  {
    var a: nat := if m < 0 then -m else m;
    var body := FormatUnsigned(a, k, '.');
    UnsignedRoundTrip(a, k);
    assert IsDigit(body[0]) by {
      SplitDigits(a, k);
      assert body[0] == WholeDigits(a, k)[0];
    }
    if m < 0 {
      NegativeParse(body, Shift(a, k));
      ShiftNegate(a, k);
    } else {
      UnsignedParse(body);
    }
  }

  /** A leading '-' negates the amount that follows it. */
  lemma NegativeParse(t: string, v: real)
    requires ParseUnsigned(t) == Some(v)
    ensures ParseDecimal("-" + t) == Some(-v)
  {
    assert ("-" + t)[1..] == t;
  }

  /** Without a sign in front, the amount reads unsigned. */
  lemma UnsignedParse(t: string)
    requires |t| > 0 && IsDigit(t[0])
    ensures ParseDecimal(t) == ParseUnsigned(t)
  {
  }

  /** A comma-written amount reads back as exactly `m / 10^k`, computed place by place. */
  lemma CommaRoundTrip(m: int, k: nat)
    ensures ParseCommaDecimal(Format(m, k, ',')) == Some(Shift(m, k))
  {
    CommaFormIsDotForm(m, k);
    SignedRoundTrip(m, k);
  }

  /**
    Exactness: every amount with `k` fractional digits, written the way the
    service writes it ("1,99") or with a dot ("1.99"), converts to exactly
    `m / 10^k`, with no rounding.
  */
  lemma FormatRoundTrip(m: int, k: nat)
    ensures ParseCommaDecimal(Format(m, k, ',')) == Some(m as real / Pow10(k) as real)
    ensures ParseDecimal(Format(m, k, '.')) == Some(m as real / Pow10(k) as real)
  {
    CommaRoundTrip(m, k);
    SignedRoundTrip(m, k);
    ShiftIsDivision(m, k);
  }

  /**
    A comma and a dot in the same place read the same: two strings that agree
    everywhere except where one has ',' and the other '.' convert to the same
    value (or both fail), so "4.50" and "4,50" are the same amount.
  */
  lemma SeparatorsAgree(s: string, t: string)
    requires |s| == |t|
    requires forall i :: 0 <= i < |s| ==> s[i] == t[i] || (s[i] in ",." && t[i] in ",.")
    ensures ParseCommaDecimal(s) == ParseCommaDecimal(t)
  {
    assert CommaToDot(s) == CommaToDot(t);
  }

  /** A digit, a decimal comma and two more digits read as the amount they spell. */
  lemma CentsRead(a: char, b: char, c: char)
    requires IsDigit(a) && IsDigit(b) && IsDigit(c)
    ensures ParseCommaDecimal([a, ',', b, c])
         == Some((100 * DigitValue(a) + 10 * DigitValue(b) + DigitValue(c)) as real / 100.0)
  {
    var whole, frac := [a], [b, c];
    assert CommaToDot([a, ',', b, c]) == whole + ['.'] + frac;
    UnsignedParse(whole + ['.'] + frac);
    ParseWholeAndFraction(whole, frac);
    assert whole + frac == [a, b, c];
    assert DigitsValue([a]) == DigitValue(a) by {
      assert [a][..0] == [];
    }
    assert DigitsValue([a, b]) == DigitValue(a) * 10 + DigitValue(b) by {
      assert [a, b][..1] == [a];
    }
    var n := DigitsValue([a, b, c]);
    assert n == 100 * DigitValue(a) + 10 * DigitValue(b) + DigitValue(c) by {
      assert [a, b, c][..2] == [a, b];
    }
    assert Shift(n, 1) == n as real / 10.0;
    calc {
      ParseCommaDecimal([a, ',', b, c]);
      ParseDecimal(whole + ['.'] + frac);
      ParseUnsigned(whole + ['.'] + frac);
      Some(Shift(n, 2));
      Some(n as real / 100.0);
    }
  }

  /** "1,99" reads as exactly 1.99. */
  lemma PriceExample()
    ensures ParseCommaDecimal("1,99") == Some(1.99)
  {
    CentsRead('1', '9', '9');
  }

  /** "4,50" and "4.50" both read as exactly 4.50. */
  lemma SeparatorExample()
    ensures ParseCommaDecimal("4,50") == Some(4.50) == ParseCommaDecimal("4.50")
  {
    CentsRead('4', '5', '0');
    assert CommaToDot("4.50") == CommaToDot("4,50");
  }

  /** "5,00" and "2,50" read as exactly 5 and 2.5: trailing zeros are kept as value. */
  lemma TrailingZeroExamples()
    ensures ParseCommaDecimal("5,00") == Some(5.0)
    ensures ParseCommaDecimal("2,50") == Some(2.50)
  {
    CentsRead('5', '0', '0');
    CentsRead('2', '5', '0');
  }

  /** A string with two separators is not a decimal. */
  lemma MalformedExample()
    ensures ParseCommaDecimal("1,2,3") == None
  {
    var bad := CommaToDot("1,2,3");
    assert bad == "1.2.3";
    assert IndexOf(bad, '.') == 1;
    assert !IsDigit(bad[2..][1]);
  }

  // ---------------------------------------------------------------------
  // Written amounts: every text `Decimal` accepts after the comma is
  // replaced, described by its parts rather than by the parser.
  // ---------------------------------------------------------------------

  /**
    `s` is an amount written as an optional sign, digits, and optionally one
    separator (',' or '.') followed by more digits, with at least one digit in
    all: "1,99", "+1,99", "01,99", ",5", "1," and "-0,00" are all written
    amounts.
  */
  predicate WrittenAs(s: string, sign: string, whole: string, point: string, frac: string) {
    && (sign == "" || sign == "+" || sign == "-")
    && (point == "" || point == "," || point == ".")
    && AllDigits(whole) && AllDigits(frac) && |whole| + |frac| > 0
    && (point == "" ==> frac == "")
    && s == sign + whole + point + frac
  }

  /** The amount written: the whole digits plus the fraction digits in units of 10^-|frac|, negated after '-'. */
  function WrittenValue(sign: string, whole: string, frac: string): real
    requires AllDigits(whole) && AllDigits(frac)
  {
    var magnitude := DigitsValue(whole) as real + DigitsValue(frac) as real / Pow10(|frac|) as real;
    if sign == "-" then -magnitude else magnitude
  }

  /** Moving one decimal place out of a shifted sum. */
  lemma Regroup(a: nat, p: nat, b: nat, d: nat)
    ensures (a * p + b) * 10 + d == a * (10 * p) + (b * 10 + d)
  {
  }

  /** Appending digits shifts the value left by their number and adds theirs. */
  lemma {:induction false} DigitsAppend(x: string, y: string)
    requires AllDigits(x) && AllDigits(y)
    ensures AllDigits(x + y) && DigitsValue(x + y) == DigitsValue(x) * Pow10(|y|) + DigitsValue(y)
    decreases |y|
  {
    if |y| == 0 {
      assert x + y == x;
    } else {
      var y', d := y[..|y| - 1], y[|y| - 1];
      DigitsAppend(x, y');
      assert (x + y)[..|x + y| - 1] == x + y';
      assert (x + y)[|x + y| - 1] == d;
      assert DigitsValue(x + y) == DigitsValue(x + y') * 10 + DigitValue(d);
      assert DigitsValue(y) == DigitsValue(y') * 10 + DigitValue(d);
      Regroup(DigitsValue(x), Pow10(|y'|), DigitsValue(y'), DigitValue(d));
    }
  }

  /** Dividing a shifted whole plus a fraction by the shift separates them again. */
  lemma DivideShifted(w: real, f: real, p: real)
    requires p > 0.0
    ensures (w * p + f) / p == w + f / p
  {
  }

  /** An unsigned written amount, with '.' as its separator if it has one, reads as its written value. */
  lemma UnsignedWritten(whole: string, point: string, frac: string)
    requires point == "" || point == "."
    requires AllDigits(whole) && AllDigits(frac) && |whole| + |frac| > 0
    requires point == "" ==> frac == ""
    ensures ParseUnsigned(whole + point + frac) == Some(WrittenValue("", whole, frac))
    ensures |whole + point + frac| > 0 && ((whole + point + frac)[0] == '.' || IsDigit((whole + point + frac)[0]))
  {
    if |whole| > 0 {
      assert (whole + point + frac)[0] == whole[0];
    }
    if point == "" {
      assert whole + point + frac == whole;
      ParseWhole(whole);
    } else {
      UnsignedFraction(whole, frac);
    }
  }

  /** Digits, a '.' and more digits read as the whole digits plus the fraction. */
  lemma UnsignedFraction(whole: string, frac: string)
    requires AllDigits(whole) && AllDigits(frac) && |whole| + |frac| > 0
    ensures ParseUnsigned(whole + "." + frac) == Some(WrittenValue("", whole, frac))
  {
    DigitsAppend(whole, frac);
    ParseDotted(whole, frac);
    ShiftedValue(whole, frac);
  }

  /** Digits, a '.' and more digits read as one coefficient scaled by the fraction's length; either side may be empty. */
  lemma ParseDotted(whole: string, frac: string)
    requires AllDigits(whole) && AllDigits(frac) && AllDigits(whole + frac) && |whole| + |frac| > 0
    ensures ParseUnsigned(whole + "." + frac) == Some(Shift(DigitsValue(whole + frac), |frac|))
  {
    var body := whole + "." + frac;
    IndexAfterDigits(whole, "." + frac);
    assert body == whole + ("." + frac);
    assert IndexOf("." + frac, '.') == 0;
    assert body[..|whole|] == whole;
    assert body[|whole| + 1..] == frac;
  }

  /** The coefficient of the joined digits, scaled by the fraction's length, is the written value. */
  lemma ShiftedValue(whole: string, frac: string)
    requires AllDigits(whole) && AllDigits(frac)
    ensures AllDigits(whole + frac) && Shift(DigitsValue(whole + frac), |frac|) == WrittenValue("", whole, frac)
  {
    DigitsAppend(whole, frac);
    ShiftSum(DigitsValue(whole), DigitsValue(frac), |frac|);
  }

  /** Shifting `w · 10^k + f` right by `k` places gives `w` plus `f` in units of 10^-k. */
  lemma ShiftSum(w: nat, f: nat, k: nat)
    ensures Shift(w * Pow10(k) + f, k) == w as real + f as real / Pow10(k) as real
  {
    var p := Pow10(k);
    var n := w * p + f;
    assert n as real == w as real * p as real + f as real by {
      CastProduct(w, p);
    }
    assert Shift(n, k) == n as real / p as real by {
      ShiftIsDivision(n, k);
    }
    DivideShifted(w as real, f as real, p as real);
  }


  /** Converting a product of integers to a real multiplies the converted factors. */
  lemma CastProduct(a: int, b: int)
    ensures (a * b) as real == a as real * b as real
  {
  }

  /** Replacing commas in a written amount leaves its sign and digits and turns a ',' separator into '.'. */
  lemma WrittenCommaToDot(sign: string, whole: string, point: string, frac: string)
    requires sign == "" || sign == "+" || sign == "-"
    requires point == "" || point == "," || point == "."
    requires AllDigits(whole) && AllDigits(frac)
    ensures CommaToDot(sign + whole + point + frac) == sign + (whole + DotFor(point) + frac)
  {
    var rest := whole + point + frac;
    assert sign + whole + point + frac == sign + rest;
    CommaToDotConcat(sign, rest);
    assert CommaToDot(sign) == sign;
    CommaToDotConcat(whole + point, frac);
    CommaToDotConcat(whole, point);
    DigitsCommaFree(whole);
    DigitsCommaFree(frac);
    assert CommaToDot(point) == DotFor(point);
  }

  /** The separator `CommaToDot` leaves: '.' for either separator, nothing for none. */
  function DotFor(point: string): string {
    if point == "" then "" else "."
  }

  /** Every written amount converts to exactly its written value. */
  lemma WrittenExact(s: string, sign: string, whole: string, point: string, frac: string)
    requires WrittenAs(s, sign, whole, point, frac)
    ensures ParseCommaDecimal(s) == Some(WrittenValue(sign, whole, frac))
  {
    WrittenCommaToDot(sign, whole, point, frac);
    DottedExact(sign, whole, DotFor(point), frac);
  }

  /** A written amount whose separator, if any, is already '.' is exactly its written value for `Decimal`. */
  lemma DottedExact(sign: string, whole: string, dot: string, frac: string)
    requires sign == "" || sign == "+" || sign == "-"
    requires dot == "" || dot == "."
    requires AllDigits(whole) && AllDigits(frac) && |whole| + |frac| > 0
    requires dot == "" ==> frac == ""
    ensures ParseDecimal(sign + (whole + dot + frac)) == Some(WrittenValue(sign, whole, frac))
  {
    UnsignedWritten(whole, dot, frac);
    SignedParse(sign, whole + dot + frac, WrittenValue("", whole, frac));
  }

  /** An optional sign before an unsigned amount: '-' negates it, '+' and no sign keep it. */
  lemma SignedParse(sign: string, body: string, v: real)
    requires sign == "" || sign == "+" || sign == "-"
    requires ParseUnsigned(body) == Some(v)
    requires |body| > 0 && (body[0] == '.' || IsDigit(body[0]))
    ensures ParseDecimal(sign + body) == Some(if sign == "-" then -v else v)
  {
    if sign == "-" {
      NegativeParse(body, v);
    } else if sign == "+" {
      PlusParse(body);
    } else {
      assert sign + body == body;
      BareParse(body);
    }
  }

  /** A leading plus leaves the amount read unchanged. */
  lemma PlusParse(t: string)
    ensures ParseDecimal("+" + t) == ParseUnsigned(t)
  {
    assert ("+" + t)[1..] == t;
  }

  /** A text starting with a digit or '.' reads unsigned. */
  lemma BareParse(t: string)
    requires |t| > 0 && (t[0] == '.' || IsDigit(t[0]))
    ensures ParseDecimal(t) == ParseUnsigned(t)
  {
  }

  /** Where `CommaToDot` leaves only digits, the text was digits already. */
  lemma DigitsBeforeReplace(x: string)
    requires AllDigits(CommaToDot(x))
    ensures CommaToDot(x) == x && AllDigits(x)
  {
    var t := CommaToDot(x);
    forall i | 0 <= i < |x|
      ensures t[i] == x[i]
    {
      assert IsDigit(t[i]);
    }
  }

  /** An unsigned text that reads as a decimal once its commas are replaced is a written amount without sign. */
  lemma UnsignedShape(body: string)
    requires ParseUnsigned(CommaToDot(body)).Some?
    ensures exists whole, point, frac :: WrittenAs(body, "", whole, point, frac)
  {
    var t := CommaToDot(body);
    var k := IndexOf(t, '.');
    ParsedParts(t);
    if k < |t| {
      assert body[k] == ',' || body[k] == '.' by {
        assert t[k] == '.';
      }
      DigitsPrefix(body, k);
      DigitsSuffix(body, k + 1);
      SeparatedShape(body, k);
    } else {
      assert AllDigits(t) && |t| > 0;
      DigitsBeforeReplace(body);
      assert body == "" + body + "" + "";
      assert WrittenAs(body, "", body, "", "");
    }
  }

  /** What a text that `ParseUnsigned` reads consists of, around its first '.'. */
  lemma ParsedParts(t: string)
    requires ParseUnsigned(t).Some?
    ensures var k := IndexOf(t, '.');
      && AllDigits(t[..k])
      && (k < |t| ==> t[k] == '.' && AllDigits(t[k + 1..]) && |t| > 1)
      && (k == |t| ==> AllDigits(t) && |t| > 0)
  {
    var k := IndexOf(t, '.');
    if k == |t| {
      assert t[..k] == t;
    }
  }

  /** The first `k` characters are digits when they are after `CommaToDot`. */
  lemma DigitsPrefix(body: string, k: nat)
    requires k <= |body| && AllDigits(CommaToDot(body)[..k])
    ensures AllDigits(body[..k])
  {
    CommaToDotTake(body, k);
    DigitsBeforeReplace(body[..k]);
  }

  /** `CommaToDot` of a prefix is the prefix of `CommaToDot`. */
  lemma {:induction false} CommaToDotTake(x: string, k: nat)
    requires k <= |x|
    ensures CommaToDot(x[..k]) == CommaToDot(x)[..k]
  {
    if k > 0 {
      CommaToDotTake(x[1..], k - 1);
      assert x[..k][0] == x[0] && x[..k][1..] == x[1..][..k - 1];
    }
  }

  /** The characters from `k` on are digits when they are after `CommaToDot`. */
  lemma DigitsSuffix(body: string, k: nat)
    requires k <= |body| && AllDigits(CommaToDot(body)[k..])
    ensures AllDigits(body[k..])
  {
    CommaToDotDrop(body, k);
    DigitsBeforeReplace(body[k..]);
  }

  /** `CommaToDot` of a suffix is the suffix of `CommaToDot`. */
  lemma {:induction false} CommaToDotDrop(x: string, k: nat)
    requires k <= |x|
    ensures CommaToDot(x[k..]) == CommaToDot(x)[k..]
  {
    if k > 0 {
      CommaToDotDrop(x[1..], k - 1);
      assert x[1..][k - 1..] == x[k..];
    }
  }

  /** A text with digits on both sides of a separator at `k` is a written amount without sign. */
  lemma SeparatedShape(body: string, k: nat)
    requires k < |body| && (body[k] == ',' || body[k] == '.')
    requires AllDigits(body[..k]) && AllDigits(body[k + 1..]) && |body| > 1
    ensures WrittenAs(body, "", body[..k], [body[k]], body[k + 1..])
  {
    assert [body[k]] == "," || [body[k]] == ".";
    assert body == "" + body[..k] + [body[k]] + body[k + 1..];
  }

  /** Every text that converts is a written amount. */
  lemma WrittenShape(s: string)
    requires ParseCommaDecimal(s).Some?
    ensures exists sign, whole, point, frac :: WrittenAs(s, sign, whole, point, frac)
  {
    var n := SignLength(s);
    SignedShape(s);
    UnsignedShape(s[n..]);
    var whole, point, frac :| WrittenAs(s[n..], "", whole, point, frac);
    WrittenSigned(s, n, whole, point, frac);
  }

  /** 1 when `s` starts with a sign, 0 otherwise. */
  function SignLength(s: string): (n: nat)
    ensures n <= |s|
  {
    if |s| > 0 && (s[0] == '-' || s[0] == '+') then 1 else 0
  }

  /** A text that converts is a sign, or none, followed by an unsigned text that converts. */
  lemma SignedShape(s: string)
    requires ParseCommaDecimal(s).Some?
    ensures var n := SignLength(s);
      && (s[..n] == "" || s[..n] == "+" || s[..n] == "-")
      && ParseUnsigned(CommaToDot(s[n..])).Some?
  {
    var n := SignLength(s);
    var t := CommaToDot(s);
    CommaToDotDrop(s, n);
    if n == 1 {
      assert t[0] == s[0];
      assert s[..1] == [s[0]];
    } else {
      assert t[0..] == t;
      assert s[0..] == s;
    }
  }

  /** A sign in front of an unsigned written amount gives a written amount. */
  lemma WrittenSigned(s: string, n: nat, whole: string, point: string, frac: string)
    requires n <= |s| && (s[..n] == "" || s[..n] == "+" || s[..n] == "-")
    requires WrittenAs(s[n..], "", whole, point, frac)
    ensures WrittenAs(s, s[..n], whole, point, frac)
  {
    assert s[n..] == whole + point + frac;
    assert s == s[..n] + s[n..];
  }

  /**
    Exactly the written amounts convert, each to its written value: the
    independent description of what `Decimal(price.replace(",", "."))`
    accepts and what it gives.
  */
  lemma WrittenAmounts(s: string)
    ensures forall sign, whole, point, frac {:trigger WrittenAs(s, sign, whole, point, frac)} ::
      WrittenAs(s, sign, whole, point, frac) ==> ParseCommaDecimal(s) == Some(WrittenValue(sign, whole, frac))
    ensures ParseCommaDecimal(s).Some? <==> exists sign, whole, point, frac :: WrittenAs(s, sign, whole, point, frac)
  {
    forall sign, whole, point, frac | WrittenAs(s, sign, whole, point, frac)
      ensures ParseCommaDecimal(s) == Some(WrittenValue(sign, whole, frac))
    {
      WrittenExact(s, sign, whole, point, frac);
    }
    if ParseCommaDecimal(s).Some? {
      WrittenShape(s);
    }
  }
}

=== FILE: fetch.dfy ===
/**
  Fetching receipts from the receipt service (receipts.py): the
  access-token check, the cached download of one receipt, the download of one
  listing page, and the paginated download of the whole listing.

  The network, the clock, token decoding, the token refresh endpoint and the
  cache directory are abstracted. The responses the service would give are an
  `Env`. The cache directory is a map from receipt id to receipt. Every
  observable action is recorded in a trace of `Event`s, and the call counters
  are read off that trace.
*/
module Fetch {
  import opened Wrappers
  import opened Model

  /** `AuthContext`: the token pair every request is made with. */
  datatype AuthContext = AuthContext(accessToken: string, refreshToken: string)

  /** An HTTP response: its status code and, when that is 200, its decoded body. */
  datatype Response<T> = Response(status: int, body: T)

  /**
    What the outside world answers. `now(n)` is `datetime.now()` as a
    timestamp after `n` events. `exp(t)` is the "exp" claim of access token
    `t`, its expiration time as defined in section 4.1.4 of RFC 7519.
    `refresh(t)` is the token pair `refresh_auth` obtains for refresh token
    `t`. `ticket(id, t)` and `list(page, t)` are the service's answers to a
    request for receipt `id`, or for listing page `page`, made with access
    token `t`. Country and language codes are fixed and folded into these answers.
  */
  datatype Env = Env(
    now: nat -> int,
    exp: string -> int,
    refresh: string -> AuthContext,
    ticket: (string, string) -> Response<Receipt>,
    list: (int, string) -> Response<Receipts>)

  /** An observable action. */
  datatype Event =
    | Refresh(refreshToken: string)
    | ListGet(page: int, accessToken: string)
    | TicketGet(id: string, accessToken: string)
    | CacheRead(id: string)
    | CacheWrite(id: string)

  /** The cache directory and everything that has happened so far. */
  datatype World = World(cache: map<string, Receipt>, trace: seq<Event>)

  /** Why fetching stops with an exception. */
  datatype FetchError =
    | ListFailed(page: int)         // "failed to retrieve receipts"
    | ZeroPageSize                  // ZeroDivisionError in the page count
    | InvalidAmount(text: string)   // a summary's total is not a decimal

  /** The result of a call that may raise: its value and auth context, or the exception; the world either way. */
  datatype Outcome<T> =
    | Done(value: T, auth: AuthContext, world: World)
    | Raised(error: FetchError, world: World)

  // ---------------------------------------------------------------------
  // Reading a trace
  // ---------------------------------------------------------------------

  /** Everything `f` extracts from the events of `evs`, in order. */
  function Collect<U>(evs: seq<Event>, f: Event -> seq<U>): seq<U> {
    if |evs| == 0 then [] else Collect(evs[..|evs| - 1], f) + f(evs[|evs| - 1])
  }

  function RefreshOf(e: Event): seq<string> {
    if e.Refresh? then [e.refreshToken] else []
  }

  function RequestOf(e: Event): seq<Event> {
    if e.ListGet? || e.TicketGet? then [e] else []
  }

  function PageOf(e: Event): seq<int> {
    if e.ListGet? then [e.page] else []
  }

  function TicketOf(e: Event): seq<string> {
    if e.TicketGet? then [e.id] else []
  }

  function CacheReadOf(e: Event): seq<string> {
    if e.CacheRead? then [e.id] else []
  }

  /** The number of calls to the refresh endpoint. */
  function RefreshCalls(evs: seq<Event>): nat {
    |Collect(evs, RefreshOf)|
  }

  /** The number of requests to the receipt service. */
  function ServiceCalls(evs: seq<Event>): nat {
    |Collect(evs, RequestOf)|
  }

  /** The listing pages requested, in order. */
  function Pages(evs: seq<Event>): seq<int> {
    Collect(evs, PageOf)
  }

  /** The receipt ids requested from the service, in order. */
  function Tickets(evs: seq<Event>): seq<string> {
    Collect(evs, TicketOf)
  }

  /** The receipt ids read from the cache, in order. */
  function CacheReads(evs: seq<Event>): seq<string> {
    Collect(evs, CacheReadOf)
  }

  /** The records of the listing pages requested in `evs`, page after page. */
  function ListedRecords(env: Env, evs: seq<Event>): seq<ReceiptSummary> {
    Collect(evs, RecordsOf(env))
  }

  function RecordsOf(env: Env): Event -> seq<ReceiptSummary> {
    (e: Event) => if e.ListGet? then env.list(e.page, e.accessToken).body.records else []
  }

  /** The bodies of the listing pages requested in `evs`, in order. */
  function Listing(env: Env, evs: seq<Event>): seq<Receipts> {
    Collect(evs, ListingOf(env))
  }

  function ListingOf(env: Env): Event -> seq<Receipts> {
    (e: Event) => if e.ListGet? then [env.list(e.page, e.accessToken).body] else []
  }

  /** Every listing page requested in `evs` was answered with status 200. */
  ghost predicate ListingOk(env: Env, evs: seq<Event>) {
    forall i :: 0 <= i < |evs| && evs[i].ListGet? ==> env.list(evs[i].page, evs[i].accessToken).status == 200
  }

  /** The access token is present and its "exp" claim lies after the time `n` events into the trace. */
  predicate ValidAt(env: Env, n: nat, accessToken: string) {
    accessToken != "" && env.exp(accessToken) > env.now(n)
  }

  /**
    The token pair a caller holds between events, and whether it was just
    obtained by a refresh and not yet used.
  */
  datatype Held = Held(auth: AuthContext, refreshed: bool)

  /**
    The pair held after event `e`, which happens `n` events into the trace,
    when `e` is what `check_auth` and the calls after it allow. A refresh uses
    the held refresh token, only when the held access token is no longer valid
    at that moment, and yields the refreshed pair. A request carries the held
    access token, which is valid at that moment or was refreshed just before.
    Nothing but a request may follow a refresh.
  */
  function Step(env: Env, h: Held, n: nat, e: Event): Option<Held> {
    match e
    case Refresh(t) =>
      if !h.refreshed && t == h.auth.refreshToken && !ValidAt(env, n, h.auth.accessToken)
      then Some(Held(env.refresh(t), true)) else None
    case ListGet(_, t) =>
      if t == h.auth.accessToken && (h.refreshed || ValidAt(env, n, t)) then Some(Held(h.auth, false)) else None
    case TicketGet(_, t) =>
      if t == h.auth.accessToken && (h.refreshed || ValidAt(env, n, t)) then Some(Held(h.auth, false)) else None
    case CacheRead(_) => if h.refreshed then None else Some(h)
    case CacheWrite(_) => if h.refreshed then None else Some(h)
  }

  /** Replays `evs`, the first of which happens `n` events into the trace, from the held pair `h`. */
  function Replay(env: Env, h: Held, n: nat, evs: seq<Event>): Option<Held> {
    if |evs| == 0 then Some(h)
    else
      match Replay(env, h, n, evs[..|evs| - 1])
      case None => None
      case Some(g) => Step(env, g, n + |evs| - 1, evs[|evs| - 1])
  }

  /**
    Replays `evs`, the first of which happens `n` events into the trace, from
    the auth context `a`. The result is `None` unless every refresh and every
    request is one `check_auth` and the call after it make with the context
    current at that point, as they do when each call hands its returned
    context to the next, and no refresh is left unused at the end. Otherwise
    it is the context at the end.
  */
  function Thread(env: Env, a: AuthContext, n: nat, evs: seq<Event>): Option<AuthContext> {
    match Replay(env, Held(a, false), n, evs)
    case Some(Held(b, false)) => Some(b)
    case _ => None
  }

  predicate IsRequest(e: Event) {
    e.ListGet? || e.TicketGet?
  }

  lemma {:induction false} CollectConcat<U>(x: seq<Event>, y: seq<Event>, f: Event -> seq<U>)
    ensures Collect(x + y, f) == Collect(x, f) + Collect(y, f)
    decreases |y|
  {
    if |y| == 0 {
      assert x + y == x;
    } else {
      var xy := x + y;
      CollectConcat(x, y[..|y| - 1], f);
      assert xy[..|xy| - 1] == x + y[..|y| - 1];
      assert xy[|xy| - 1] == y[|y| - 1];
      assert Collect(xy, f) == Collect(x + y[..|y| - 1], f) + f(y[|y| - 1]);
      assert Collect(y, f) == Collect(y[..|y| - 1], f) + f(y[|y| - 1]);
    }
  }

  lemma {:induction false} ReplayConcat(env: Env, h: Held, n: nat, x: seq<Event>, y: seq<Event>)
    ensures Replay(env, h, n, x + y) ==
      match Replay(env, h, n, x) case None => None case Some(g) => Replay(env, g, n + |x|, y)
    decreases |y|
  {
    if |y| == 0 {
      assert x + y == x;
    } else {
      ReplayConcat(env, h, n, x, y[..|y| - 1]);
      assert (x + y)[..|x + y| - 1] == x + y[..|y| - 1];
    }
  }

  /** A threaded trace followed by more events threads on from where it ended. */
  lemma ThreadConcat(env: Env, a: AuthContext, n: nat, x: seq<Event>, y: seq<Event>)
    requires Thread(env, a, n, x).Some?
    ensures Thread(env, a, n, x + y) == Thread(env, Thread(env, a, n, x).value, n + |x|, y)
  {
    ReplayConcat(env, Held(a, false), n, x, y);
  }

  /**
    What a successful replay says about the trace. Every request carries a
    token that is valid at that moment, or that the refresh just before it
    produced, or that `h` holds freshly refreshed when the request comes
    first. Every refresh but a last one is followed at once by a request. The
    pair held at the end is freshly refreshed exactly when the last event is
    a refresh.
  */
  lemma {:induction false} ReplayChecks(env: Env, h: Held, n: nat, evs: seq<Event>)
    requires Replay(env, h, n, evs).Some?
    ensures forall j {:trigger evs[j]} :: 0 <= j < |evs| && IsRequest(evs[j]) ==>
      ValidAt(env, n + j, evs[j].accessToken) || (j == 0 && h.refreshed) || (j > 0 && evs[j - 1].Refresh?)
    ensures forall j {:trigger evs[j]} :: 0 <= j < |evs| - 1 && evs[j].Refresh? ==> IsRequest(evs[j + 1])
    ensures Replay(env, h, n, evs).value.refreshed <==> if |evs| == 0 then h.refreshed else evs[|evs| - 1].Refresh?
    decreases |evs|
  {
    if |evs| > 0 {
      var init, last := evs[..|evs| - 1], evs[|evs| - 1];
      ReplayChecks(env, h, n, init);
      var g := Replay(env, h, n, init).value;
      assert g.refreshed ==> IsRequest(last);
      forall j | 0 <= j < |evs| && IsRequest(evs[j])
        ensures ValidAt(env, n + j, evs[j].accessToken) || (j == 0 && h.refreshed) || (j > 0 && evs[j - 1].Refresh?)
      {
        if j < |init| {
          assert evs[j] == init[j];
          assert j > 0 ==> evs[j - 1] == init[j - 1];
        } else {
          assert Replay(env, h, n, evs) == Step(env, g, n + j, last);
          if |init| > 0 {
            assert evs[j - 1] == init[|init| - 1];
          }
        }
      }
      forall j | 0 <= j < |evs| - 1 && evs[j].Refresh? ensures IsRequest(evs[j + 1]) {
        if j + 1 < |init| {
          assert evs[j] == init[j] && evs[j + 1] == init[j + 1];
        }
      }
    }
  }

  /**
    In a threaded trace every request carries a token that is valid at that
    moment or was refreshed by the event just before it, and every refresh is
    followed at once by a request.
  */
  lemma ThreadChecks(env: Env, a: AuthContext, n: nat, evs: seq<Event>)
    requires Thread(env, a, n, evs).Some?
    ensures forall j :: 0 <= j < |evs| && IsRequest(evs[j]) ==>
      ValidAt(env, n + j, evs[j].accessToken) || (j > 0 && evs[j - 1].Refresh?)
    ensures forall j :: 0 <= j < |evs| && evs[j].Refresh? ==> j + 1 < |evs| && IsRequest(evs[j + 1])
  {
    ReplayChecks(env, Held(a, false), n, evs);
    assert !Replay(env, Held(a, false), n, evs).value.refreshed;
  }

  /**
    The token check cannot be skipped or done needlessly. A request made with
    an access token that is no longer valid and was not just refreshed, or a
    refresh while the access token is still valid, ends every threaded trace
    that contains it.
  */
  lemma UncheckedRejected(env: Env, a: AuthContext, n: nat, e: Event, rest: seq<Event>)
    requires (IsRequest(e) && !ValidAt(env, n, a.accessToken))
          || (e.Refresh? && ValidAt(env, n, a.accessToken))
    ensures Thread(env, a, n, [e] + rest) == None
  {
    ReplayOne(env, Held(a, false), n, e);
    ReplayConcat(env, Held(a, false), n, [e], rest);
  }

  /** Replaying one event is one step. */
  lemma ReplayOne(env: Env, h: Held, n: nat, e: Event)
    ensures Replay(env, h, n, [e]) == Step(env, h, n, e)
  {
    assert [e][..0] == [];
  }

  /** A trace of one event. */
  lemma CollectOne<U>(e: Event, f: Event -> seq<U>)
    ensures Collect([e], f) == f(e)
  {
    assert [e][..0] == [];
  }

  // ---------------------------------------------------------------------
  // check_auth
  // ---------------------------------------------------------------------

  /** The access token is present and its "exp" claim lies after the current time. */
  predicate StillValid(env: Env, w: World, accessToken: string) {
    ValidAt(env, |w.trace|, accessToken)
  }

  /**
    `check_auth`: keep the token pair while the access token has not expired;
    otherwise (no access token, or an expired one) obtain a new pair with the
    refresh token. `None` for the access token is the empty string here.
  */
  function CheckAuth(env: Env, w: World, refreshToken: string, accessToken: string): (r: (AuthContext, World))
    ensures r.1.cache == w.cache
    ensures StillValid(env, w, accessToken) ==> r == (AuthContext(accessToken, refreshToken), w)
    ensures !StillValid(env, w, accessToken) ==>
      r.0 == env.refresh(refreshToken) && r.1.trace == w.trace + [Refresh(refreshToken)]
  {
    if accessToken != "" && env.exp(accessToken) > env.now(|w.trace|) then
      (AuthContext(accessToken, refreshToken), w)
    else
      (env.refresh(refreshToken), World(w.cache, w.trace + [Refresh(refreshToken)]))
  }

  /** The events a call added to the world's trace. */
  function Added(w: World, w': World): seq<Event>
    requires |w.trace| <= |w'.trace|
  {
    w'.trace[|w.trace|..]
  }

  /**
    `check_auth` touches nothing but the refresh endpoint, at most once, and
    hands back exactly the context its replay ends in, which is freshly
    refreshed exactly when the access token was no longer valid.
  */
  lemma CheckAuthEffects(env: Env, w: World, auth: AuthContext)
    ensures var r := CheckAuth(env, w, auth.refreshToken, auth.accessToken);
      && w.trace <= r.1.trace
      && RefreshCalls(Added(w, r.1)) == (if StillValid(env, w, auth.accessToken) then 0 else 1)
      && ServiceCalls(Added(w, r.1)) == 0
      && Pages(Added(w, r.1)) == [] && Tickets(Added(w, r.1)) == [] && CacheReads(Added(w, r.1)) == []
      && Listing(env, Added(w, r.1)) == [] && ListedRecords(env, Added(w, r.1)) == []
      && ListingOk(env, Added(w, r.1))
      && Replay(env, Held(auth, false), |w.trace|, Added(w, r.1))
         == Some(Held(r.0, !StillValid(env, w, auth.accessToken)))
  {
    var r := CheckAuth(env, w, auth.refreshToken, auth.accessToken);
    if StillValid(env, w, auth.accessToken) {
      assert Added(w, r.1) == [];
    } else {
      var ev := Refresh(auth.refreshToken);
      assert Added(w, r.1) == [ev];
      CollectOne(ev, RefreshOf);
      CollectOne(ev, RequestOf);
      CollectOne(ev, PageOf);
      CollectOne(ev, TicketOf);
      CollectOne(ev, CacheReadOf);
      CollectOne(ev, ListingOf(env));
      CollectOne(ev, RecordsOf(env));
      ReplayOne(env, Held(auth, false), |w.trace|, ev);
    }
  }

  /** The counters of two traces one after the other add up. */
  lemma Compose(env: Env, x: seq<Event>, y: seq<Event>)
    ensures RefreshCalls(x + y) == RefreshCalls(x) + RefreshCalls(y)
    ensures ServiceCalls(x + y) == ServiceCalls(x) + ServiceCalls(y)
    ensures Pages(x + y) == Pages(x) + Pages(y)
    ensures Tickets(x + y) == Tickets(x) + Tickets(y)
    ensures CacheReads(x + y) == CacheReads(x) + CacheReads(y)
    ensures Listing(env, x + y) == Listing(env, x) + Listing(env, y)
    ensures ListedRecords(env, x + y) == ListedRecords(env, x) + ListedRecords(env, y)
    ensures ListingOk(env, x + y) <==> ListingOk(env, x) && ListingOk(env, y)
  {
    CollectConcat(x, y, RefreshOf);
    CollectConcat(x, y, RequestOf);
    CollectConcat(x, y, PageOf);
    CollectConcat(x, y, TicketOf);
    CollectConcat(x, y, CacheReadOf);
    CollectConcat(x, y, ListingOf(env));
    CollectConcat(x, y, RecordsOf(env));
    ListingOkConcat(env, x, y);
  }

  /** A trace that requests no listing page lists no records. */
  lemma {:induction false} NoPages(env: Env, evs: seq<Event>)
    requires Pages(evs) == []
    ensures Listing(env, evs) == [] && ListedRecords(env, evs) == [] && ListingOk(env, evs)
  {
    if |evs| > 0 {
      var init := evs[..|evs| - 1];
      CollectConcat(init, [evs[|evs| - 1]], PageOf);
      assert init + [evs[|evs| - 1]] == evs;
      CollectOne(evs[|evs| - 1], PageOf);
      NoPages(env, init);
      CollectConcat(init, [evs[|evs| - 1]], ListingOf(env));
      CollectConcat(init, [evs[|evs| - 1]], RecordsOf(env));
      CollectOne(evs[|evs| - 1], ListingOf(env));
      CollectOne(evs[|evs| - 1], RecordsOf(env));
      ListingOkConcat(env, init, [evs[|evs| - 1]]);
    }
  }

  /** The events of `w` up to `w1` and then up to `w2` are the events from `w` up to `w2`. */
  lemma AddedConcat(w: World, w1: World, w2: World)
    requires w.trace <= w1.trace <= w2.trace
    ensures Added(w, w2) == Added(w, w1) + Added(w1, w2)
  {
  }

  lemma ListingOkConcat(env: Env, x: seq<Event>, y: seq<Event>)
    ensures ListingOk(env, x + y) <==> ListingOk(env, x) && ListingOk(env, y)
  {
    if ListingOk(env, x) && ListingOk(env, y) {
      forall i | 0 <= i < |x + y| && (x + y)[i].ListGet?
        ensures env.list((x + y)[i].page, (x + y)[i].accessToken).status == 200
      {
        if i >= |x| {
          assert (x + y)[i] == y[i - |x|];
        }
      }
    }
    if ListingOk(env, x + y) {
      forall i | 0 <= i < |y| && y[i].ListGet? ensures env.list(y[i].page, y[i].accessToken).status == 200 {
        assert (x + y)[|x| + i] == y[i];
      }
      forall i | 0 <= i < |x| && x[i].ListGet? ensures env.list(x[i].page, x[i].accessToken).status == 200 {
        assert (x + y)[i] == x[i];
      }
    }
  }

  // ---------------------------------------------------------------------
  // request_ticket
  // ---------------------------------------------------------------------

  /** The cache holds `id` and the caller prefers the cache. */
  predicate CacheHit(w: World, id: string, preferCache: bool) {
    preferCache && id in w.cache
  }

  /**
    `request_ticket`: the cached receipt when the caller prefers the cache and
    has it. Otherwise check the tokens and ask the service with the checked
    access token. An answer other than 200 yields nothing; a receipt that
    arrives is written to the cache under its id.
  */
  function RequestTicket(env: Env, w: World, auth: AuthContext, id: string, preferCache: bool)
    : (r: (Option<Receipt>, AuthContext, World))
    ensures CacheHit(w, id, preferCache) ==>
      r.0 == Some(w.cache[id]) && r.1 == auth && r.2 == World(w.cache, w.trace + [CacheRead(id)])
    ensures !CacheHit(w, id, preferCache) ==>
      var (a, w1) := CheckAuth(env, w, auth.refreshToken, auth.accessToken);
      var response := env.ticket(id, a.accessToken);
      && r.1 == a
      && r.2.trace == w1.trace + [TicketGet(id, a.accessToken)] + (if response.status == 200 then [CacheWrite(id)] else [])
      && (response.status != 200 ==> r.0 == None && r.2.cache == w.cache)
      && (response.status == 200 ==> r.0 == Some(response.body) && r.2.cache == w.cache[id := response.body])
  {
    if preferCache && id in w.cache then
      (Some(w.cache[id]), auth, World(w.cache, w.trace + [CacheRead(id)]))
    else
      var (a, w1) := CheckAuth(env, w, auth.refreshToken, auth.accessToken);
      var response := env.ticket(id, a.accessToken);
      var w2 := World(w1.cache, w1.trace + [TicketGet(id, a.accessToken)]);
      if response.status != 200 then
        (None, a, w2)
      else
        (Some(response.body), a, World(w2.cache[id := response.body], w2.trace + [CacheWrite(id)]))
  }

  /**
    What `request_ticket` does besides answering. A cache hit touches neither
    the service nor the tokens. Otherwise the service is asked exactly once,
    for `id`, even when the cache holds `id` but is not preferred. The
    tokens are refreshed at most once, and the context returned is the one
    the request was made with.
  */
  lemma RequestTicketEffects(env: Env, w: World, auth: AuthContext, id: string, preferCache: bool)
    ensures var r := RequestTicket(env, w, auth, id, preferCache);
      && w.trace <= r.2.trace
      && Thread(env, auth, |w.trace|, Added(w, r.2)) == Some(r.1)
      && ServiceCalls(Added(w, r.2)) == (if CacheHit(w, id, preferCache) then 0 else 1)
      && Tickets(Added(w, r.2)) == (if CacheHit(w, id, preferCache) then [] else [id])
      && CacheReads(Added(w, r.2)) == (if CacheHit(w, id, preferCache) then [id] else [])
      && RefreshCalls(Added(w, r.2)) <= (if CacheHit(w, id, preferCache) then 0 else 1)
      && Pages(Added(w, r.2)) == []
  {
    if CacheHit(w, id, preferCache) {
      HitEffects(env, w, auth, id, preferCache);
    } else {
      FetchEffects(env, w, auth, id, preferCache);
    }
  }

  /** A cache hit only reads the cache. */
  lemma HitEffects(env: Env, w: World, auth: AuthContext, id: string, preferCache: bool)
    requires CacheHit(w, id, preferCache)
    ensures var r := RequestTicket(env, w, auth, id, preferCache);
      && w.trace <= r.2.trace
      && Thread(env, auth, |w.trace|, Added(w, r.2)) == Some(r.1)
      && ServiceCalls(Added(w, r.2)) == 0 && RefreshCalls(Added(w, r.2)) == 0
      && Tickets(Added(w, r.2)) == [] && CacheReads(Added(w, r.2)) == [id]
      && Pages(Added(w, r.2)) == []
  {
    var r := RequestTicket(env, w, auth, id, preferCache);
    var ev := CacheRead(id);
    assert Added(w, r.2) == [ev];
    CollectOne(ev, RefreshOf);
    CollectOne(ev, RequestOf);
    CollectOne(ev, PageOf);
    CollectOne(ev, TicketOf);
    CollectOne(ev, CacheReadOf);
    ReplayOne(env, Held(auth, false), |w.trace|, ev);
  }

  /** A miss checks the tokens and requests the receipt once. */
  lemma FetchEffects(env: Env, w: World, auth: AuthContext, id: string, preferCache: bool)
    requires !CacheHit(w, id, preferCache)
    ensures var r := RequestTicket(env, w, auth, id, preferCache);
      && w.trace <= r.2.trace
      && Thread(env, auth, |w.trace|, Added(w, r.2)) == Some(r.1)
      && ServiceCalls(Added(w, r.2)) == 1 && RefreshCalls(Added(w, r.2)) <= 1
      && Tickets(Added(w, r.2)) == [id] && CacheReads(Added(w, r.2)) == []
      && Pages(Added(w, r.2)) == []
  {
    var r := RequestTicket(env, w, auth, id, preferCache);
    var (a, w1) := CheckAuth(env, w, auth.refreshToken, auth.accessToken);
    var written := env.ticket(id, a.accessToken).status == 200;
    var tail := [TicketGet(id, a.accessToken)] + (if written then [CacheWrite(id)] else []);
    var refreshed := !StillValid(env, w, auth.accessToken);
    assert r.2.trace == w1.trace + tail;
    AddedConcat(w, w1, r.2);
    CheckAuthEffects(env, w, auth);
    assert refreshed || ValidAt(env, |w1.trace|, a.accessToken) by {
      if !refreshed {
        assert (a, w1) == (auth, w);
      }
    }
    MissAfter(env, w, w1, r.2, auth, a, refreshed, id);
  }

  /** `MissEffects` for the events between three snapshots of the world. */
  lemma MissAfter(env: Env, w: World, w1: World, w2: World, auth: AuthContext, a: AuthContext,
                  refreshed: bool, id: string)
    requires w.trace <= w1.trace
    requires w2.trace == w1.trace + [TicketGet(id, a.accessToken)]
      + (if env.ticket(id, a.accessToken).status == 200 then [CacheWrite(id)] else [])
    requires refreshed || ValidAt(env, |w1.trace|, a.accessToken)
    requires var check := Added(w, w1);
      && Replay(env, Held(auth, false), |w.trace|, check) == Some(Held(a, refreshed))
      && RefreshCalls(check) <= 1 && ServiceCalls(check) == 0
      && Pages(check) == [] && Tickets(check) == [] && CacheReads(check) == []
    ensures w.trace <= w2.trace
    ensures Thread(env, auth, |w.trace|, Added(w, w2)) == Some(a)
    ensures ServiceCalls(Added(w, w2)) == 1 && RefreshCalls(Added(w, w2)) <= 1
    ensures Tickets(Added(w, w2)) == [id] && CacheReads(Added(w, w2)) == [] && Pages(Added(w, w2)) == []
  {
    var tail := w2.trace[|w1.trace|..];
    assert Added(w1, w2) == tail;
    AddedConcat(w, w1, w2);
    assert |w.trace| + |Added(w, w1)| == |w1.trace|;
    TailEffects(env, a, id, refreshed, |w1.trace|);
    MissEffects(env, auth, a, refreshed, |w.trace|, Added(w, w1), tail, id);
  }

  /** The ticket request of a cache miss, followed by the cache write when it succeeded. */
  lemma TailEffects(env: Env, a: AuthContext, id: string, refreshed: bool, n: nat)
    requires refreshed || ValidAt(env, n, a.accessToken)
    ensures var written := env.ticket(id, a.accessToken).status == 200;
      var tail := [TicketGet(id, a.accessToken)] + (if written then [CacheWrite(id)] else []);
      && Replay(env, Held(a, refreshed), n, tail) == Some(Held(a, false))
      && Collect(tail, RefreshOf) == [] && |Collect(tail, RequestOf)| == 1
      && Collect(tail, PageOf) == [] && Collect(tail, TicketOf) == [id] && Collect(tail, CacheReadOf) == []
  {
    if env.ticket(id, a.accessToken).status == 200 {
      WriteEffects(env, a, id, refreshed, n);
      assert [TicketGet(id, a.accessToken)] + [CacheWrite(id)] == [TicketGet(id, a.accessToken), CacheWrite(id)];
    } else {
      GetEffects(env, a, id, refreshed, n);
      assert [TicketGet(id, a.accessToken)] + [] == [TicketGet(id, a.accessToken)];
    }
  }

  /** Counting the events of a token check followed by a request for receipt `id`. */
  lemma MissEffects(env: Env, auth: AuthContext, a: AuthContext, refreshed: bool, n: nat,
                    check: seq<Event>, tail: seq<Event>, id: string)
    requires Replay(env, Held(auth, false), n, check) == Some(Held(a, refreshed))
    requires Replay(env, Held(a, refreshed), n + |check|, tail) == Some(Held(a, false))
    requires RefreshCalls(check) <= 1 && ServiceCalls(check) == 0
    requires Pages(check) == [] && Tickets(check) == [] && CacheReads(check) == []
    requires Collect(tail, RefreshOf) == [] && |Collect(tail, RequestOf)| == 1
    requires Collect(tail, PageOf) == [] && Collect(tail, TicketOf) == [id] && Collect(tail, CacheReadOf) == []
    ensures Thread(env, auth, n, check + tail) == Some(a)
    ensures ServiceCalls(check + tail) == 1 && RefreshCalls(check + tail) <= 1
    ensures Tickets(check + tail) == [id] && CacheReads(check + tail) == [] && Pages(check + tail) == []
  {
    CollectConcat(check, tail, RefreshOf);
    CollectConcat(check, tail, RequestOf);
    CollectConcat(check, tail, PageOf);
    CollectConcat(check, tail, TicketOf);
    CollectConcat(check, tail, CacheReadOf);
    ReplayConcat(env, Held(auth, false), n, check, tail);
  }

  /**
    The request `request_ticket` makes after checking the tokens, at `n`
    events into the trace, with a token just refreshed or valid at that moment.
  */
  lemma GetEffects(env: Env, a: AuthContext, id: string, refreshed: bool, n: nat)
    requires refreshed || ValidAt(env, n, a.accessToken)
    ensures var tail := [TicketGet(id, a.accessToken)];
      && Replay(env, Held(a, refreshed), n, tail) == Some(Held(a, false))
      && Collect(tail, RefreshOf) == [] && |Collect(tail, RequestOf)| == 1
      && Collect(tail, PageOf) == [] && Collect(tail, TicketOf) == [id] && Collect(tail, CacheReadOf) == []
  {
    var e := TicketGet(id, a.accessToken);
    ReplayOne(env, Held(a, refreshed), n, e);
    CollectOne(e, RefreshOf);
    CollectOne(e, RequestOf);
    CollectOne(e, PageOf);
    CollectOne(e, TicketOf);
    CollectOne(e, CacheReadOf);
  }

  /** The request `request_ticket` makes and the cache write that follows a receipt. */
  lemma WriteEffects(env: Env, a: AuthContext, id: string, refreshed: bool, n: nat)
    requires refreshed || ValidAt(env, n, a.accessToken)
    ensures var tail := [TicketGet(id, a.accessToken), CacheWrite(id)];
      && Replay(env, Held(a, refreshed), n, tail) == Some(Held(a, false))
      && Collect(tail, RefreshOf) == [] && |Collect(tail, RequestOf)| == 1
      && Collect(tail, PageOf) == [] && Collect(tail, TicketOf) == [id] && Collect(tail, CacheReadOf) == []
  {
    var get := [TicketGet(id, a.accessToken)];
    GetEffects(env, a, id, refreshed, n);
    assert [TicketGet(id, a.accessToken), CacheWrite(id)][..1] == get;
  }

  /**
    A receipt `request_ticket` hands out stays available. Asking again for the
    same id and preferring the cache returns the same receipt with the same
    context, and makes no request to the service.
  */
  lemma RequestTicketThenCached(env: Env, w: World, auth: AuthContext, id: string, preferCache: bool)
    requires RequestTicket(env, w, auth, id, preferCache).0.Some?
    ensures var (r, a, w2) := RequestTicket(env, w, auth, id, preferCache);
      var again := RequestTicket(env, w2, a, id, true);
      again.0 == r && again.1 == a && again.2.cache == w2.cache
      && ServiceCalls(Added(w2, again.2)) == 0
  {
    var (r, a, w2) := RequestTicket(env, w, auth, id, preferCache);
    RequestTicketEffects(env, w2, a, id, true);
  }

  /** What one event does to the cache: a receipt the service delivers is written under its id. */
  function WriteOf(env: Env, c: map<string, Receipt>, e: Event): map<string, Receipt> {
    if e.TicketGet? && env.ticket(e.id, e.accessToken).status == 200 then
      c[e.id := env.ticket(e.id, e.accessToken).body]
    else
      c
  }

  /**
    The cache that starts as `c` after the events `evs`: every receipt the
    service delivered for a `TicketGet`, written in order under its id, and
    nothing else.
  */
  function CacheAfter(env: Env, c: map<string, Receipt>, evs: seq<Event>): map<string, Receipt> {
    if |evs| == 0 then c else WriteOf(env, CacheAfter(env, c, evs[..|evs| - 1]), evs[|evs| - 1])
  }

  lemma {:induction false} CacheAfterConcat(env: Env, c: map<string, Receipt>, x: seq<Event>, y: seq<Event>)
    ensures CacheAfter(env, c, x + y) == CacheAfter(env, CacheAfter(env, c, x), y)
    decreases |y|
  {
    if |y| == 0 {
      assert x + y == x;
    } else {
      var init := y[..|y| - 1];
      CacheAfterConcat(env, c, x, init);
      assert (x + y)[..|x + y| - 1] == x + init;
      assert (x + y)[|x + y| - 1] == y[|y| - 1];
    }
  }

  lemma CacheAfterOne(env: Env, c: map<string, Receipt>, e: Event)
    ensures CacheAfter(env, c, [e]) == WriteOf(env, c, e)
  {
    assert [e][..0] == [];
  }

  /**
    Only receipts requested from the service enter or change the cache: every
    id cached after `evs` was cached before or requested, and an id not
    requested keeps its entry.
  */
  lemma {:induction false} CacheAfterKeys(env: Env, c: map<string, Receipt>, evs: seq<Event>)
    ensures forall id :: id in CacheAfter(env, c, evs) ==> id in c || id in Tickets(evs)
    ensures forall id :: id in c && id !in Tickets(evs) ==>
      id in CacheAfter(env, c, evs) && CacheAfter(env, c, evs)[id] == c[id]
    ensures c.Keys <= CacheAfter(env, c, evs).Keys
  {
    if |evs| > 0 {
      CacheAfterKeys(env, c, evs[..|evs| - 1]);
    }
  }

  /** The cache replayed over a trace in two parts goes on from where the first part leaves it. */
  lemma CacheOn(env: Env, c: map<string, Receipt>, w: World, w1: World, w2: World)
    requires w.trace <= w1.trace <= w2.trace
    requires w1.cache == CacheAfter(env, c, Added(w, w1))
    requires w2.cache == CacheAfter(env, w1.cache, Added(w1, w2))
    ensures w2.cache == CacheAfter(env, c, Added(w, w2))
  {
    AddedConcat(w, w1, w2);
    CacheAfterConcat(env, c, Added(w, w1), Added(w1, w2));
  }

  /** A trace without receipt requests leaves the cache alone. */
  lemma {:induction false} CacheAfterUnrequested(env: Env, c: map<string, Receipt>, evs: seq<Event>)
    requires Tickets(evs) == []
    ensures CacheAfter(env, c, evs) == c
  {
    if |evs| > 0 {
      var init, last := evs[..|evs| - 1], evs[|evs| - 1];
      assert Tickets(evs) == Tickets(init) + TicketOf(last);
      CacheAfterUnrequested(env, c, init);
    }
  }

  /**
    The cache `request_ticket` leaves is its starting cache with the events
    it added applied: a hit or an answer other than 200 changes nothing, and a
    delivered receipt is written under its id.
  */
  lemma RequestTicketCache(env: Env, w: World, auth: AuthContext, id: string, preferCache: bool)
    ensures var r := RequestTicket(env, w, auth, id, preferCache);
      w.trace <= r.2.trace && r.2.cache == CacheAfter(env, w.cache, Added(w, r.2))
  {
    var r := RequestTicket(env, w, auth, id, preferCache);
    if CacheHit(w, id, preferCache) {
      assert Added(w, r.2) == [CacheRead(id)];
      CacheAfterOne(env, w.cache, CacheRead(id));
    } else {
      var (a, w1) := CheckAuth(env, w, auth.refreshToken, auth.accessToken);
      CheckAuthCache(env, w, auth);
      MissCache(env, w, w1, r.2, id, a.accessToken);
    }
  }

  /** `check_auth` adds no receipt request and leaves the cache alone. */
  lemma CheckAuthCache(env: Env, w: World, auth: AuthContext)
    ensures var (_, w1) := CheckAuth(env, w, auth.refreshToken, auth.accessToken);
      w.trace <= w1.trace && w1.cache == w.cache && Tickets(Added(w, w1)) == []
  {
    var (_, w1) := CheckAuth(env, w, auth.refreshToken, auth.accessToken);
    if !StillValid(env, w, auth.accessToken) {
      assert Added(w, w1) == [Refresh(auth.refreshToken)];
      CollectOne(Refresh(auth.refreshToken), TicketOf);
    } else {
      assert Added(w, w1) == [];
    }
  }

  /** The cache after a miss, for the events between three snapshots of the world. */
  lemma MissCache(env: Env, w: World, w1: World, w2: World, id: string, token: string)
    requires w.trace <= w1.trace && w1.cache == w.cache && Tickets(Added(w, w1)) == []
    requires var response := env.ticket(id, token);
      && w2.trace == w1.trace + [TicketGet(id, token)] + (if response.status == 200 then [CacheWrite(id)] else [])
      && w2.cache == (if response.status == 200 then w.cache[id := response.body] else w.cache)
    ensures w.trace <= w2.trace && w2.cache == CacheAfter(env, w.cache, Added(w, w2))
  {
    var get := TicketGet(id, token);
    var tail := if env.ticket(id, token).status == 200 then [CacheWrite(id)] else [];
    AddedConcat(w, w1, w2);
    assert Added(w1, w2) == [get] + tail;
    CacheAfterUnrequested(env, w.cache, Added(w, w1));
    CacheAfterConcat(env, w.cache, Added(w, w1), [get] + tail);
    TailCache(env, w.cache, get, tail);
  }

  /** A receipt request followed by events that are not requests writes what the service sent. */
  lemma TailCache(env: Env, c: map<string, Receipt>, get: Event, tail: seq<Event>)
    requires tail == [] || (|tail| == 1 && tail[0].CacheWrite?)
    ensures CacheAfter(env, c, [get] + tail) == WriteOf(env, c, get)
  {
    CacheAfterConcat(env, c, [get], tail);
    CacheAfterOne(env, c, get);
    if tail != [] {
      CacheAfterOne(env, WriteOf(env, c, get), tail[0]);
      assert tail == [tail[0]];
    }
  }

  // ---------------------------------------------------------------------
  // request_tickets
  // ---------------------------------------------------------------------

  /**
    `request_tickets`: check the tokens, then ask the service for listing
    page `page` with the checked access token. An answer other than 200
    raises "failed to retrieve receipts".
  */
  function RequestTickets(env: Env, w: World, auth: AuthContext, page: int): (r: Outcome<Receipts>)
    ensures var (a, w1) := CheckAuth(env, w, auth.refreshToken, auth.accessToken);
      var response := env.list(page, a.accessToken);
      && r.world == World(w.cache, w1.trace + [ListGet(page, a.accessToken)])
      && (r.Done? <==> response.status == 200)
      && (r.Done? ==> r.value == response.body && r.auth == a)
      && (r.Raised? ==> r.error == ListFailed(page))
  {
    var (a, w1) := CheckAuth(env, w, auth.refreshToken, auth.accessToken);
    var response := env.list(page, a.accessToken);
    var w2 := World(w1.cache, w1.trace + [ListGet(page, a.accessToken)]);
    if response.status != 200 then Raised(ListFailed(page), w2) else Done(response.body, a, w2)
  }

  /**
    What `request_tickets` does besides answering: it asks the service once,
    for `page`, with the context its replay ends in, and it refreshes the
    tokens at most once.
  */
  lemma RequestTicketsEffects(env: Env, w: World, auth: AuthContext, page: int)
    ensures var r := RequestTickets(env, w, auth, page);
      var a := CheckAuth(env, w, auth.refreshToken, auth.accessToken).0;
      var response := env.list(page, a.accessToken);
      && w.trace <= r.world.trace
      && r.world.cache == w.cache
      && Thread(env, auth, |w.trace|, Added(w, r.world)) == Some(a)
      && Pages(Added(w, r.world)) == [page]
      && Listing(env, Added(w, r.world)) == [response.body]
      && ListedRecords(env, Added(w, r.world)) == response.body.records
      && (ListingOk(env, Added(w, r.world)) <==> r.Done?)
      && ServiceCalls(Added(w, r.world)) == 1
      && RefreshCalls(Added(w, r.world)) <= 1
      && Tickets(Added(w, r.world)) == [] && CacheReads(Added(w, r.world)) == []
      && (r.Raised? ==> FailedAt(env, Added(w, r.world), page))
  {
    var r := RequestTickets(env, w, auth, page);
    var (a, w1) := CheckAuth(env, w, auth.refreshToken, auth.accessToken);
    var refreshed := !StillValid(env, w, auth.accessToken);
    CheckAuthEffects(env, w, auth);
    assert refreshed || ValidAt(env, |w1.trace|, a.accessToken) by {
      if !refreshed {
        assert (a, w1) == (auth, w);
      }
    }
    ListAfter(env, w, w1, r.world, auth, a, refreshed, page);
  }

  /** The effects of one listing request after `check_auth`, between three snapshots of the world. */
  lemma ListAfter(env: Env, w: World, w1: World, w2: World, auth: AuthContext, a: AuthContext,
                  refreshed: bool, page: int)
    requires w.trace <= w1.trace
    requires w2.trace == w1.trace + [ListGet(page, a.accessToken)]
    requires refreshed || ValidAt(env, |w1.trace|, a.accessToken)
    requires var check := Added(w, w1);
      && Replay(env, Held(auth, false), |w.trace|, check) == Some(Held(a, refreshed))
      && RefreshCalls(check) <= 1 && ServiceCalls(check) == 0
      && Pages(check) == [] && Tickets(check) == [] && CacheReads(check) == []
      && Listing(env, check) == [] && ListedRecords(env, check) == [] && ListingOk(env, check)
    ensures var response := env.list(page, a.accessToken);
      var ev := Added(w, w2);
      && w.trace <= w2.trace
      && Thread(env, auth, |w.trace|, ev) == Some(a)
      && Pages(ev) == [page]
      && Listing(env, ev) == [response.body] && ListedRecords(env, ev) == response.body.records
      && (ListingOk(env, ev) <==> response.status == 200)
      && ServiceCalls(ev) == 1 && RefreshCalls(ev) <= 1
      && Tickets(ev) == [] && CacheReads(ev) == []
      && (response.status != 200 ==> FailedAt(env, ev, page))
  {
    var get := ListGet(page, a.accessToken);
    var check := Added(w, w1);
    assert Added(w, w2) == check + [get] by {
      AddedConcat(w, w1, w2);
      assert Added(w1, w2) == [get];
    }
    assert |w1.trace| == |w.trace| + |check|;
    ListAppend(env, auth, a, refreshed, |w.trace|, |w1.trace|, check, page);
  }

  /** The listing request for `page` appended to the events `check` of `check_auth`. */
  lemma ListAppend(env: Env, auth: AuthContext, a: AuthContext, refreshed: bool, n: nat, m: nat,
                   check: seq<Event>, page: int)
    requires m == n + |check| && (refreshed || ValidAt(env, m, a.accessToken))
    requires Replay(env, Held(auth, false), n, check) == Some(Held(a, refreshed))
    requires RefreshCalls(check) <= 1 && ServiceCalls(check) == 0
    requires Pages(check) == [] && Tickets(check) == [] && CacheReads(check) == []
    requires Listing(env, check) == [] && ListedRecords(env, check) == [] && ListingOk(env, check)
    ensures var response := env.list(page, a.accessToken);
      var ev := check + [ListGet(page, a.accessToken)];
      && Thread(env, auth, n, ev) == Some(a)
      && Pages(ev) == [page]
      && Listing(env, ev) == [response.body] && ListedRecords(env, ev) == response.body.records
      && (ListingOk(env, ev) <==> response.status == 200)
      && ServiceCalls(ev) == 1 && RefreshCalls(ev) <= 1
      && Tickets(ev) == [] && CacheReads(ev) == []
      && (response.status != 200 ==> FailedAt(env, ev, page))
  {
    var get := ListGet(page, a.accessToken);
    ListGetEffects(env, a, page, refreshed, m);
    ThreadAppend(env, auth, Held(a, refreshed), a, n, m, check, get);
    ListAppendCounts(env, check, get);
  }

  /** A replay that reaches `h` after `check`, extended by one event that leaves `a` unrefreshed. */
  lemma ThreadAppend(env: Env, auth: AuthContext, h: Held, a: AuthContext, n: nat, m: nat,
                     check: seq<Event>, e: Event)
    requires m == n + |check|
    requires Replay(env, Held(auth, false), n, check) == Some(h)
    requires Replay(env, h, m, [e]) == Some(Held(a, false))
    ensures Thread(env, auth, n, check + [e]) == Some(a)
  {
    var ev := check + [e];
    ReplayOne(env, h, m, e);
    assert ev[..|ev| - 1] == check && ev[|ev| - 1] == e;
    assert Replay(env, Held(auth, false), n, ev) == Some(Held(a, false));
  }

  /** What the counters read off `check` followed by one listing request. */
  lemma ListAppendCounts(env: Env, check: seq<Event>, get: Event)
    requires get.ListGet?
    requires RefreshCalls(check) <= 1 && ServiceCalls(check) == 0
    requires Pages(check) == [] && Tickets(check) == [] && CacheReads(check) == []
    requires Listing(env, check) == [] && ListedRecords(env, check) == [] && ListingOk(env, check)
    ensures var response := env.list(get.page, get.accessToken);
      var ev := check + [get];
      && Pages(ev) == [get.page]
      && Listing(env, ev) == [response.body] && ListedRecords(env, ev) == response.body.records
      && (ListingOk(env, ev) <==> response.status == 200)
      && ServiceCalls(ev) == 1 && RefreshCalls(ev) <= 1
      && Tickets(ev) == [] && CacheReads(ev) == []
      && (response.status != 200 ==> FailedAt(env, ev, get.page))
  {
    var ev := check + [get];
    ListGetCounts(env, get.page, get.accessToken);
    assert [ListGet(get.page, get.accessToken)] == [get];
    Compose(env, check, [get]);
    assert ev[..|ev| - 1] == check && ev[|ev| - 1] == get;
  }


  /**
    The one event of a listing request, at `n` events into the trace, with a
    token just refreshed or valid at that moment.
  */
  lemma ListGetEffects(env: Env, a: AuthContext, page: int, refreshed: bool, n: nat)
    requires refreshed || ValidAt(env, n, a.accessToken)
    ensures var get := [ListGet(page, a.accessToken)];
      var response := env.list(page, a.accessToken);
      && Replay(env, Held(a, refreshed), n, get) == Some(Held(a, false))
      && RefreshCalls(get) == 0 && ServiceCalls(get) == 1
      && Pages(get) == [page] && Tickets(get) == [] && CacheReads(get) == []
      && Listing(env, get) == [response.body] && ListedRecords(env, get) == response.body.records
      && (ListingOk(env, get) <==> response.status == 200)
  {
    ReplayOne(env, Held(a, refreshed), n, ListGet(page, a.accessToken));
    ListGetCounts(env, page, a.accessToken);
  }

  /** What the counters read off one listing request. */
  lemma ListGetCounts(env: Env, page: int, token: string)
    ensures var get := [ListGet(page, token)];
      var response := env.list(page, token);
      && RefreshCalls(get) == 0 && ServiceCalls(get) == 1
      && Pages(get) == [page] && Tickets(get) == [] && CacheReads(get) == []
      && Listing(env, get) == [response.body] && ListedRecords(env, get) == response.body.records
      && (ListingOk(env, get) <==> response.status == 200)
  {
    var e := ListGet(page, token);
    assert [e][0] == e;
    CollectOne(e, RefreshOf);
    CollectOne(e, RequestOf);
    CollectOne(e, PageOf);
    CollectOne(e, TicketOf);
    CollectOne(e, CacheReadOf);
    CollectOne(e, ListingOf(env));
    CollectOne(e, RecordsOf(env));
  }

  /**
    Listing page `page` is the last event of `evs` and was answered with a
    status other than 200, while every page requested before it was answered.
  */
  ghost predicate FailedAt(env: Env, evs: seq<Event>, page: int) {
    && |evs| > 0
    && evs[|evs| - 1].ListGet? && evs[|evs| - 1].page == page
    && env.list(page, evs[|evs| - 1].accessToken).status != 200
    && ListingOk(env, evs[..|evs| - 1])
  }

  // ---------------------------------------------------------------------
  // get_receipts
  // ---------------------------------------------------------------------

  function Abs(x: int): nat {
    if x < 0 then -x else x
  }

  /**
    `int(a / b)` for integers: the quotient rounded toward zero. Floating
    point rounding of very large operands is not modelled.
  */
  function TruncDiv(a: int, b: int): (q: int)
    requires b != 0
    ensures Abs(q) == Abs(a) / Abs(b)
    ensures q < 0 ==> (a < 0) != (b < 0)
    ensures q > 0 ==> (a < 0) == (b < 0)
  {
    var x, y := Abs(a), Abs(b);
    assert x / y >= 0;
    if (a < 0) == (b < 0) then x / y else -(x / y)
  }

  lemma DivBounds(a: nat, b: nat)
    requires b > 0
    ensures (a / b) * b <= a < (a / b + 1) * b
    ensures a % b == 0 ==> (a / b) * b == a
  {
    assert a == (a / b) * b + a % b;
  }

  /** The number of listing pages `get_receipts` asks for, given the first page. */
  function PageTotal(first: Receipts): (n: nat)
    requires first.totalCount > 0 ==> first.size != 0
    ensures n >= 1
  {
    if first.totalCount > 0 then
      var maxPage := TruncDiv(first.totalCount, first.size) + 1;
      if maxPage < 1 then 1 else maxPage
    else 1
  }

  /**
    With a positive page size the pages requested cover every record the
    first page announces, and at most the last of them lies wholly past the
    end. It does whenever the count is a multiple of the page size.
  */
  lemma PageTotalCovers(first: Receipts)
    requires first.totalCount > 0 && first.size > 0
    ensures PageTotal(first) * first.size > first.totalCount
    ensures (PageTotal(first) - 1) * first.size <= first.totalCount
    ensures first.totalCount % first.size == 0 ==> (PageTotal(first) - 1) * first.size == first.totalCount
  {
    DivBounds(first.totalCount, first.size);
  }

  /** Fifty records in pages of twenty-five: three pages are requested, the last beyond the end. */
  lemma PageTotalExample()
    ensures PageTotal(Receipts(1, 25, 50, [])) == 3
    ensures PageTotal(Receipts(1, 25, 51, [])) == 3
    ensures PageTotal(Receipts(1, 25, 0, [])) == 1
  {
    assert TruncDiv(50, 25) == 2;
    assert TruncDiv(51, 25) == 2;
  }

  /** The listing pages 1 to `n`. */
  function Upto(n: nat): (r: seq<int>)
    ensures |r| == n && forall i :: 0 <= i < n ==> r[i] == i + 1
  {
    seq(n, i => i + 1)
  }

  /** Counting the events of one more listing request after earlier ones. */
  lemma ListStep(env: Env, auth0: AuthContext, auth: AuthContext, a: AuthContext, n: nat,
                 x: seq<Event>, y: seq<Event>, page: nat, body: Receipts)
    requires page >= 1
    requires Thread(env, auth0, n, x) == Some(auth) && Thread(env, auth, n + |x|, y) == Some(a)
    requires Pages(x) == Upto(page - 1) && Pages(y) == [page]
    requires Listing(env, y) == [body] && ListedRecords(env, y) == body.records
    requires ServiceCalls(y) == 1 && RefreshCalls(y) <= 1 && Tickets(y) == [] && CacheReads(y) == []
    ensures Thread(env, auth0, n, x + y) == Some(a)
    ensures Pages(x + y) == Upto(page)
    ensures Listing(env, x + y) == Listing(env, x) + [body]
    ensures ListedRecords(env, x + y) == ListedRecords(env, x) + body.records
    ensures ServiceCalls(x + y) == ServiceCalls(x) + 1 && RefreshCalls(x + y) <= RefreshCalls(x) + 1
    ensures Tickets(x + y) == Tickets(x) && CacheReads(x + y) == CacheReads(x)
    ensures ListingOk(env, x + y) <==> ListingOk(env, x) && ListingOk(env, y)
  {
    Compose(env, x, y);
    ThreadConcat(env, auth0, n, x, y);
    assert Upto(page - 1) + [page] == Upto(page);
  }

  /** A failed listing request after answered ones: the failure is at the end of the whole trace. */
  lemma FailedAfter(env: Env, x: seq<Event>, y: seq<Event>, page: int)
    requires ListingOk(env, x) && FailedAt(env, y, page)
    ensures FailedAt(env, x + y, page)
  {
    assert (x + y)[..|x + y| - 1] == x + y[..|y| - 1];
    ListingOkConcat(env, x, y[..|y| - 1]);
  }

  /**
    After listing requests `ev`, starting `start` events into the trace, made
    from context `auth0`: pages 1 to `n` were
    requested, in order and each once, all answered with 200. `first` is the
    first answer, `auth` the context the requests leave behind, and `result`
    is the first page carrying the records of all `n` pages, its page number
    advanced once per later page. Nothing else was requested, and the tokens
    were refreshed at most once per page.
  */
  ghost predicate Listed(env: Env, auth0: AuthContext, start: nat, ev: seq<Event>, first: Receipts, result: Receipts, auth: AuthContext, n: nat) {
    && n >= 1
    && Pages(ev) == Upto(n)
    && |Listing(env, ev)| == n && Listing(env, ev)[0] == first
    && ListingOk(env, ev)
    && result == Receipts(first.page + n - 1, first.size, first.totalCount, ListedRecords(env, ev))
    && Thread(env, auth0, start, ev) == Some(auth)
    && ServiceCalls(ev) == n && RefreshCalls(ev) <= n
    && Tickets(ev) == [] && CacheReads(ev) == []
  }

  /**
    The whole listing: page 1 was answered, and pages 1 to the page count it
    announces were requested, in order and each once, all answered with 200.
  */
  ghost predicate ListedAll(env: Env, ev: seq<Event>) {
    && |Listing(env, ev)| >= 1
    && (Listing(env, ev)[0].totalCount > 0 ==> Listing(env, ev)[0].size != 0)
    && Pages(ev) == Upto(PageTotal(Listing(env, ev)[0]))
    && ListingOk(env, ev)
  }

  /**
    Pages 1 to `page` were requested in order and `page`, the last event, was
    not answered with 200. A page after the first lies within the count page 1
    announced.
  */
  ghost predicate ListFailedAt(env: Env, ev: seq<Event>, page: int) {
    && page >= 1
    && Pages(ev) == Upto(page)
    && FailedAt(env, ev, page)
    && (page > 1 ==> var first := Listing(env, ev)[0];
          first.totalCount > 0 && first.size != 0 && page <= PageTotal(first))
  }

  /** Only page 1 was requested; it was answered and announces records in pages of size zero. */
  ghost predicate ZeroSizeAfterFirst(env: Env, ev: seq<Event>) {
    && Pages(ev) == [1] && ListingOk(env, ev)
    && |Listing(env, ev)| == 1 && Listing(env, ev)[0].totalCount > 0 && Listing(env, ev)[0].size == 0
  }

  /** One more page on top of pages 1 to `page - 1`. */
  lemma ListedNext(env: Env, w: World, auth0: AuthContext, first: Receipts, all: Receipts,
                   auth: AuthContext, world: World, page: nat)
    requires w.trace <= world.trace && page >= 2
    requires Listed(env, auth0, |w.trace|, Added(w, world), first, all, auth, page - 1)
    ensures var next := RequestTickets(env, world, auth, page);
      && w.trace <= next.world.trace && next.world.cache == world.cache
      && (next.Done? ==>
            Listed(env, auth0, |w.trace|, Added(w, next.world), first,
                   all.(page := all.page + 1, records := all.records + next.value.records), next.auth, page))
      && (next.Raised? ==>
            && next.error == ListFailed(page)
            && Pages(Added(w, next.world)) == Upto(page)
            && FailedAt(env, Added(w, next.world), page)
            && Listing(env, Added(w, next.world))[0] == first
            && Thread(env, auth0, |w.trace|, Added(w, next.world)).Some?
            && Tickets(Added(w, next.world)) == [] && CacheReads(Added(w, next.world)) == [])
  {
    var next := RequestTickets(env, world, auth, page);
    var a := CheckAuth(env, world, auth.refreshToken, auth.accessToken).0;
    RequestTicketsEffects(env, world, auth, page);
    ListedAfter(env, w, world, next.world, auth0, first, all, auth, a, page, env.list(page, a.accessToken).body);
  }

  /** `ListedExtend` for the requests between three snapshots of the world. */
  lemma ListedAfter(env: Env, w: World, world: World, w2: World, auth0: AuthContext, first: Receipts,
                    all: Receipts, auth: AuthContext, a: AuthContext, page: nat, body: Receipts)
    requires w.trace <= world.trace <= w2.trace && page >= 2
    requires Listed(env, auth0, |w.trace|, Added(w, world), first, all, auth, page - 1)
    requires var y := Added(world, w2);
      && Thread(env, auth, |world.trace|, y) == Some(a)
      && Pages(y) == [page] && Listing(env, y) == [body] && ListedRecords(env, y) == body.records
      && ServiceCalls(y) == 1 && RefreshCalls(y) <= 1 && Tickets(y) == [] && CacheReads(y) == []
    ensures ListingOk(env, Added(world, w2)) ==>
      Listed(env, auth0, |w.trace|, Added(w, w2), first,
             all.(page := all.page + 1, records := all.records + body.records), a, page)
    ensures FailedAt(env, Added(world, w2), page) ==>
      && Pages(Added(w, w2)) == Upto(page) && FailedAt(env, Added(w, w2), page)
      && Listing(env, Added(w, w2))[0] == first && Thread(env, auth0, |w.trace|, Added(w, w2)).Some?
      && Tickets(Added(w, w2)) == [] && CacheReads(Added(w, w2)) == []
  {
    AddedConcat(w, world, w2);
    assert |w.trace| + |Added(w, world)| == |world.trace|;
    ListedExtend(env, auth0, |w.trace|, Added(w, world), Added(world, w2), first, all, auth, a, page, body);
  }

  /** One more listing request `y`, for page `page`, after pages 1 to `page - 1`. */
  lemma ListedExtend(env: Env, auth0: AuthContext, start: nat, x: seq<Event>, y: seq<Event>,
                     first: Receipts, all: Receipts, auth: AuthContext, a: AuthContext, page: nat, body: Receipts)
    requires page >= 2
    requires Listed(env, auth0, start, x, first, all, auth, page - 1)
    requires Thread(env, auth, start + |x|, y) == Some(a)
    requires Pages(y) == [page] && Listing(env, y) == [body] && ListedRecords(env, y) == body.records
    requires ServiceCalls(y) == 1 && RefreshCalls(y) <= 1 && Tickets(y) == [] && CacheReads(y) == []
    ensures ListingOk(env, y) ==>
      Listed(env, auth0, start, x + y, first, all.(page := all.page + 1, records := all.records + body.records), a, page)
    ensures FailedAt(env, y, page) ==>
      && Pages(x + y) == Upto(page) && FailedAt(env, x + y, page)
      && Listing(env, x + y)[0] == first && Thread(env, auth0, start, x + y).Some?
      && Tickets(x + y) == [] && CacheReads(x + y) == []
  {
    ListStep(env, auth0, auth, a, start, x, y, page, body);
    assert Listing(env, x + y)[0] == Listing(env, x)[0];
    if FailedAt(env, y, page) {
      FailedAfter(env, x, y, page);
    }
  }


  /**
    `get_receipts`: request listing page 1, then, when it announces a positive
    total count, pages 2 to `int(totalCount / size) + 1`, each with the
    context the previous request returned. The result is the first page
    with the records of all later pages appended and its page number
    advanced once per later page. A page answered with a status other than
    200 raises, as does a zero page size when the count is positive.
  */
  method GetReceipts(env: Env, w: World, accessToken: string, refreshToken: string) returns (out: Outcome<Receipts>)
    ensures out.world.cache == w.cache && w.trace <= out.world.trace
    ensures Thread(env, AuthContext(accessToken, refreshToken), |w.trace|, Added(w, out.world)).Some?
    ensures Tickets(Added(w, out.world)) == [] && CacheReads(Added(w, out.world)) == []
    ensures !out.Raised? || !out.error.InvalidAmount?
    ensures out.Done? ==>
      && |Listing(env, Added(w, out.world))| >= 1
      && var first := Listing(env, Added(w, out.world))[0];
      && (first.totalCount > 0 ==> first.size != 0)
      && Listed(env, AuthContext(accessToken, refreshToken), |w.trace|, Added(w, out.world), first, out.value, out.auth, PageTotal(first))
    ensures out.Raised? && out.error.ListFailed? ==> ListFailedAt(env, Added(w, out.world), out.error.page)
    ensures out.Raised? && out.error.ZeroPageSize? ==> ZeroSizeAfterFirst(env, Added(w, out.world))
  {
    var auth0 := AuthContext(accessToken, refreshToken);
    var r := RequestTickets(env, w, auth0, 1);
    RequestTicketsEffects(env, w, auth0, 1);
    assert Upto(1) == [1];
    if r.Raised? {
      return r;
    }
    var first := r.value;
    assert Listed(env, auth0, |w.trace|, Added(w, r.world), first, first, r.auth, 1);
    if first.totalCount <= 0 {
      return Done(first, r.auth, r.world);
    }
    if first.size == 0 {
      return Raised(ZeroPageSize, r.world);
    }
    out := ListRest(env, w, auth0, first, r.auth, r.world);
  }

  /**
    The loop of `get_receipts` over pages 2 to `int(totalCount / size) + 1`,
    after page 1 announced a positive count. It stops at the first page the
    service does not deliver.
  */
  method ListRest(env: Env, w: World, auth0: AuthContext, first: Receipts, auth1: AuthContext, world1: World)
    returns (out: Outcome<Receipts>)
    requires first.totalCount > 0 && first.size != 0
    requires w.trace <= world1.trace && world1.cache == w.cache
    requires Listed(env, auth0, |w.trace|, Added(w, world1), first, first, auth1, 1)
    ensures out.world.cache == w.cache && w.trace <= out.world.trace
    ensures out.Done? ==> Listed(env, auth0, |w.trace|, Added(w, out.world), first, out.value, out.auth, PageTotal(first))
    ensures out.Raised? ==>
      var ev := Added(w, out.world);
      && out.error.ListFailed? && 2 <= out.error.page <= PageTotal(first)
      && Pages(ev) == Upto(out.error.page) && FailedAt(env, ev, out.error.page)
      && |Listing(env, ev)| >= 1 && Listing(env, ev)[0] == first
      && Thread(env, auth0, |w.trace|, ev).Some?
      && Tickets(ev) == [] && CacheReads(ev) == []
  {
    var maxPage := TruncDiv(first.totalCount, first.size) + 1;
    var all, auth, world := first, auth1, world1;
    var page := 2;
    while page <= maxPage
      invariant 2 <= page <= (if maxPage < 2 then 2 else maxPage + 1)
      invariant world.cache == w.cache && w.trace <= world.trace
      invariant Listed(env, auth0, |w.trace|, Added(w, world), first, all, auth, page - 1)
    {
      var next := RequestTickets(env, world, auth, page);
      ListedNext(env, w, auth0, first, all, auth, world, page);
      if next.Raised? {
        return next;
      }
      all := all.(page := all.page + 1, records := all.records + next.value.records);
      auth, world := next.auth, next.world;
      page := page + 1;
    }
    return Done(all, auth, world);
  }
}

=== FILE: grouping.dfy ===
/**
  `itertools.groupby` over a key and exact sums over sequences. `groupby`
  cuts a sequence into maximal runs of consecutive elements with equal
  keys. It does not merge equal keys that are far apart, so callers sort first.
*/
module Grouping {
  import opened Orders
  import opened Sorting

  /** One `(key, group)` pair yielded by `groupby`. */
  datatype Run<K, T> = Run(key: K, items: seq<T>)

  /** The keys of the elements of `s`, as a set. */
  ghost function KeySet<T, K>(s: seq<T>, key: T -> K): set<K> {
    set x | x in s :: key(x)
  }

  /** The keys of two elements. */
  lemma KeySetPair<T, K>(a: T, b: T, key: T -> K)
    ensures KeySet([a, b], key) == {key(a), key(b)}
  {
    assert a in [a, b] && b in [a, b];
    forall x | x in [a, b] ensures x == a || x == b {
    }
  }

  /** Sorting keeps the elements, so it keeps the set of keys. */
  lemma SortKeySet<T, K, D(!new)>(xs: seq<T>, key: T -> K, le: (K, K) -> bool, dk: T -> D)
    ensures KeySet(Sort(xs, key, le), dk) == KeySet(xs, dk)
  {
    var sorted := Sort(xs, key, le);
    SortPermutes(xs, key, le);
    forall d ensures d in KeySet(sorted, dk) <==> d in KeySet(xs, dk) {
      if d in KeySet(sorted, dk) {
        var x :| x in sorted && dk(x) == d;
        assert x in multiset(sorted);
        assert x in xs;
      }
      if d in KeySet(xs, dk) {
        var x :| x in xs && dk(x) == d;
        assert x in multiset(xs);
        assert x in sorted;
      }
    }
    assert KeySet(sorted, dk) == KeySet(xs, dk);
  }

  /** A sequence with distinct keys has as many elements as keys. */
  lemma {:induction false} DistinctKeysCount<T, K>(s: seq<T>, key: T -> K)
    requires DistinctKeys(s, key)
    ensures |KeySet(s, key)| == |s|
  {
    if |s| > 0 {
      DistinctKeysCount(s[1..], key);
      assert KeySet(s, key) == {key(s[0])} + KeySet(s[1..], key) by {
        assert s == [s[0]] + s[1..];
      }
      assert key(s[0]) !in KeySet(s[1..], key) by {
        forall x | x in s[1..] ensures key(x) != key(s[0]) {
          var j :| 0 <= j < |s[1..]| && s[1..][j] == x;
          assert s[j + 1] == x;
        }
      }
    }
  }

  /** The elements in the order the runs yield them. */
  function Flatten<K, T>(runs: seq<Run<K, T>>): seq<T> {
    if |runs| == 0 then [] else runs[0].items + Flatten(runs[1..])
  }

  /** The length of the longest prefix of `xs` whose elements all have key `k`. */
  function RunLength<T, K(==)>(xs: seq<T>, key: T -> K, k: K): (m: nat)
    ensures m <= |xs|
    ensures forall i :: 0 <= i < m ==> key(xs[i]) == k
    ensures m < |xs| ==> key(xs[m]) != k
  {
    if |xs| == 0 || key(xs[0]) != k then 0 else 1 + RunLength(xs[1..], key, k)
  }

  /** `groupby(xs, key)`: maximal runs of consecutive elements with equal keys. */
  function GroupRuns<T, K(==)>(xs: seq<T>, key: T -> K): (r: seq<Run<K, T>>)
    ensures |xs| == 0 <==> |r| == 0
    decreases |xs|
  {
    if |xs| == 0 then []
    else
      var m := RunLength(xs, key, key(xs[0]));
      [Run(key(xs[0]), xs[..m])] + GroupRuns(xs[m..], key)
  }

  /** One step of `groupby`: the first run, then the runs of the rest. */
  lemma GroupRunsUnfold<T, K>(xs: seq<T>, key: T -> K)
    requires |xs| > 0
    ensures var m := RunLength(xs, key, key(xs[0]));
      && 0 < m <= |xs|
      && GroupRuns(xs, key) == [Run(key(xs[0]), xs[..m])] + GroupRuns(xs[m..], key)
  {
  }

  lemma FlattenCons<K, T>(run: Run<K, T>, rest: seq<Run<K, T>>)
    ensures Flatten([run] + rest) == run.items + Flatten(rest)
  {
    assert ([run] + rest)[1..] == rest;
  }

  /**
    The runs `groupby` yields are nonempty, every element of a run has the
    run's key, neighbouring runs have different keys, and the first run has
    the first element's key.
  */
  lemma {:induction false} GroupRunsShape<T, K>(xs: seq<T>, key: T -> K)
    ensures var r := GroupRuns(xs, key);
      && (|xs| > 0 ==> r[0].key == key(xs[0]))
      && (forall i :: 0 <= i < |r| ==> |r[i].items| > 0)
      && (forall i, j :: 0 <= i < |r| && 0 <= j < |r[i].items| ==> key(r[i].items[j]) == r[i].key)
      && (forall i :: 0 <= i < |r| - 1 ==> r[i].key != r[i + 1].key)
    decreases |xs|
  {
    if |xs| > 0 {
      var k0 := key(xs[0]);
      var m := RunLength(xs, key, k0);
      GroupRunsUnfold(xs, key);
      GroupRunsShape(xs[m..], key);
      var tail := GroupRuns(xs[m..], key);
      var r := [Run(k0, xs[..m])] + tail;
      forall i | 0 <= i < |r| ensures |r[i].items| > 0 {
        if i > 0 {
          assert r[i] == tail[i - 1];
        }
      }
      forall i, j | 0 <= i < |r| && 0 <= j < |r[i].items| ensures key(r[i].items[j]) == r[i].key {
        if i > 0 {
          assert r[i] == tail[i - 1];
        } else {
          assert r[0].items[j] == xs[j];
        }
      }
      forall i | 0 <= i < |r| - 1 ensures r[i].key != r[i + 1].key {
        if i > 0 {
          assert r[i] == tail[i - 1] && r[i + 1] == tail[i];
        } else {
          assert r[1] == tail[0];
          assert tail[0].key == key(xs[m..][0]);
        }
      }
    }
  }

  /** `groupby` loses and adds nothing: the runs, read in order, are the input. */
  lemma {:induction false} GroupRunsFlatten<T, K>(xs: seq<T>, key: T -> K)
    ensures Flatten(GroupRuns(xs, key)) == xs
    decreases |xs|
  {
    if |xs| > 0 {
      var m := RunLength(xs, key, key(xs[0]));
      GroupRunsUnfold(xs, key);
      GroupRunsFlatten(xs[m..], key);
      FlattenCons(Run(key(xs[0]), xs[..m]), GroupRuns(xs[m..], key));
      assert xs[..m] + xs[m..] == xs;
    }
  }

  /** Every element after the first run of a sorted sequence has a strictly larger key. */
  lemma TailAbove<T, K(!new)>(xs: seq<T>, key: T -> K, le: (K, K) -> bool)
    requires |xs| > 0 && Sorted(xs, key, le) && Antisymmetric(le)
    ensures var m := RunLength(xs, key, key(xs[0]));
      forall q :: m <= q < |xs| ==> le(key(xs[0]), key(xs[q])) && key(xs[q]) != key(xs[0])
  {
    var m := RunLength(xs, key, key(xs[0]));
    forall q | m <= q < |xs| ensures le(key(xs[0]), key(xs[q])) && key(xs[q]) != key(xs[0]) {
      assert le(key(xs[0]), key(xs[m]));
      assert q == m || le(key(xs[m]), key(xs[q]));
    }
  }

  /** Every run of `xs` has a key strictly above `k` when every element of `xs` does. */
  lemma {:induction false} RunsAbove<T, K>(xs: seq<T>, key: T -> K, le: (K, K) -> bool, k: K)
    requires forall q :: 0 <= q < |xs| ==> le(k, key(xs[q])) && key(xs[q]) != k
    ensures forall i :: 0 <= i < |GroupRuns(xs, key)| ==>
      le(k, GroupRuns(xs, key)[i].key) && GroupRuns(xs, key)[i].key != k
    decreases |xs|
  {
    if |xs| > 0 {
      var m := RunLength(xs, key, key(xs[0]));
      RunsAbove(xs[m..], key, le, k);
      assert GroupRuns(xs, key)[1..] == GroupRuns(xs[m..], key);
    }
  }

  lemma SortedSuffix<T, K>(xs: seq<T>, key: T -> K, le: (K, K) -> bool, m: nat)
    requires m <= |xs| && Sorted(xs, key, le)
    ensures Sorted(xs[m..], key, le)
  {
    forall i, j | 0 <= i < j < |xs[m..]| ensures le(key(xs[m..][i]), key(xs[m..][j])) {
      assert xs[m..][i] == xs[m + i] && xs[m..][j] == xs[m + j];
    }
  }

  /**
    On sorted input the runs come in strictly ascending key order, so no key
    appears in two runs.
  */
  lemma {:induction false} GroupRunsIncreasing<T, K(!new)>(xs: seq<T>, key: T -> K, le: (K, K) -> bool)
    requires Sorted(xs, key, le) && Antisymmetric(le)
    ensures forall i, j :: 0 <= i < j < |GroupRuns(xs, key)| ==>
      le(GroupRuns(xs, key)[i].key, GroupRuns(xs, key)[j].key) && GroupRuns(xs, key)[i].key != GroupRuns(xs, key)[j].key
    decreases |xs|
  {
    if |xs| > 0 {
      var m := RunLength(xs, key, key(xs[0]));
      var r := GroupRuns(xs, key);
      var tail := GroupRuns(xs[m..], key);
      SortedSuffix(xs, key, le, m);
      GroupRunsIncreasing(xs[m..], key, le);
      TailAbove(xs, key, le);
      forall q | 0 <= q < |xs[m..]| ensures le(key(xs[0]), key(xs[m..][q])) && key(xs[m..][q]) != key(xs[0]) {
        assert xs[m..][q] == xs[m + q];
      }
      RunsAbove(xs[m..], key, le, key(xs[0]));
      assert r[1..] == tail;
      forall i, j | 0 <= i < j < |r| ensures le(r[i].key, r[j].key) && r[i].key != r[j].key {
        if i > 0 {
          assert r[i] == tail[i - 1] && r[j] == tail[j - 1];
          assert le(tail[i - 1].key, tail[j - 1].key) && tail[i - 1].key != tail[j - 1].key;
        } else {
          assert r[0].key == key(xs[0]);
          assert r[j] == tail[j - 1];
          assert le(key(xs[0]), tail[j - 1].key) && tail[j - 1].key != key(xs[0]);
        }
      }
    }
  }

  lemma {:induction false} KeyFilterAll<T, K>(s: seq<T>, key: T -> K, k: K)
    requires forall i :: 0 <= i < |s| ==> key(s[i]) == k
    ensures KeyFilter(s, key, k) == s
  {
    if |s| > 0 {
      KeyFilterAll(s[1..], key, k);
      assert s == [s[0]] + s[1..];
    }
  }

  /**
    On sorted input each run holds exactly the elements with its key, in
    input order: grouping after sorting collects every element of a key into
    one group.
  */
  lemma {:induction false} GroupRunsCollect<T, K(!new)>(xs: seq<T>, key: T -> K, le: (K, K) -> bool)
    requires Sorted(xs, key, le) && Antisymmetric(le)
    ensures forall i :: 0 <= i < |GroupRuns(xs, key)| ==>
      GroupRuns(xs, key)[i].items == KeyFilter(xs, key, GroupRuns(xs, key)[i].key)
    decreases |xs|
  {
    if |xs| > 0 {
      var k0 := key(xs[0]);
      var m := RunLength(xs, key, k0);
      var r := GroupRuns(xs, key);
      var tail := GroupRuns(xs[m..], key);
      GroupRunsUnfold(xs, key);
      SortedSuffix(xs, key, le, m);
      GroupRunsCollect(xs[m..], key, le);
      TailAbove(xs, key, le);
      forall q | 0 <= q < |xs[m..]| ensures le(k0, key(xs[m..][q])) && key(xs[m..][q]) != k0 {
        assert xs[m..][q] == xs[m + q];
      }
      RunsAbove(xs[m..], key, le, k0);
      forall i | 0 <= i < |r| ensures r[i].items == KeyFilter(xs, key, r[i].key) {
        if i == 0 {
          assert r[0] == Run(k0, xs[..m]);
          CollectPrefix(xs, key, k0, m);
        } else {
          assert r[i] == tail[i - 1];
          CollectTail(xs, key, r[i].key);
        }
      }
    }
  }

  /** A run of key `k` followed by no element of key `k` filters to the run. */
  lemma FilterRun<T, K>(run: seq<T>, rest: seq<T>, key: T -> K, k: K)
    requires forall i :: 0 <= i < |run| ==> key(run[i]) == k
    requires forall i :: 0 <= i < |rest| ==> key(rest[i]) != k
    ensures KeyFilter(run + rest, key, k) == run
  {
    KeyFilterAll(run, key, k);
    KeyFilterNone(rest, key, k);
    KeyFilterConcat(run, rest, key, k);
    assert run + [] == run;
  }

  /** A prefix of key `k` with no later element of key `k` is what filtering on `k` keeps. */
  lemma CollectPrefix<T, K>(xs: seq<T>, key: T -> K, k: K, m: nat)
    requires m <= |xs|
    requires forall i :: 0 <= i < m ==> key(xs[i]) == k
    requires forall q :: m <= q < |xs| ==> key(xs[q]) != k
    ensures KeyFilter(xs, key, k) == xs[..m]
  {
    var run, rest := xs[..m], xs[m..];
    forall i | 0 <= i < |rest| ensures key(rest[i]) != k {
      assert rest[i] == xs[m + i];
    }
    FilterRun(run, rest, key, k);
    assert run + rest == xs;
  }

  /** Any other key skips the first run. */
  lemma CollectTail<T, K>(xs: seq<T>, key: T -> K, k: K)
    requires |xs| > 0 && k != key(xs[0])
    ensures KeyFilter(xs, key, k) == KeyFilter(xs[RunLength(xs, key, key(xs[0]))..], key, k)
  {
    var m := RunLength(xs, key, key(xs[0]));
    assert xs == xs[..m] + xs[m..];
    KeyFilterConcat(xs[..m], xs[m..], key, k);
    KeyFilterNone(xs[..m], key, k);
    assert [] + KeyFilter(xs[m..], key, k) == KeyFilter(xs[m..], key, k);
  }

  /** The runs' keys are exactly the keys of the input. */
  lemma {:induction false} GroupRunsKeys<T, K>(xs: seq<T>, key: T -> K)
    ensures (set i | 0 <= i < |GroupRuns(xs, key)| :: GroupRuns(xs, key)[i].key) == KeySet(xs, key)
    decreases |xs|
  {
    var r := GroupRuns(xs, key);
    if |xs| > 0 {
      var m := RunLength(xs, key, key(xs[0]));
      var tail := GroupRuns(xs[m..], key);
      GroupRunsKeys(xs[m..], key);
      assert r[1..] == tail;
      assert xs == xs[..m] + xs[m..];
      forall k | k in KeySet(xs, key) ensures k in (set i | 0 <= i < |r| :: r[i].key) {
        var x :| x in xs && key(x) == k;
        if x !in xs[m..] {
          assert key(x) == key(xs[0]);
          assert r[0].key == k;
        } else {
          assert k in KeySet(xs[m..], key);
          var i :| 0 <= i < |tail| && tail[i].key == k;
          assert r[i + 1].key == k;
        }
      }
      forall i | 0 <= i < |r| ensures r[i].key in KeySet(xs, key) {
        if i == 0 {
          assert xs[0] in xs;
        } else {
          assert r[i] == tail[i - 1];
          assert tail[i - 1].key in KeySet(xs[m..], key);
        }
      }
    }
  }

  /** The sum over two elements. */
  lemma SumByPair<T>(a: T, b: T, w: T -> real)
    ensures SumBy([a, b], w) == w(a) + w(b)
  {
    assert [a, b][..1] == [a] && [a][..0] == [];
    assert SumBy([a], w) == SumBy([], w) + w(a);
    assert SumBy([a, b], w) == SumBy([a], w) + w(b);
  }

  /** The exact sum of `w` over `s`, added up from the left as a Python loop does. */
  function SumBy<T>(s: seq<T>, w: T -> real): real {
    if |s| == 0 then 0.0 else SumBy(s[..|s| - 1], w) + w(s[|s| - 1])
  }

  lemma {:induction false} SumByConcat<T>(a: seq<T>, b: seq<T>, w: T -> real)
    ensures SumBy(a + b, w) == SumBy(a, w) + SumBy(b, w)
    decreases |b|
  {
    if |b| == 0 {
      assert a + b == a;
    } else {
      SumByConcat(a, b[..|b| - 1], w);
      assert (a + b)[..|a + b| - 1] == a + b[..|b| - 1];
    }
  }

  /** Sorting does not change a sum. */
  lemma {:induction false} SortSum<T, K>(xs: seq<T>, key: T -> K, le: (K, K) -> bool, w: T -> real)
    ensures SumBy(Sort(xs, key, le), w) == SumBy(xs, w)
  {
    if |xs| > 0 {
      var rest := Sort(xs[1..], key, le);
      var p := InsertPos(xs[0], rest, key, le);
      SortSum(xs[1..], key, le, w);
      SumByConcat(rest[..p] + [xs[0]], rest[p..], w);
      SumByConcat(rest[..p], [xs[0]], w);
      SumByConcat(rest[..p], rest[p..], w);
      SumByConcat([xs[0]], xs[1..], w);
      assert rest[..p] + rest[p..] == rest;
      assert [xs[0]] + xs[1..] == xs;
      assert SumBy([xs[0]], w) == w(xs[0]);
    }
  }
}

=== FILE: model.dfy ===
/**
  The records the receipt service returns, and their normalisation into
  `BoughtItem`s with exact money amounts (model.py).

  A listing page (`Receipts`) carries receipt summaries; a receipt detail
  (`Receipt`) carries line items, each with an optional bottle deposit. Money
  travels as comma-decimal strings; `FromReceipt` turns one line item into a
  `BoughtItem` whose amounts are exact decimals.
*/
module Model {
  import opened Wrappers
  import opened Decimal

  /** One entry of a listing page: `Receipts.ReceiptSummary`. */
  datatype ReceiptSummary = ReceiptSummary(
    id: string,
    date: string,
    totalAmount: string,
    storeCode: string,
    articlesCount: int,
    couponsUsedCount: int,
    hasReturnedItems: bool,
    returnsCount: int,
    returnedAmount: int,
    invoiceRequestId: Option<string>,
    invoiceId: Option<string>,
    vendor: Option<string>,
    hasHtmlDocument: bool,
    isHtml: bool)

  /** One page of the receipt listing: `Receipts`. */
  datatype Receipts = Receipts(page: int, size: int, totalCount: int, records: seq<ReceiptSummary>)

  /** The bottle deposit attached to a line item: `Receipt.ReceiptItem.Deposit`. */
  datatype ItemDeposit = ItemDeposit(
    quantity: int,
    taxGroup: string,
    taxGroupName: string,
    amount: string,
    description: string,
    unitPrice: string)

  /** A discount line of an item: `Receipt.ReceiptItem.Discount`. */
  datatype ItemDiscount = ItemDiscount(description: string, amount: string)

  /** One line of a receipt: `Receipt.ReceiptItem`. */
  datatype ReceiptItem = ReceiptItem(
    currentUnitPrice: string,
    quantity: string,
    isWeight: bool,
    originalAmount: string,
    extendedAmount: string,
    description: string,
    taxGroup: string,
    taxGroupName: string,
    codeInput: string,
    discounts: seq<ItemDiscount>,
    deposit: Option<ItemDeposit>,
    giftSerialNumber: Option<string>)

  /** A receipt detail: `Receipt`. */
  datatype Receipt = Receipt(itemsLine: seq<ReceiptItem>, date: string, totalAmount: string, storeCode: string)

  /** `BoughtItem.Deposit`: a deposit with exact amounts. */
  datatype BoughtDeposit = BoughtDeposit(quantity: int, unitPrice: real, amount: real, description: string)

  /**
    `BoughtItem`: a line item with exact amounts. `boughtTime` keeps the
    receipt's date string; the date parser is not part of this model.
  */
  datatype BoughtItem = BoughtItem(
    unitPrice: real,
    quantity: real,
    isWeight: bool,
    discount: real,
    total: real,
    description: string,
    deposit: Option<BoughtDeposit>,
    store: string,
    boughtTime: string)

  /**
    The `decimal.InvalidOperation` Python raises on a string that is not a
    decimal. CPython's exception does not carry the text; `text` is kept here
    only to say which conversion raised.
  */
  datatype ParseError = InvalidDecimal(text: string)

  predicate IsAmount(s: string) {
    ParseCommaDecimal(s).Some?
  }

  function AmountOf(s: string): real
    requires IsAmount(s)
  {
    ParseCommaDecimal(s).value
  }

  /** Every way of writing `s` as an amount with a decimal comma gives its exact value. */
  lemma CommaAmountsExact(s: string)
    ensures forall m: int, k: nat {:trigger Format(m, k, ',')} ::
      s == Format(m, k, ',') ==> ParseCommaDecimal(s) == Some(m as real / Pow10(k) as real)
  {
    forall m: int, k: nat | s == Format(m, k, ',')
      ensures ParseCommaDecimal(s) == Some(m as real / Pow10(k) as real)
    {
      FormatRoundTrip(m, k);
    }
  }

  /**
    `eu_to_us_fp`, with the exception it may raise made explicit. An amount
    written with `k` fractional digits after a decimal comma, as the service
    writes them, converts to exactly `m / 10^k`: "1,99" is 1.99, not the
    nearest binary fraction.
  */
  function EuToUs(s: string): (r: Result<real, ParseError>)
    ensures forall m: int, k: nat {:trigger Format(m, k, ',')} ::
      s == Format(m, k, ',') ==> r == Success(m as real / Pow10(k) as real)
    ensures forall sign, whole, point, frac {:trigger WrittenAs(s, sign, whole, point, frac)} ::
      WrittenAs(s, sign, whole, point, frac) ==> r == Success(WrittenValue(sign, whole, frac))
    ensures r.Success? <==> exists sign, whole, point, frac :: WrittenAs(s, sign, whole, point, frac)
    ensures r.Success? <==> IsAmount(s)
    ensures r.Success? ==> Some(r.value) == ParseDecimal(CommaToDot(s))
    ensures r.Failure? ==> r.error == InvalidDecimal(s)
  {
    CommaAmountsExact(s);
    WrittenAmounts(s);
    match ParseCommaDecimal(s)
    case Some(v) => Success(v)
    case None => Failure(InvalidDecimal(s))
  }

  /** The strings `from_deposit` converts, in the order it converts them. */
  function DepositAmounts(d: ItemDeposit): seq<string> {
    [d.unitPrice, d.amount]
  }

  /**
    The strings `from_receipt` converts, in the order it converts them:
    extended amount, original amount, the deposit's amounts, unit price, quantity.
  */
  function ItemAmounts(unitPrice: string, quantity: string, extendedAmount: string, originalAmount: string,
                       deposit: Option<ItemDeposit>): seq<string>
  {
    [extendedAmount, originalAmount]
    + (if deposit.Some? then DepositAmounts(deposit.value) else [])
    + [unitPrice, quantity]
  }

  predicate AllAmounts(ss: seq<string>) {
    forall i :: 0 <= i < |ss| ==> IsAmount(ss[i])
  }

  /** `j` is the first string of `ss` that is not a decimal: the one whose conversion raises. */
  predicate FirstInvalid(ss: seq<string>, j: int) {
    0 <= j < |ss| && !IsAmount(ss[j]) && AllAmounts(ss[..j])
  }

  /**
    `eu_to_us_fp` on each string in turn, as consecutive Python statements run
    it: the first string that is not a decimal raises and ends the sequence.
  */
  function ConvertAll(ss: seq<string>): (r: Result<seq<real>, ParseError>)
    ensures r.Success? <==> AllAmounts(ss)
    ensures r.Success? ==> |r.value| == |ss| && forall i :: 0 <= i < |ss| ==> r.value[i] == AmountOf(ss[i])
    ensures r.Failure? ==> exists j :: FirstInvalid(ss, j) && r.error == InvalidDecimal(ss[j])
  {
    var r := MapAll(ss, EuToUs);
    assert r.Failure? ==> FirstInvalid(ss, FirstFailure(ss, EuToUs));
    r
  }

  /** Where each amount sits in `ItemAmounts`, for any test `ok` of a text. */
  lemma ItemAmountsAll(unitPrice: string, quantity: string, extendedAmount: string, originalAmount: string,
                       deposit: Option<ItemDeposit>, ok: string -> bool)
    ensures var ss := ItemAmounts(unitPrice, quantity, extendedAmount, originalAmount, deposit);
      var n := |ss|;
      && n == (if deposit.Some? then 6 else 4)
      && ss[0] == extendedAmount && ss[1] == originalAmount
      && ss[n - 2] == unitPrice && ss[n - 1] == quantity
      && (deposit.Some? ==> ss[2] == deposit.value.unitPrice && ss[3] == deposit.value.amount)
      && ((forall i :: 0 <= i < n ==> ok(ss[i])) <==>
            && ok(extendedAmount) && ok(originalAmount)
            && (deposit.Some? ==> ok(deposit.value.unitPrice) && ok(deposit.value.amount))
            && ok(unitPrice) && ok(quantity))
  {
    var ss := ItemAmounts(unitPrice, quantity, extendedAmount, originalAmount, deposit);
    if deposit.Some? {
      assert ss == [extendedAmount, originalAmount, deposit.value.unitPrice, deposit.value.amount, unitPrice, quantity];
    } else {
      assert ss == [extendedAmount, originalAmount, unitPrice, quantity];
    }
  }

  /** Where each field of a line item sits among the strings `from_receipt` converts. */
  lemma ItemAmountsLayout(unitPrice: string, quantity: string, extendedAmount: string, originalAmount: string,
                          deposit: Option<ItemDeposit>)
    ensures var ss := ItemAmounts(unitPrice, quantity, extendedAmount, originalAmount, deposit);
      var n := |ss|;
      && n == (if deposit.Some? then 6 else 4)
      && ss[0] == extendedAmount && ss[1] == originalAmount
      && ss[n - 2] == unitPrice && ss[n - 1] == quantity
      && (deposit.Some? ==> ss[2] == deposit.value.unitPrice && ss[3] == deposit.value.amount)
      && (AllAmounts(ss) <==>
            && IsAmount(extendedAmount) && IsAmount(originalAmount)
            && (deposit.Some? ==> IsAmount(deposit.value.unitPrice) && IsAmount(deposit.value.amount))
            && IsAmount(unitPrice) && IsAmount(quantity))
  {
    ItemAmountsAll(unitPrice, quantity, extendedAmount, originalAmount, deposit, IsAmount);
  }

  /** `BoughtItem.Deposit.from_deposit`: unit price, then amount. */
  function FromDeposit(d: ItemDeposit): (r: Result<BoughtDeposit, ParseError>)
    ensures r.Success? <==> IsAmount(d.unitPrice) && IsAmount(d.amount)
    ensures r.Success? ==>
      && r.value.quantity == d.quantity
      && r.value.unitPrice == AmountOf(d.unitPrice)
      && r.value.amount == AmountOf(d.amount)
      && r.value.description == d.description
    ensures r.Failure? ==> exists j :: FirstInvalid(DepositAmounts(d), j) && r.error == InvalidDecimal(DepositAmounts(d)[j])
  {
    var vs :- ConvertAll(DepositAmounts(d));
    Success(BoughtDeposit(d.quantity, vs[0], vs[1], d.description))
  }

  /** `BoughtItem.from_receipt`: one line item with its receipt's store code and date. */
  function FromReceipt(unitPrice: string, quantity: string, isWeight: bool, extendedAmount: string,
                       originalAmount: string, description: string, deposit: Option<ItemDeposit>,
                       storeCode: string, date: string): (r: Result<BoughtItem, ParseError>)
    ensures r.Success? <==>
      && IsAmount(extendedAmount) && IsAmount(originalAmount)
      && (deposit.Some? ==> IsAmount(deposit.value.unitPrice) && IsAmount(deposit.value.amount))
      && IsAmount(unitPrice) && IsAmount(quantity)
    ensures r.Success? ==>
      && r.value.total == AmountOf(extendedAmount)
      && r.value.discount == AmountOf(originalAmount) - AmountOf(extendedAmount)
      && r.value.discount + r.value.total == AmountOf(originalAmount)
      && (r.value.discount >= 0.0 <==> AmountOf(originalAmount) >= AmountOf(extendedAmount))
      && r.value.unitPrice == AmountOf(unitPrice)
      && r.value.quantity == AmountOf(quantity)
      && r.value.isWeight == isWeight
      && r.value.description == description
      && r.value.store == storeCode
      && r.value.boughtTime == date
      && (r.value.deposit.None? <==> deposit.None?)
      && (deposit.Some? ==> FromDeposit(deposit.value) == Success(r.value.deposit.value))
    ensures r.Failure? ==>
      var amounts := ItemAmounts(unitPrice, quantity, extendedAmount, originalAmount, deposit);
      exists j :: FirstInvalid(amounts, j) && r.error == InvalidDecimal(amounts[j])
  {
    ItemAmountsLayout(unitPrice, quantity, extendedAmount, originalAmount, deposit);
    var vs :- ConvertAll(ItemAmounts(unitPrice, quantity, extendedAmount, originalAmount, deposit));
    var n := |vs|;
    var extended, original := vs[0], vs[1];
    var boughtDeposit := if deposit.None? then None else
      var d := deposit.value;
      Some(BoughtDeposit(d.quantity, vs[2], vs[3], d.description));
    Success(BoughtItem(vs[n - 2], vs[n - 1], isWeight, original - extended, extended, description,
                       boughtDeposit, storeCode, date))
  }

  /** `from_receipt` applied to a line item of `receipt`, as `serialize` calls it. */
  function FromItem(receipt: Receipt, item: ReceiptItem): Result<BoughtItem, ParseError> {
    FromReceipt(item.currentUnitPrice, item.quantity, item.isWeight, item.extendedAmount,
                item.originalAmount, item.description, item.deposit, receipt.storeCode, receipt.date)
  }

  /** A quantity of "1" converts to exactly one. */
  lemma UnitQuantity()
    ensures IsAmount("1") && AmountOf("1") == 1.0
  {
    assert CommaToDot("1") == "1";
    ParseWhole("1");
  }

  /**
    "5,00" originally, "4,50" paid: the item's total is exactly 4.50 and its
    discount exactly 0.50.
  */
  lemma DiscountExample()
    ensures var r := FromReceipt("4,50", "1", false, "4,50", "5,00", "Milk", None, "S1", "2024-01-01");
      r.Success? && r.value.total == 4.50 && r.value.discount == 0.50
  {
    SeparatorExample();
    TrailingZeroExamples();
    UnitQuantity();
    assert IsAmount("4,50") && IsAmount("5,00") && IsAmount("1");
    assert AmountOf("5,00") - AmountOf("4,50") == 0.50;
  }
}

=== FILE: orders.dfy ===
/**
  Orders used to sort: the properties a comparison needs for sorting to be
  meaningful, and the two comparisons the analyzer sorts by. One is Python's
  `<=` on `str`, which compares code point by code point. The other is `<=` on
  exact decimals.
*/
module Orders {

  ghost predicate Reflexive<K(!new)>(le: (K, K) -> bool) {
    forall a :: le(a, a)
  }

  ghost predicate Total<K(!new)>(le: (K, K) -> bool) {
    forall a, b :: le(a, b) || le(b, a)
  }

  ghost predicate Transitive<K(!new)>(le: (K, K) -> bool) {
    forall a, b, c :: le(a, b) && le(b, c) ==> le(a, c)
  }

  ghost predicate Antisymmetric<K(!new)>(le: (K, K) -> bool) {
    forall a, b :: le(a, b) && le(b, a) ==> a == b
  }

  /** A total order: what a sort key must be compared with. */
  ghost predicate TotalOrder<K(!new)>(le: (K, K) -> bool) {
    Reflexive(le) && Total(le) && Transitive(le) && Antisymmetric(le)
  }

  /** Python's `a <= b` on strings: lexicographic by code point, a prefix first. */
  predicate LexLe(a: string, b: string)
    decreases |a|
  {
    |a| == 0 || (|b| > 0 && (a[0] < b[0] || (a[0] == b[0] && LexLe(a[1..], b[1..]))))
  }

  /** Python's `a < b` on strings. */
  predicate LexLt(a: string, b: string) {
    LexLe(a, b) && a != b
  }

  /** `<=` on exact decimals. */
  predicate RealLe(a: real, b: real) {
    a <= b
  }

  lemma {:induction false} LexLeReflexive(a: string)
    ensures LexLe(a, a)
    decreases |a|
  {
    if |a| > 0 {
      LexLeReflexive(a[1..]);
    }
  }

  lemma {:induction false} LexLeTotal(a: string, b: string)
    ensures LexLe(a, b) || LexLe(b, a)
    decreases |a|
  {
    if |a| > 0 && |b| > 0 && a[0] == b[0] {
      LexLeTotal(a[1..], b[1..]);
    }
  }

  lemma {:induction false} LexLeTransitive(a: string, b: string, c: string)
    requires LexLe(a, b) && LexLe(b, c)
    ensures LexLe(a, c)
    decreases |a|
  {
    if |a| > 0 && a[0] == b[0] && b[0] == c[0] {
      LexLeTransitive(a[1..], b[1..], c[1..]);
    }
  }

  lemma {:induction false} LexLeAntisymmetric(a: string, b: string)
    requires LexLe(a, b) && LexLe(b, a)
    ensures a == b
    decreases |a|
  {
    if |a| > 0 {
      LexLeAntisymmetric(a[1..], b[1..]);
      assert a == [a[0]] + a[1..];
      assert b == [b[0]] + b[1..];
    }
  }

  /** String comparison is a total order, so sorting by description is well defined. */
  lemma LexLeTotalOrder()
    ensures TotalOrder(LexLe)
  {
    forall a ensures LexLe(a, a) {
      LexLeReflexive(a);
    }
    forall a, b ensures LexLe(a, b) || LexLe(b, a) {
      LexLeTotal(a, b);
    }
    forall a, b, c | LexLe(a, b) && LexLe(b, c) ensures LexLe(a, c) {
      LexLeTransitive(a, b, c);
    }
    forall a, b | LexLe(a, b) && LexLe(b, a) ensures a == b {
      LexLeAntisymmetric(a, b);
    }
  }

  lemma RealLeTotalOrder()
    ensures TotalOrder(RealLe)
  {
  }

  /** Exact string comparison: "Milk" sorts before "milk", and they are different keys. */
  lemma CaseMatters()
    ensures LexLt("Milk", "milk")
  {
  }
}

=== FILE: sorting.dfy ===
/**
  Python's `list.sort(key=...)`: a stable sort by a key. Python uses Timsort;
  every stable sort yields the same list, so the model sorts by insertion.
  Each element goes in front of the first element whose key is not smaller.
*/
module Sorting {
  import opened Orders

  /** `s` is in ascending key order. */
  ghost predicate Sorted<T, K>(s: seq<T>, key: T -> K, le: (K, K) -> bool) {
    forall i, j :: 0 <= i < j < |s| ==> le(key(s[i]), key(s[j]))
  }

  /** The elements of `s` whose key is `k`, in their order in `s`. */
  function KeyFilter<T, K(==)>(s: seq<T>, key: T -> K, k: K): (r: seq<T>)
    ensures |r| <= |s|
    ensures forall i :: 0 <= i < |r| ==> key(r[i]) == k
  {
    if |s| == 0 then []
    else if key(s[0]) == k then [s[0]] + KeyFilter(s[1..], key, k)
    else KeyFilter(s[1..], key, k)
  }

  /** Where `x` goes in `ys`: before the first element whose key is not smaller than its own. */
  function InsertPos<T, K>(x: T, ys: seq<T>, key: T -> K, le: (K, K) -> bool): (p: nat)
    ensures p <= |ys|
    ensures forall i :: 0 <= i < p ==> !le(key(x), key(ys[i]))
    ensures p < |ys| ==> le(key(x), key(ys[p]))
  {
    if |ys| == 0 || le(key(x), key(ys[0])) then 0 else 1 + InsertPos(x, ys[1..], key, le)
  }

  function Insert<T, K>(x: T, ys: seq<T>, key: T -> K, le: (K, K) -> bool): (r: seq<T>)
    ensures |r| == |ys| + 1
  {
    var p := InsertPos(x, ys, key, le);
    ys[..p] + [x] + ys[p..]
  }

  /** The stable sort of `xs` by `key`. */
  function Sort<T, K>(xs: seq<T>, key: T -> K, le: (K, K) -> bool): (r: seq<T>)
    ensures |r| == |xs|
  {
    if |xs| == 0 then [] else Insert(xs[0], Sort(xs[1..], key, le), key, le)
  }

  lemma InsertPermutes<T, K>(x: T, ys: seq<T>, key: T -> K, le: (K, K) -> bool)
    ensures multiset(Insert(x, ys, key, le)) == multiset{x} + multiset(ys)
  {
    var p := InsertPos(x, ys, key, le);
    assert ys == ys[..p] + ys[p..];
  }

  /** Sorting only rearranges: the result holds the same elements, as often. */
  lemma {:induction false} SortPermutes<T, K>(xs: seq<T>, key: T -> K, le: (K, K) -> bool)
    ensures multiset(Sort(xs, key, le)) == multiset(xs)
  {
    if |xs| > 0 {
      SortPermutes(xs[1..], key, le);
      InsertPermutes(xs[0], Sort(xs[1..], key, le), key, le);
      assert xs == [xs[0]] + xs[1..];
    }
  }

  lemma InsertSorted<T, K(!new)>(x: T, ys: seq<T>, key: T -> K, le: (K, K) -> bool)
    requires Total(le) && Transitive(le)
    requires Sorted(ys, key, le)
    ensures Sorted(Insert(x, ys, key, le), key, le)
  {
    var p := InsertPos(x, ys, key, le);
    var r := Insert(x, ys, key, le);
    forall i, j | 0 <= i < j < |r| ensures le(key(r[i]), key(r[j])) {
      if i < p && j == p {
        assert !le(key(x), key(ys[i]));
      } else if i < p && j > p {
        assert le(key(ys[i]), key(ys[j - 1]));
      } else if i == p {
        assert le(key(x), key(ys[p]));
        assert p == j - 1 || le(key(ys[p]), key(ys[j - 1]));
      } else if i > p {
        assert r[i] == ys[i - 1] && r[j] == ys[j - 1];
      } else {
        assert r[i] == ys[i] && r[j] == ys[j];
      }
    }
  }

  /** The result of sorting is in ascending key order. */
  lemma {:induction false} SortSorted<T, K(!new)>(xs: seq<T>, key: T -> K, le: (K, K) -> bool)
    requires Total(le) && Transitive(le)
    ensures Sorted(Sort(xs, key, le), key, le)
  {
    if |xs| > 0 {
      SortSorted(xs[1..], key, le);
      InsertSorted(xs[0], Sort(xs[1..], key, le), key, le);
    }
  }

  lemma {:induction false} KeyFilterConcat<T, K>(a: seq<T>, b: seq<T>, key: T -> K, k: K)
    ensures KeyFilter(a + b, key, k) == KeyFilter(a, key, k) + KeyFilter(b, key, k)
  {
    if |a| == 0 {
      assert a + b == b;
    } else {
      KeyFilterConcat(a[1..], b, key, k);
      assert (a + b)[0] == a[0] && (a + b)[1..] == a[1..] + b;
      var fa, fb := KeyFilter(a[1..], key, k), KeyFilter(b, key, k);
      if key(a[0]) == k {
        assert [a[0]] + (fa + fb) == ([a[0]] + fa) + fb;
      }
    }
  }

  /** No element before `p` has key `k`, when `x` has key `k` and goes at `p`. */
  lemma InsertPrefixFilter<T, K(!new)>(x: T, ys: seq<T>, key: T -> K, le: (K, K) -> bool, k: K)
    requires Reflexive(le) && key(x) == k
    ensures KeyFilter(ys[..InsertPos(x, ys, key, le)], key, k) == []
  {
    var p := InsertPos(x, ys, key, le);
    forall i | 0 <= i < p ensures key(ys[..p][i]) != k {
      assert le(k, k);
    }
    KeyFilterNone(ys[..p], key, k);
  }

  /** The filter for a key no element has is empty. */
  lemma {:induction false} KeyFilterNone<T, K>(s: seq<T>, key: T -> K, k: K)
    requires forall i :: 0 <= i < |s| ==> key(s[i]) != k
    ensures KeyFilter(s, key, k) == []
  {
    if |s| > 0 {
      KeyFilterNone(s[1..], key, k);
    }
  }

  /**
    Putting `x` between `front` and `back` filters like putting it in front
    of both, when `front` holds no element with `x`'s key.
  */
  lemma SplitFilter<T, K>(front: seq<T>, x: T, back: seq<T>, key: T -> K, k: K)
    requires key(x) == k ==> KeyFilter(front, key, k) == []
    ensures KeyFilter(front + [x] + back, key, k) == KeyFilter([x] + (front + back), key, k)
  {
    var a, b := KeyFilter(front, key, k), KeyFilter(back, key, k);
    var fx := KeyFilter([x], key, k);
    KeyFilterConcat(front + [x], back, key, k);
    KeyFilterConcat(front, [x], key, k);
    KeyFilterConcat(front, back, key, k);
    KeyFilterConcat([x], front + back, key, k);
    assert KeyFilter(front + [x] + back, key, k) == (a + fx) + b;
    assert KeyFilter([x] + (front + back), key, k) == fx + (a + b);
    if key(x) == k {
      assert a == [];
      assert a + fx == fx && a + b == b;
    } else {
      assert fx == [] by {
        assert [x][1..] == [];
      }
      assert a + fx == a && fx + (a + b) == a + b;
    }
  }

  /** Inserting `x` adds it in front of every element with the same key. */
  lemma InsertFilter<T, K(!new)>(x: T, ys: seq<T>, key: T -> K, le: (K, K) -> bool, k: K)
    requires Reflexive(le)
    ensures KeyFilter(Insert(x, ys, key, le), key, k) == KeyFilter([x] + ys, key, k)
  {
    var p := InsertPos(x, ys, key, le);
    if key(x) == k {
      InsertPrefixFilter(x, ys, key, le, k);
    }
    SplitFilter(ys[..p], x, ys[p..], key, k);
    assert ys[..p] + ys[p..] == ys;
  }

  /**
    Stability: among elements with equal keys sorting keeps the input order,
    so for every key the sorted list and the input list hold the same
    elements in the same order.
  */
  lemma {:induction false} SortStable<T, K(!new)>(xs: seq<T>, key: T -> K, le: (K, K) -> bool, k: K)
    requires Reflexive(le)
    ensures KeyFilter(Sort(xs, key, le), key, k) == KeyFilter(xs, key, k)
  {
    if |xs| > 0 {
      SortStable(xs[1..], key, le, k);
      InsertFilter(xs[0], Sort(xs[1..], key, le), key, le, k);
      assert ([xs[0]] + Sort(xs[1..], key, le))[1..] == Sort(xs[1..], key, le);
    }
  }

  /** `s` has no two elements with the same key. */
  predicate DistinctKeys<T, K(==)>(s: seq<T>, key: T -> K) {
    forall i, j :: 0 <= i < j < |s| ==> key(s[i]) != key(s[j])
  }

  /** Sorting by any key keeps the elements' `dk`-keys distinct. */
  lemma {:induction false} SortDistinct<T, K, D>(xs: seq<T>, key: T -> K, le: (K, K) -> bool, dk: T -> D)
    requires DistinctKeys(xs, dk)
    ensures DistinctKeys(Sort(xs, key, le), dk)
  {
    if |xs| > 0 {
      var x := xs[0];
      var rest := Sort(xs[1..], key, le);
      SortDistinct(xs[1..], key, le, dk);
      SortPermutes(xs[1..], key, le);
      var p := InsertPos(x, rest, key, le);
      var r := Insert(x, rest, key, le);
      forall i | 0 <= i < |rest| ensures dk(rest[i]) != dk(x) {
        assert rest[i] in multiset(xs[1..]);
        var j :| 0 <= j < |xs[1..]| && xs[1..][j] == rest[i];
        assert xs[j + 1] == rest[i];
      }
      forall i, j | 0 <= i < j < |r| ensures dk(r[i]) != dk(r[j]) {
        if i < p && j > p {
          assert r[i] == rest[i] && r[j] == rest[j - 1];
        } else if i > p {
          assert r[i] == rest[i - 1] && r[j] == rest[j - 1];
        } else if j < p {
          assert r[i] == rest[i] && r[j] == rest[j];
        }
      }
    }
  }

  /** `before(a, b)` holds of every pair of elements of `s` in their order. */
  ghost predicate Chain<T>(s: seq<T>, before: (T, T) -> bool) {
    forall i, j :: 0 <= i < j < |s| ==> before(s[i], s[j])
  }

  /** Elements with equal keys stand in `before` order. */
  ghost predicate TiesOrdered<T, K>(s: seq<T>, key: T -> K, before: (T, T) -> bool) {
    forall i, j :: 0 <= i < j < |s| && key(s[i]) == key(s[j]) ==> before(s[i], s[j])
  }

  /**
    Inserting `x` ahead of elements that all come after it in `before` order
    keeps equal-key elements in `before` order.
  */
  lemma InsertKeepsTies<T, K(!new)>(x: T, rest: seq<T>, key: T -> K, le: (K, K) -> bool, before: (T, T) -> bool)
    requires Reflexive(le)
    requires TiesOrdered(rest, key, before)
    requires forall y :: y in rest ==> before(x, y)
    ensures TiesOrdered(Insert(x, rest, key, le), key, before)
  {
    var p := InsertPos(x, rest, key, le);
    var r := Insert(x, rest, key, le);
    assert r == rest[..p] + [x] + rest[p..];
    forall i | 0 <= i < p ensures key(rest[i]) != key(x) {
      assert le(key(x), key(x));
    }
    forall i, j | 0 <= i < j < |r| && key(r[i]) == key(r[j]) ensures before(r[i], r[j]) {
      if i == p {
        assert r[j] == rest[j - 1];
        assert rest[j - 1] in rest;
      } else if i > p {
        assert r[i] == rest[i - 1] && r[j] == rest[j - 1];
      } else if j < p {
        assert r[i] == rest[i] && r[j] == rest[j];
      } else if j > p {
        assert r[i] == rest[i] && r[j] == rest[j - 1];
      } else {
        assert false;
      }
    }
  }

  /** The head of a `before` chain comes before every element of a permutation of its tail. */
  lemma ChainHead<T>(xs: seq<T>, rest: seq<T>, before: (T, T) -> bool)
    requires |xs| > 0 && Chain(xs, before)
    requires multiset(rest) == multiset(xs[1..])
    ensures forall y :: y in rest ==> before(xs[0], y)
  {
    forall y | y in rest ensures before(xs[0], y) {
      assert y in multiset(xs[1..]);
      var m :| 0 <= m < |xs[1..]| && xs[1..][m] == y;
      assert xs[m + 1] == y;
    }
  }

  /**
    Stability, stated on positions: when the input is in `before` order, the
    sorted list keeps equal-key elements in `before` order.
  */
  lemma {:induction false} SortKeepsTies<T, K(!new)>(xs: seq<T>, key: T -> K, le: (K, K) -> bool, before: (T, T) -> bool)
    requires Reflexive(le)
    requires Chain(xs, before)
    ensures TiesOrdered(Sort(xs, key, le), key, before)
  {
    if |xs| > 0 {
      var rest := Sort(xs[1..], key, le);
      assert Chain(xs[1..], before) by {
        forall i, j | 0 <= i < j < |xs[1..]| ensures before(xs[1..][i], xs[1..][j]) {
          assert xs[1..][i] == xs[i + 1] && xs[1..][j] == xs[j + 1];
        }
      }
      SortKeepsTies(xs[1..], key, le, before);
      SortPermutes(xs[1..], key, le);
      ChainHead(xs, rest, before);
      InsertKeepsTies(xs[0], rest, key, le, before);
    }
  }
}

=== FILE: wrappers.dfy ===
/** Failure-compatible result types shared by the rest of the model. */
module Wrappers {

  /** An optional value: Python's `Optional[T]`, with `None` standing for an absent value. */
  datatype Option<+T> = None | Some(value: T) {
    predicate IsFailure() {
      None?
    }

    function PropagateFailure<U>(): Option<U>
      requires None?
    {
      None
    }

    function Extract(): T
      requires Some?
    {
      value
    }
  }

  /** Either a value or the error that a Python call would have raised instead. */
  datatype Result<+T, +E> = Success(value: T) | Failure(error: E) {
    predicate IsFailure() {
      Failure?
    }

    function PropagateFailure<U>(): Result<U, E>
      requires Failure?
    {
      Failure(error)
    }

    function Extract(): T
      requires Success?
    {
      value
    }
  }

  /** The position of the first element `f` fails on, or `|xs|` when it fails on none. */
  function FirstFailure<A, B, E>(xs: seq<A>, f: A -> Result<B, E>): (k: nat)
    ensures k <= |xs|
    ensures forall q :: 0 <= q < k ==> f(xs[q]).Success?
    ensures k < |xs| ==> f(xs[k]).Failure?
  {
    if |xs| == 0 || f(xs[0]).Failure? then 0 else 1 + FirstFailure(xs[1..], f)
  }

  /**
    `f` applied to each element in turn, as a Python loop or list
    comprehension runs it: the first failure ends the loop and is the result.
  */
  function MapAll<A, B, E>(xs: seq<A>, f: A -> Result<B, E>): (r: Result<seq<B>, E>)
    ensures r.Success? <==> forall j :: 0 <= j < |xs| ==> f(xs[j]).Success?
    ensures r.Success? ==> |r.value| == |xs| && forall j :: 0 <= j < |xs| ==> f(xs[j]) == Success(r.value[j])
    ensures r.Failure? ==> FirstFailure(xs, f) < |xs| && f(xs[FirstFailure(xs, f)]) == Failure(r.error)
  {
    if |xs| == 0 then Success([])
    else
      match f(xs[0])
      case Failure(e) => Failure(e)
      case Success(b) =>
        match MapAll(xs[1..], f)
        case Failure(e) => Failure(e)
        case Success(bs) => Success([b] + bs)
  }

  /** Two successes map to the two results, in order. */
  lemma MapAllPair<A, B, E>(x: A, y: A, f: A -> Result<B, E>, a: B, b: B)
    requires f(x) == Success(a) && f(y) == Success(b)
    ensures MapAll([x, y], f) == Success([a, b])
  {
    assert [y][1..] == [] && [y][0] == y;
    assert MapAll([], f) == Success([]) && [b] + [] == [b];
    assert MapAll([y], f) == Success([b]);
    assert [x, y][1..] == [y];
    assert [a] + [b] == [a, b];
  }

  /** Mapping over a concatenation maps the first part, then the second. */
  lemma {:induction false} MapAllConcat<A, B, E>(a: seq<A>, b: seq<A>, f: A -> Result<B, E>)
    ensures MapAll(a + b, f) ==
      match MapAll(a, f)
      case Failure(e) => Failure(e)
      case Success(u) =>
        match MapAll(b, f)
        case Failure(e) => Failure(e)
        case Success(v) => Success(u + v)
  {
    if |a| == 0 {
      assert a + b == b;
      assert MapAll(a, f) == Success([]);
      if MapAll(b, f).Success? {
        assert [] + MapAll(b, f).value == MapAll(b, f).value;
      }
    } else {
      MapAllConcat(a[1..], b, f);
      assert (a + b)[1..] == a[1..] + b;
      assert (a + b)[0] == a[0];
      match f(a[0])
      case Failure(_) =>
      case Success(y) =>
        match MapAll(a[1..], f)
        case Failure(_) =>
        case Success(u) =>
          match MapAll(b, f)
          case Failure(_) =>
          case Success(v) =>
            assert [y] + (u + v) == [y] + u + v;
    }
  }
}
